=== FILE: README.md ===
# Urban heat monitoring: a verified model of the processing core

The urban-heat-monitoring system builds weekly satellite composites for Saudi cities and turns
them into downloadable artifacts. A family of Earth Engine scripts, in Python and in JavaScript
(Code Editor), does the building:

- `lst.py`, `lst.js` and `lst_bck.py` compute land surface temperature and the urban heat island.
- `albedo.py` and `albedo.js` compute broadband albedo.
- `ndvi.py`, `ndvi.js`, `ndbi.py` and `ndbi.js` compute vegetation and built-up indices.
- `urbanmask.py` and `urban.js` compute night-light urban masks.

Every script cuts a six-month horizon into 7-day windows. For each city and each window it
selects the qualifying scenes, masks the bad pixels with the sensor's quality bits, and computes
a per-pixel index. It then composites the window and exports the result to Drive under
`<key>_<index>_<YYYY-MM-dd>`, or adds it as a map layer. `server/download.py` walks the Drive
folder and parses those names back. It snaps each date to the Sunday that starts its week and
stores every file as `<data>/<city>/<sunday>/<analysis>/image.tif` and `.../stats.json`.

The Dafny modules follow that structure.

| module (file) | what it holds |
|---|---|
| `Weeks` (weeks.dfy) | the window generator, with the append loop as a method proved equal to the list comprehension |
| `Dates` (dates.dfy) | days as Python proleptic ordinals, `format('YYYY-MM-dd')`, `strptime`, `get_first_day_of_week_for_date` |
| `Decimal`, `PyStrings` | digit rendering, `str.split`, `sep.join`, `in` on strings, `posixpath.join` |
| `Names` (names.dfy) | the three city-key normalisations the scripts use, and artifact names |
| `QualityMask` (qa.dfy) | Landsat `QA_PIXEL` and Sentinel-2 `QA60` bit tests on a `bv16` quality word, and the /10000 rescale |
| `Indices` (indices.dfy) | LST, albedo and normalised differences over exact reals |
| `Rasters`, `Uhi` | masked rasters as `seq<Option<real>>` over the area of interest, `updateMask`/`unmask`/`gt`/`not`/`subtract`/means, zonal gap-fill, the heat island |
| `Catalog` (catalog.dfy) | scenes, date and cloud filters, per-scene bands, weekly composites |
| `Tasks` (tasks.dfy) | what a run leaves behind: export tasks and map layers in order, and the error that stops it |
| `LstPy` … `UrbanJs` | one module per script: its per-window operation, with its own skip rule, city key and index |
| `Driver` (driver.dfy) | the scripts' top level as a fold over cities and windows, and a `Session` class whose loops append to an export log |
| `Download` (download.dfy) | `download.py`: the name parse, the destination layout, the skip-if-exists fetches; a `LocalStore` class whose loops mutate the set of existing paths and the fetch log |

Some behaviours are modelled exactly as the code has them, even where a general description of
the system says otherwise.

- **Empty windows.** Not every script skips a window without scenes. `exportAlbedo` of
  `albedo.js`, `exportNDBI` of `ndbi.js`, `export_ndbi` of `ndbi.py`, `urbanmask.py` and
  `urban.js` export every window, and so does `exportNDVI` of `ndvi.js` once corrected. For an
  empty window the task is still submitted, but it carries no image: Earth Engine's mean of an
  empty collection has no bands, so the band selection or threshold that follows has nothing to
  act on, and the task fails when it is run (`Driver.ExportRule`, `AlbedoJs.EmptyWindowExported`).
- **Empty zones.** The zonal means have no fallback when a zone is empty. The code fills each
  zone with its own `reduceRegion` mean, which is undefined for an empty zone. The model makes a
  non-empty zone a precondition of the heat-island algebra, and `Catalog.WeekUhi` has no raster
  otherwise.
- **QA bit labels.** The Landsat mask tests bits 5 and 3 of `QA_PIXEL`, which the scripts label
  "cloud" and "shadow". The model keeps those bits. The Collection 2 documentation assigns
  bit 3 to cloud and bit 5 to snow.
- **Dropped window day.** `ee.Filter.date(start, end)` excludes its end instant. lst.py,
  lst_bck.py, albedo.py, ndvi.py and ndbi.py start their clock at midnight (`strftime('%Y-%m-%d')`),
  so their windows `[start, start + 6]` never select a scene from the last day
  (`Catalog.WindowMissesLastDay`).
- **Download failures.** In `download.py`:
  - a name that contains the analysis type but does not split into three fields, or whose date
    does not parse, raises, and the whole run stops;
  - an empty Drive listing makes `list_files_in_folder` return `None`, so the first pass fails;
  - `--analysis` is parsed but never used.

## Model

| member | source | states |
|---|---|---|
| Weeks.WeekCount | server/gee/lst.py:22-23 | the window count is the floor of days/7: `7r <= totalDays < 7r + 7` |
| Weeks.WeekCountTrunc | server/gee/urbanmask.py:24 | `int(total_days / 7)` truncates toward zero: the floor bracket for non-negative counts, the mirrored bracket for negative ones |
| Weeks.BuildWeeks | server/gee/lst.py:26-30 | the `weeks.append` loop builds exactly the list the `weekly_intervals` comprehension (lines 43-46) builds |
| Weeks.WindowsSpacing | server/gee/lst.py:27-30 | window i starts at start + 7i and ends 6 days after its start; consecutive starts are 7 days apart |
| Weeks.WindowsIncreasing | server/gee/lst.py:27-30 | later windows start strictly later |
| Weeks.WindowsWithinHorizon | server/gee/lst.py:22-30 | there are floor(totalDays/7) windows, every window ends by endDate − 1 day, and one more window would not fit |
| Weeks.WindowsPartition | server/gee/lst.py:27-30 | every day of the first 7·numWeeks days lies in exactly one window |
| Weeks.ShortHorizonNoWindows | server/gee/lst.py:23-27 | a horizon shorter than 7 days yields no window |
| Weeks.TruncWindowsAgree | server/gee/urbanmask.py:24-30 | the truncating count of urbanmask.py yields the same windows as the floor of the other scripts, for every day count |
| Dates.FromOrdinal | server/download.py:55-58 | `date.fromordinal`: the date returned is valid and has the given ordinal |
| Dates.FromToOrdinal | server/download.py:55-58 | ordinals number the dates 0001-01-01 … 9999-12-31 one-to-one: `fromordinal(toordinal(d)) == d` |
| Dates.Format | server/gee/lst.py:128 | `format('YYYY-MM-dd')` gives ten characters with dashes at positions 4 and 7 |
| Dates.FormatCharacters | server/gee/lst.py:128 | every other character of a formatted date is a digit |
| Dates.Parse | server/download.py:55 | a successful `strptime(s, "%Y-%m-%d")` yields a day of Python's date range |
| Dates.ParseFormat | server/download.py:55 | reading back a formatted day gives that day |
| Dates.FormatInjective | server/gee/lst.py:128-129 | equal date strings come from equal days |
| Dates.FormatDistinct | server/gee/lst.py:128-129 | different days give different date strings |
| Dates.FirstDayOfWeek | server/download.py:53-58 | the result is a Sunday, at most the input and less than 7 days before it; Python's OverflowError happens exactly for the first six days of the calendar |
| Dates.FirstDayOfWeekIdempotent | server/download.py:56-58 | a Sunday snaps to itself, so snapping twice equals snapping once |
| Dates.FirstDayOfWeekShift | server/download.py:56-58 | snapping commutes with a one-week shift |
| Dates.FirstDayOfWeekForDate | server/download.py:53-58 | on a date string: an unparseable string raises ValueError; a parsed day is snapped, which raises OverflowError only in the calendar's first six days |
| Decimal.Pad | server/gee/lst.py:128 | a zero-padded field has exactly the width asked and only digits |
| Decimal.ValuePad | server/gee/lst.py:128 | a zero-padded field reads back as its number |
| Decimal.NatToString | server/gee/lst_bck.py:114 | `str(n)`: digits only, no leading zero, denoting n |
| Decimal.NatToStringInjective | server/gee/lst_bck.py:114 | different numbers render differently |
| PyStrings.Split | server/download.py:74 | `str.split` never returns an empty list, and no piece holds the separator |
| PyStrings.JoinSplit | server/download.py:74 | joining the pieces of a split gives back the string |
| PyStrings.SplitPrefix | server/download.py:74 | a separator-free prefix sticks to the first piece of a split |
| PyStrings.SplitJoin | server/download.py:74-77 | splitting a join of separator-free pieces gives back the pieces |
| PyStrings.SplitFirstField | server/download.py:77 | `parts[2].split(".")[0]` stops at the first dot |
| PyStrings.ContainsPrefix | server/download.py:69 | the substring test accepts every prefix of a name |
| PyStrings.PosixJoin | server/download.py:82 | `os.path.join`: an absolute component replaces the path; otherwise the path is kept as a prefix and the component as a suffix |
| PyStrings.PosixJoinRelative | server/download.py:82-96 | a relative component after a path without a trailing slash is joined by exactly one slash |
| Names.RemoveAll | server/gee/lst.py:77 | `replace(" ", "")` leaves no space and adds no character; a single character is dropped iff it is the space |
| Names.RemoveAllMultiset | server/gee/lst.py:77 | every character other than the space is kept as often as it occurs, and the space not at all |
| Names.RemoveAllAppend | server/gee/lst.py:77 | removal works piece by piece, so the kept characters stay in their order |
| Names.RemoveWhitespace | server/gee/js/lst.js:84 | `replace(/\s+/g, '')` leaves no whitespace character at all and adds none; a single character is dropped iff it is whitespace |
| Names.RemoveWhitespaceMultiset | server/gee/js/lst.js:84 | every non-whitespace character is kept as often as it occurs, and whitespace not at all |
| Names.RemoveWhitespaceAppend | server/gee/js/lst.js:84 | removal works piece by piece, so the kept characters stay in their order |
| Names.RemoveFirstRemovesOne | server/gee/js/ndvi.js:42 | `replace(" ", "")` with a string pattern removes exactly one space when there is one (as multisets), and nothing otherwise |
| Names.ArtifactName | server/gee/lst.py:141 | `<key>_<index>_<date>` has the two underscores at the positions after the key and the index |
| Names.ArtifactNameFields | server/gee/lst.py:141 | the key, index and date can be read back from their positions in the name |
| Names.ArtifactNameDateInjective | server/gee/lst.py:128-141 | names sharing key and index are equal only when their dates are |
| Names.ArtifactNameDistinct | server/gee/lst.py:128-141 | names sharing key and index but not date differ |
| Names.RemoveSpacesHasNoSpace | server/gee/lst.py:77 | the Python key holds no space |
| Names.RemoveWhitespaceRunsHasNoWhitespace | server/gee/js/lst.js:84 | the JavaScript key holds no whitespace |
| Names.LowerIdempotent | server/gee/lst.py:77 | lowering twice equals lowering once |
| Names.RemoveAllLower | server/gee/lst.py:77 | removing spaces and lowering commute |
| Names.RemoveWhitespaceLower | server/gee/js/lst.js:84 | removing whitespace and lowering commute |
| Names.CleanIdempotent | server/gee/js/lst.js:84 | normalising a key that is already normalised changes nothing, for both full-removal keys |
| Names.SpacesOnlyKeysAgree | server/gee/js/lst.js:84 | on names whose only whitespace is U+0020, the Python and the JavaScript keys agree |
| Names.FirstSpaceOnly | server/gee/js/ndvi.js:42 | with at most one space, the first-space key equals the Python key |
| Names.ThreeWordsKey | server/gee/js/lst.js:84 | three words separated by single spaces give the three lowered words concatenated |
| Names.MakkahWhitespaceRuns | server/gee/js/lst.js:84 | 'Makkah Al Mukarramah' gives 'makkahalmukarramah' |
| Names.MakkahFirstSpace | server/gee/js/ndvi.js:75 | 'Makkah Al Mukarramah' gives 'makkahal mukarramah' under the first-space key |
| QualityMask.LandsatClearBits | server/gee/lst.py:48-52 | a Landsat pixel is kept iff bits 5 and 3 of `QA_PIXEL` are both 0 |
| QualityMask.LandsatOnlyBits | server/gee/lst.py:48-52 | no other bit affects the Landsat decision |
| QualityMask.S2ClearBits | server/gee/albedo.py:43-48 | a Sentinel-2 pixel is kept iff bits 10 and 11 of `QA60` are both 0 |
| QualityMask.S2OnlyBits | server/gee/albedo.py:43-48 | no other bit affects the Sentinel-2 decision |
| QualityMask.MaskInvalidPixel | server/gee/lst.py:48-52 | a pixel survives iff it is present and clear, and a survivor is unchanged |
| QualityMask.MaskS2Cloud | server/gee/albedo.py:43-48 | a pixel survives iff it is present and clear, and every band of a survivor, the quality band included, is divided by 10000 |
| QualityMask.MaskInvalidPixels | server/gee/lst_bck.py:45-50 | the image is masked pixel by pixel and keeps its size |
| QualityMask.MaskS2Clouds | server/gee/ndvi.py:36-41 | the image is masked and rescaled pixel by pixel and keeps its size |
| QualityMask.MaskInvalidPixelsOnlyRemoves | server/gee/js/lst.js:47-53 | a masked pixel stays masked |
| QualityMask.MaskInvalidPixelsIdempotent | server/gee/js/lst.js:47-53 | masking twice equals masking once |
| Indices.LstStrictlyIncreasing | server/gee/lst.py:54-60 | the temperature is strictly increasing in `ST_B10` |
| Indices.LstInverse | server/gee/lst_bck.py:52-54 | the scaling is a bijection: each temperature comes from exactly one digital number |
| Indices.CalculateLst | server/gee/lst.py:54-60 | the `lst` band satisfies `lst + 273.15 − 149.0 = ST_B10 · 0.00341802`, and the existing bands are kept |
| Indices.AlbedoWeightsSum | server/gee/albedo.py:63-70 | the six weights add up to 0.743 |
| Indices.AlbedoBounds | server/gee/albedo.py:55-71 | reflectances in [0, 1] give an albedo in [0, 0.743], and all ones reach 0.743 |
| Indices.AlbedoMonotone | server/gee/js/albedo.js:32-49 | albedo is monotone in every band |
| Indices.AlbedoExample | server/gee/albedo.py:63-70 | a worked pixel: (0.1, 0.15, 0.12, 0.3, 0.25, 0.1) gives 0.11133 |
| Indices.NormalizedDifference | server/gee/ndvi.py:44-46 | masked iff the two bands sum to 0; otherwise `value · (first + second) = first − second` |
| Indices.NormalizedDifferenceRange | server/gee/ndbi.py:41-43 | non-negative bands with a non-zero sum give a value in [−1, 1] |
| Indices.NormalizedDifferenceAntisymmetric | server/gee/ndbi.py:41-43 | swapping the bands negates the index |
| Indices.NormalizedDifferenceScaleInvariant | server/gee/ndvi.py:36-46 | dividing both bands by the same positive number, as the /10000 rescale does, leaves the index unchanged |
| Indices.Ndvi | server/gee/js/ndvi.js:27-30 | NDVI = (B8 − B4)/(B8 + B4): masked iff B8 + B4 = 0, otherwise value · (B8 + B4) = B8 − B4, in [−1, 1] for non-negative bands |
| Indices.Ndbi | server/gee/js/ndbi.js:31-34 | NDBI = (B11 − B8)/(B11 + B8): masked iff B11 + B8 = 0, otherwise value · (B11 + B8) = B11 − B8, in [−1, 1] for non-negative bands |
| Rasters.Mean | server/gee/lst.py:92-97 | `reduceRegion(mean)` has no value iff no pixel is present; otherwise mean · count = sum |
| Rasters.CountPositive | server/gee/lst.py:92-97 | some pixel is counted iff some pixel is present |
| Rasters.TemporalMean | server/gee/lst.py:87 | `collection.mean()` has one pixel per pixel of the area |
| Rasters.TemporalMeanSingle | server/gee/lst.py:87 | a one-image collection's mean is that image |
| Rasters.TemporalMeanPresent | server/gee/lst.py:87-89 | a composite pixel is present iff some image has that pixel |
| Rasters.UpdateMaskSelf | server/gee/js/lst.js:95-96 | re-masking an image with its own `mask()` changes no pixel |
| Rasters.UpdateMaskOnlyRemoves | server/gee/lst.py:91 | a pixel present after `updateMask` was present before, with the same value, under a mask value that keeps it |
| Rasters.UnmaskFills | server/gee/lst.py:98 | after `unmask(v)` nothing is masked, and the pixels that were present are untouched |
| Rasters.UnmaskSum | server/gee/lst.py:98 | filling with v adds v once per masked pixel to the sum, and every pixel is then counted |
| Rasters.MeanOfGapFill | server/gee/lst.py:92-98 | filling a raster's gaps with its own mean leaves its mean unchanged |
| Rasters.SubtractSum | server/gee/lst.py:109 | the difference of two full rasters is full and sums to the difference of the sums |
| Rasters.SubtractMean | server/gee/lst.py:109-123 | the mean of a difference of full rasters is the difference of their means |
| Rasters.MaskZerosSum | server/gee/js/lst.js:213 | masking the zero pixels keeps the sum and counts only the non-zero pixels |
| Uhi.HorizonUrbanMask | server/gee/lst.py:62-69 | the urban mask covers the area and depends only on the horizon's night lights, so it is the same for every window |
| Uhi.WeeklyUrbanMask | server/gee/urbanmask.py:43-44 | the weekly urban mask covers the area |
| Uhi.GtStrict | server/gee/lst.py:69 | `gt(t)` gives 1 iff the radiance is present and strictly above t, 0 iff present and at most t, and masked iff masked |
| Uhi.WeeklyThresholdExamples | server/gee/urbanmask.py:44 | with threshold 10, radiance 12 is urban while 8 and exactly 10 are not |
| Uhi.ZonesDisjoint | server/gee/lst.py:91-100 | a composite pixel is in the urban zone iff its mask value is non-zero, and in the non-urban zone iff it is zero; no pixel is in both |
| Uhi.GapFill | server/gee/lst.py:92-98 | a filled zone is full, keeps its own pixels, takes the zone mean everywhere else, and has the zone's mean |
| Uhi.UhiRaster | server/gee/lst.py:109 | the heat island raster covers the area with no masked pixel |
| Uhi.UhiPixel | server/gee/lst.py:91-109 | an urban pixel is its temperature minus nMean; a non-urban pixel is uMean minus its temperature; any other pixel is uMean − nMean |
| Uhi.UhiIndex | server/gee/lst.py:118-123 | the reported `uhi_index`, the AOI mean of the heat island raster, is uMean − nMean |
| Uhi.MaskZerosPixel | server/gee/js/lst.js:213 | `updateMask(neq(0))` hides exactly the zero-valued pixels and shows every other pixel unchanged |
| Uhi.MaskZerosStatistic | server/gee/js/lst.js:213-227 | the map view's statistic sums the same values but counts only the non-zero pixels |
| Uhi.MaskZerosNoZero | server/gee/js/lst.js:222-227 | with no zero-valued pixel, the map view's statistic equals the exported `uhi_index` |
| Uhi.MaskZerosDiffers | server/gee/js/lst.js:222-227 | with a zero-valued pixel and a non-zero sum, the map view's statistic differs from the exported one |
| Catalog.FilterDate | server/gee/lst.py:81-82 | a scene is kept iff its day is at least the start and before the end |
| Catalog.FilterDateMultiplicity | server/gee/lst.py:81-82 | every copy of a scene in the window is kept, and no copy of any other scene |
| Catalog.FilterDateAppend | server/gee/lst.py:81-82 | filtering a concatenation filters each part, so the collection order is kept |
| Catalog.FilterCloudBelow | server/gee/lst.py:73 | a scene is kept iff its cloud cover is strictly below the limit |
| Catalog.FilterCloudBelowMultiplicity | server/gee/lst.py:73 | every copy of a scene below the limit is kept, and no copy of any other scene |
| Catalog.FilterCloudBelowAppend | server/gee/lst.py:73 | filtering a concatenation filters each part, so the collection order is kept |
| Catalog.FilterDateNarrow | server/gee/lst.py:71-82 | filtering the horizon's scenes to a sub-window equals filtering to the window directly |
| Catalog.FilterDateCloudCommute | server/gee/js/lst.js:77-89 | the cloud filter and the date filter commute |
| Catalog.WindowMissesLastDay | server/gee/lst.py:81 | a scene acquired on a window's end day is never selected for that window |
| Catalog.LandsatWeekDirect | server/gee/lst.py:71-82 | for a window inside the horizon the horizon filter is redundant |
| Catalog.S2Week | server/gee/albedo.py:81-85 | a Sentinel-2 scene is used iff it lies in the window and its cloudy percentage is strictly below 20 |
| Catalog.S2WeekMultiplicity | server/gee/albedo.py:81-85 | the window's collection holds every copy of each qualifying scene and nothing else |
| Catalog.LstBand | server/gee/lst.py:82 | a scene's `lst` pixel is present iff the raw pixel is present and clear, and then it is the LST of its `ST_B10` |
| Catalog.S2Band | server/gee/ndvi.py:78 | a scene's index pixel is present iff the raw pixel is clear and the index is defined on the rescaled pixel |
| Catalog.NdviBandRange | server/gee/ndvi.py:78 | a clear pixel with non-negative reflectances has an NDVI in [−1, 1] or none |
| Catalog.LstMean | server/gee/lst.py:87-89 | the weekly composite, re-masked with its own mask, is the temporal mean of the scenes' `lst` bands |
| Catalog.HorizonMask | server/gee/lst.py:62-69 | a city's horizon urban mask covers its area |
| Catalog.WeekUhi | server/gee/lst.py:91-123 | the heat island raster exists iff both zones have pixels, and then its AOI mean is uMean − nMean |
| Tasks.Export | server/gee/lst.py:142-150 | an image export without `fileNamePrefix` files its image under its description |
| Tasks.Then | server/gee/js/lst.js:239-246 | after an error nothing more runs; otherwise the effects append and the later error is kept |
| Tasks.ThenAssociative | server/gee/js/lst.js:239-246 | grouping of consecutive steps does not matter |
| Tasks.FoldSnoc | server/gee/lst.py:168-170 | a run of one more window is the shorter run followed by that window |
| Tasks.FoldExtends | server/gee/lst.py:168-170 | a run that has not failed appends the next window's effects and takes on its error |
| Tasks.FoldStopped | server/gee/lst.py:168-170 | once a prefix of a run has failed, the remaining windows add nothing |
| Tasks.FoldMember | server/gee/lst.py:168-170 | every effect of a run comes from one of its windows |
| Tasks.FoldOnePerStep | server/gee/lst.py:168-170 | when each window yields one effect and no error, the run is those effects in window order |
| Tasks.FoldStopsAfterOne | server/gee/js/lst.js:239-246 | windows that each fail right after their only effect make a run with at most one effect, failing iff it has one |
| Tasks.ExportWithMean | server/gee/lst.py:141-166 | an image export and a table export under one name, the table export submitted with the image's AOI mean as its feature's properties argument |
| Tasks.MeanOf | server/gee/lst.py:118-123 | the AOI mean exists iff there is an image with a present pixel |
| LstPy.UrbanMask | server/gee/lst.py:62-69 | `get_urban_mask` covers the area and takes no window argument, so it is the same for every window |
| LstPy.Composite | server/gee/lst.py:87-89 | the window composite covers the area |
| LstPy.ExportLstAndUhi | server/gee/lst.py:76-166 | nothing iff the window has no image; otherwise the heat island raster and its mean, both named `clean_uhi_date`, with the raster present iff both zones have pixels and the table export submitted with uMean − nMean as its feature's properties argument |
| LstJs.CityUrbanMask | server/gee/js/lst.js:64-75 | `getCityUrbanMask` covers the area and reads only the horizon |
| LstJs.Composite | server/gee/js/lst.js:95-96 | the window composite covers the area |
| LstJs.ExportLstUhiAsWritten | server/gee/js/lst.js:83-175 | as written: nothing iff the window has no image; otherwise at most one export, then the TypeError |
| LstJs.ExportLstUhi | server/gee/js/lst.js:83-175 | as intended: nothing iff the window has no image; otherwise four exports, the heat island image and table export named `clean_uhi_date`, then the LST composite and table export named `clean_lst_date`, each table export submitted with its image's AOI mean as its feature's properties argument |
| LstJs.ExportedUhiIsMeanDifference | server/gee/js/lst.js:99-150 | the exported heat island image exists iff both zones have pixels, and then the `uhi_index` the table export is submitted with is uMean − nMean |
| LstJs.AsWrittenStopsAfterFirstExport | server/gee/js/lst.js:138-150 | as written, a non-empty window issues exactly the first of the four intended exports and stops with a TypeError |
| LstJs.AddToMap | server/gee/js/lst.js:178-236 | nothing iff the window has no image; otherwise two map layers: the heat island with its zero pixels masked (none when a zone is empty) labelled `city UHI<start> to <end>`, then the LST composite labelled `city LST <start> to <end>`, both over the horizon's dates |
| LstJs.AddToMapLabelsIgnoreWindow | server/gee/js/lst.js:231-235 | every window's layers carry the same two labels |
| LstBck.WeekTagDistinct | server/gee/lst_bck.py:114 | the `Week i+1` tags tell the windows apart |
| LstBck.FirstWeekTag | server/gee/lst_bck.py:114 | the first window is tagged "Week 1" |
| LstBck.ExportLst | server/gee/lst_bck.py:99-129 | nothing iff the window has no image; otherwise one export named `clean_lst_date` of the composite, tagged with its 1-based week number |
| AlbedoPy.Composite | server/gee/albedo.py:92 | the window composite covers the area |
| AlbedoPy.ExportAlbedo | server/gee/albedo.py:77-107 | nothing iff the window has no scene; otherwise one export named `clean_albedo_date` |
| AlbedoJs.Composite | server/gee/js/albedo.js:77 | the window composite covers the area |
| AlbedoJs.ExportAlbedo | server/gee/js/albedo.js:67-90 | exactly one export named `clean_albedo_date`, whatever the window holds; its image is the window's albedo composite, and there is none when the window has no scene |
| AlbedoJs.EmptyWindowExported | server/gee/js/albedo.js:67-90 | an empty window is still exported under its name, as a task with no image |
| AlbedoJs.AddToMap | server/gee/js/albedo.js:97-117 | a layer `clean Albedo week date` iff the window has scenes |
| NdviPy.Composite | server/gee/ndvi.py:78 | the window composite covers the area |
| NdviPy.ExportNdvi | server/gee/ndvi.py:63-92 | nothing iff the window has no scene; otherwise one export named `clean_ndvi_date` |
| NdviJs.Composite | server/gee/js/ndvi.js:91 | the window composite covers the area |
| NdviJs.ExportNdviAsWritten | server/gee/js/ndvi.js:41-43 | as written, `exportNDVI` stops with a ReferenceError before any export |
| NdviJs.ExportNdvi | server/gee/js/ndvi.js:45-68 | as intended: one export per window, named with the first-space key and `ndvi`, with the window's NDVI composite as its image, or none when the window has no scene |
| NdviJs.AddToMap | server/gee/js/ndvi.js:78-98 | a layer `clean NDVI date` iff the window has scenes |
| NdviJs.MakkahLabel | server/gee/js/ndvi.js:75-93 | for 'Makkah Al Mukarramah' the layer label keeps a space: `makkahal mukarramah NDVI <date>` |
| NdbiPy.Composite | server/gee/ndbi.py:70 | the window composite covers the area |
| NdbiPy.ExportNdbi | server/gee/ndbi.py:60-84 | exactly one export named `clean_ndbi_date`, whatever the window holds; its image is the window's NDBI composite, and there is none when the window has no scene |
| NdbiPy.AddToMap | server/gee/ndbi.py:91-112 | a reported layer `clean NDBI week date` iff the window has scenes |
| NdbiJs.Composite | server/gee/js/ndbi.js:63 | the window composite covers the area |
| NdbiJs.ExportNdbi | server/gee/js/ndbi.js:53-76 | exactly one export named `clean_ndbi_date`, whatever the window holds; its image is the window's NDBI composite, and there is none when the window has no scene |
| NdbiJs.AddToMap | server/gee/js/ndbi.js:84-105 | a layer `clean NDBI week date` iff the window has scenes |
| UrbanMaskPy.WeekMask | server/gee/urbanmask.py:43-44 | the window's urban mask covers the area |
| UrbanMaskPy.ExportUrbanMask | server/gee/urbanmask.py:38-58 | exactly one export per window, with description and file name prefix both `clean_um_date`; its image is the window's urban mask, and there is none when the window has no VIIRS scene |
| UrbanJs.ScriptAsWritten | server/gee/js/urban.js:54-62 | as written, the file does not parse: no effect, a SyntaxError |
| UrbanJs.WeekMask | server/gee/js/urban.js:48-49 | the window's urban mask covers the area |
| UrbanJs.ExportUrbanMask | server/gee/js/urban.js:43-64 | as intended: exactly one export per window, named `clean_um_date` with the whitespace-run key; its image is the window's urban mask, and there is none when the window has no VIIRS scene |
| Driver.OperationWindows | server/gee/urbanmask.py:24-30 | every script, truncating or flooring, builds the same windows, all starting on representable days |
| Driver.WindowSteps | server/gee/lst.py:169-170 | one step per window, in window order |
| Driver.CitySteps | server/gee/lst.py:168-170 | one city run per city, in city order |
| Driver.SkipRule | server/gee/lst.py:84-85 | an operation with a skip rule acts on a window iff the window has scenes |
| Driver.ExportRule | server/gee/ndbi.py:60-84 | an operation without a skip rule exports exactly one artifact per window, named after the window's start, without error; the artifact has an image iff the window has scenes |
| Driver.SkippedWindowsLeaveNoTrace | server/gee/lst_bck.py:106-108 | every effect of a skipping operation's run comes from a window that has scenes |
| Driver.DistinctExports | server/gee/ndbi.py:60-84 | windows that each export one artifact under pairwise different names make a run of those artifacts, in order, no two alike |
| Driver.EveryWindowExported | server/gee/js/ndbi.js:49-77 | an operation without a skip rule exports floor(days/7) artifacts for a city, in window order, each named after its own window, no two alike |
| Driver.RunCityExportsNames | server/gee/js/albedo.js:63-91 | a per-window export under the window's own name, over strictly increasing windows, yields one distinct artifact per window |
| Driver.WindowNamesDistinct | server/gee/lst.py:128-141 | windows starting on different days get different artifact names |
| Driver.LstJsAsWrittenExportsAtMostOne | server/gee/js/lst.js:239-246 | as written, a whole lst.js run issues at most one export and fails with a TypeError iff it issues one |
| Driver.NdviJsAsWrittenExportsNothing | server/gee/js/ndvi.js:41-69 | as written, `exportNDVI` exports nothing for any city list and stops with a ReferenceError |
| Driver.UrbanJsRunsJiddahOnly | server/gee/js/urban.js:67 | urban.js runs for 'Jiddah' alone, while its `city_names` is ['Riyadh'] |
| Driver.LogExtends | server/gee/lst.py:168-170 | appending one more window to an unfailed log extends it by that window's effects |
| Driver.Session.constructor | server/gee/lst.py:168-170 | a fresh export log is empty and has no error |
| Driver.Session.Run | server/gee/lst.py:26-30 | builds the windows with the append loop, then the log becomes the old log plus the run of every city over those windows |
| Driver.Session.RunEachCity | server/gee/lst.py:168-170 | the cities loop appends every city's run to the log and keeps the first error |
| Driver.Session.RunOneCity | server/gee/lst.py:169-170 | the windows loop appends the city's run to the log and keeps its error |
| Driver.Session.RunScript | server/gee/js/albedo.js:120-123 | a script file's top level runs its entry operation for its entry cities from an empty log; for lst.js and urban.js the entry operation is the corrected one (`LstJs.ExportLstUhi`, `UrbanJs.ExportUrbanMask`), since as written those files stop with a TypeError and a SyntaxError |
| Download.ParseName | server/download.py:74-78 | IndexError iff the name has fewer than three `_` fields; otherwise it succeeds iff the date field up to its first `.` snaps to a Sunday, and fails with that snap's ValueError or OverflowError; on success the city and analysis are fields 0 and 1, and the Sunday is at most the parsed date and less than 7 days before it |
| Download.ExportedFileFields | server/download.py:74-77 | splitting an exported file name gives back key, index and date with extension |
| Download.ParseExportedFile | server/download.py:74-78 | parsing an exported file name gives back its key, its index and the Sunday of its week when neither the key nor the index holds `_`; a day of the calendar's first week fails with OverflowError |
| Download.SlashSeparated | server/download.py:82-96 | joining relative, non-empty fields puts exactly one slash between each |
| Download.DestinationLayout | server/download.py:82-103 | the destinations are `<data>/<city>/<sunday>/<analysis>/image.tif` and `.../stats.json` |
| Download.DestinationsDistinct | server/download.py:92-107 | the two destinations differ from each other and from the three folders |
| Download.FetchIfMissing | server/download.py:96-107 | an existing destination is left alone; a missing one is fetched once, and exists afterwards iff the server answers |
| Download.ProcessItem | server/download.py:67-107 | a name without the type is passed over; with it, the run fails iff the name does not parse, and a failure changes nothing; paths and fetches only grow; new fetches all carry the item's id and happen only for the exact analysis |
| Download.StoreItem | server/download.py:82-107 | the three folders exist afterwards; at most two fetches are appended, all from the file's id |
| Download.ProcessItemsGrows | server/download.py:67-107 | a pass over the listing only adds paths and fetches |
| Download.BadNameStopsRun | server/download.py:74-78 | a name that contains the type but does not parse stops the pass where it is, changing nothing |
| Download.ShortNameRaises | server/download.py:74-76 | `um.tif` contains `um` but has one field, so the `um` pass raises IndexError at once |
| Download.SubstringPrecheckNotEnough | server/download.py:69-81 | an `lst` export of a city whose key starts with `um` passes the substring test of the `um` pass and is dropped only by the field test |
| Download.SameWeekSameFolder | server/download.py:53-58 | two days of one week snap to the same Sunday |
| Download.WeekApartDifferentFolder | server/download.py:56-87 | days a week apart land in different Sunday folders |
| Download.StoreItemFetchesBoth | server/download.py:96-107 | with both destinations missing, the file is fetched to `image.tif` and then to `stats.json`, both from the same id |
| Download.ItemFetchedTwice | server/download.py:69-107 | a parsed file of the exact analysis, with both destinations missing, is fetched twice in order and the pass goes on |
| Download.ExportFetchedTwice | server/download.py:74-107 | an exported artifact of the analysis being fetched lands in the folder of its week's Sunday, fetched twice from its id |
| Download.EmptyListingStopsMain | server/download.py:29-33 | an empty listing stops `main` in its first pass after creating only the data folder |
| Download.MainIgnoresArgument | server/download.py:110-123 | the `--analysis` argument changes nothing |
| Download.LocalStore.constructor | server/download.py:64-65 | a store starts with the given paths and no fetch |
| Download.LocalStore.FetchMissing | server/download.py:96-100 | the store after the call is FetchIfMissing of the store before it |
| Download.LocalStore.DownloadAndProcessFiles | server/download.py:61-107 | the loop over the listing leaves the store, and returns the error, of the pure pass over the listing |
| Download.LocalStore.ProcessTypes | server/download.py:122-123 | the loop over analysis types leaves the store and error of the pure run over those types |
| Download.LocalStore.RunAllTypes | server/download.py:110-123 | `main` leaves the store, and returns the error, of the pure run over um, lst, uhi, ndvi, ndbi, albedo in that order, which stops at the first error |

## Left out

- Earth Engine geometry is not modelled: `filterBounds`, `clip` and boundary assets. A city's
  area of interest is its list of pixels, and each city has its own catalog of scenes.
- lst.js also filters its Landsat collection by Riyadh's boundary for every city (line 78). The
  model does not capture that, because it gives every city its own catalog.
- `landsat_images` of lst.py (lines 71-74) has no `filterBounds` at all, so its skip test at
  line 84 counts Landsat scenes anywhere on Earth. The model represents a scene that does not
  cover the city as a scene of the city's catalog whose pixels are all masked. Such a scene
  counts for the skip test, so a week with no scene over the city is still exported, from an
  all-masked composite.
- Projection, `scale` and `maxPixels` are not modelled. Every reduction is an exact mean over
  the area's pixels.
- The clock is a parameter. `Date.now()`, `datetime.now()` and `advance(-6, 'month')` are
  replaced by a horizon start and end day, because calendar-month arithmetic and the current
  time are not deterministic.
- Floating point is not modelled: every formula is over exact reals, with no rounding and
  no NaN.
- The masking Earth Engine applies to negative inputs of `normalizedDifference` is not
  modelled. The only masked result is a zero denominator.
- An empty zone has no fallback, because the code has none. The heat-island lemmas require both
  zones to have pixels. `Catalog.WeekUhi` gives no raster otherwise, and the export is still
  issued with no image.
- Synchronous order is assumed: `getInfo` and `evaluate` callbacks (albedo.js, ndvi.js,
  ndbi.js `addToMap`) run in window order, and no task runs concurrently.
- `print` output and visualisation parameters are left out, because they change no computed
  value. The one exception is `print(f"Layer added: {label}")` of `add_to_map` in ndbi.py
  (line 110), kept as a `LayerReport` because it is that function's only output; the
  "No valid images" message of its other branch (line 112) is left out.
- Three functions have no effect and are left out:
  - `add_to_map` of lst_bck.py, whose `Map.addLayer` is commented out;
  - `add_to_map` of albedo.py, which computes a label it never uses;
  - `add_to_map` of ndvi.py, whose `Map.addLayer` is commented out.
- `add_to_map` of lst.js is modelled (`LstJs.AddToMap`), but the script's top level does not
  call it.
- Days are limited to Python's date range, years 1 to 9999. Earth Engine dates outside it are
  not modelled.
- `strptime` is modelled for ASCII digits only. Python's `\d` also matches other Unicode digits.
- Only ASCII case folding is modelled: `lower()`/`toLowerCase()` act on ASCII letters, with no
  Unicode case mapping.
- Drive is modelled as an input:
  - the listing is an input sequence, the same for every pass of `main`;
  - `files().list` (line 28) is called without `pageSize` or `nextPageToken`, so only the
    first page of the folder is ever seen; the model's listing stands for that first page;
  - `download_file` is a fetch in a log;
  - the HTTP status is a `served` set of file ids that the server answers with status 200;
  - `requests` streaming and file contents are not modelled.
- The local file system is a set of existing paths. `os.makedirs` failures, such as a file
  standing where a folder should be, are not modelled, and neither is path normalisation.
- A table export records the number its feature is given, not the GeoJSON file it would write.
  lst.py (line 160) passes `stats.get('uhi_index')`, a bare number, as the properties argument of
  `ee.Feature`, which expects a dictionary, so the number is stored under no key and the task
  most likely fails Earth Engine's type check when run. The intended form is
  `{'uhi_index': ...}`, as in the lst.js entry under "## Findings". The model does not tell the
  two apart: `TableExport` carries the number either way.
- Export tasks are submitted, never run. The Drive file a task produces is given by
  `Download.ExportedFile` (name plus extension).
- The `week_end` of each window is six days after its start, as in the code. For the five scripts
  with midnight bounds (lst.py, lst_bck.py, albedo.py, ndvi.py, ndbi.py) the resulting loss of
  each window's last day is stated (`Catalog.WindowMissesLastDay`), not corrected.
- Windows are whole days. albedo.js (line 51), lst.js (line 34), ndbi.js (line 8), ndvi.js
  (line 5), urban.js (line 13) and urbanmask.py (line 21) take the clock with its time of day T,
  which `advance` keeps, so each of their windows runs from T on its first day to T on its last
  day. It takes last-day scenes acquired before T and drops first-day scenes acquired before T.
  The model's day-aligned windows do not capture which of those scenes are taken or dropped.
- A horizon without any VIIRS scene is not modelled as Earth Engine has it. Its mean has no
  bands, so the LST scripts' urban mask, and every window's heat island, would fail when run.
  The model gives an urban mask with every pixel masked, so both zones are empty and
  `Catalog.WeekUhi` gives no raster.

## Findings

| source | as written | input that shows it | evidently intended | confidence | as-written member | corrected member |
|---|---|---|---|---|---|---|
| server/gee/js/lst.js:150 | the table exports call `stats.get('uhi_index')` and `stats.get('lst_mean')` on a plain JavaScript object, which has no `get` method, so the first table export throws a TypeError | any window with at least one qualifying Landsat scene: only the `clean_uhi_date` image is exported, then the whole script stops | read the two fields and pass each under its own name (`{uhi_index: stats.uhi_index}`, `{lst_mean: stats.lst_mean}`), so that every non-empty window submits four exports | not executed | LstJs.ExportLstUhiAsWritten | LstJs.ExportLstUhi |
| server/gee/js/ndvi.js:43 | `exportNDVI` builds the boundary path from the undeclared name `data` and throws a ReferenceError before its loop | any call of `exportNDVI`, for any city | use `dest`, as `addToMap` on line 76 does | not executed | NdviJs.ExportNdviAsWritten | NdviJs.ExportNdvi |
| server/gee/js/urban.js:56 | the `description: fileName` entry lacks its trailing comma, so the file does not parse and nothing runs | the file as it stands | a comma after `fileName`, so that every window's urban mask is exported as `clean_um_date` | not executed | UrbanJs.ScriptAsWritten | UrbanJs.ExportUrbanMask |

=== FILE: albedo_js.dfy ===
/**
 * server/gee/js/albedo.js: the Code Editor albedo script. `exportAlbedo` exports every window,
 * empty or not; `addToMap`, the one the script runs for its four cities, adds a layer only for a
 * window that has scenes.
 */
module AlbedoJs {
  import opened Wrappers
  import opened QualityMask
  import opened Rasters
  import opened Catalog
  import opened Names
  import opened Dates
  import opened Weeks
  import opened Tasks

  const CityNames: seq<string> := ["Riyadh", "Jiddah", "Makkah Al Mukarramah", "Al Qatif"]

  /** `dataset.map(calculateAlbedo).mean().select('Albedo')` of one window. */
  function Composite(c: CityCatalog, w: Week): (r: Raster)
    ensures |r| == c.pixels
  {
    TemporalMean(Stack(S2Week(c.s2, w.start, w.end), AlbedoBand), c.pixels)
  }

  /** One iteration of `exportAlbedo`: one export whatever the window holds, with
   * no image when the window has no scenes (the mean of an empty collection has no bands to select). */
  function ExportAlbedo(c: CityCatalog, city: string, w: Week): (r: Step)
    requires ValidDay(w.start)
    ensures r.error.None?
    ensures r.effects == [Export(ArtifactName(Clean(RemoveWhitespaceRuns, city), "albedo", Format(w.start)),
      (if |S2Week(c.s2, w.start, w.end)| > 0 then Some(Composite(c, w)) else None), None)]
  {
    Step([Export(ArtifactName(Clean(RemoveWhitespaceRuns, city), "albedo", Format(w.start)),
      (if |S2Week(c.s2, w.start, w.end)| > 0 then Some(Composite(c, w)) else None), None)], None)
  }

  /** An empty window is exported anyway: the task is submitted under its name, with no image. */
  lemma EmptyWindowExported(c: CityCatalog, city: string, w: Week)
    requires ValidDay(w.start) && |S2Week(c.s2, w.start, w.end)| == 0
    ensures |ExportAlbedo(c, city, w).effects| == 1
    ensures ExportAlbedo(c, city, w).effects[0].description
      == ArtifactName(Clean(RemoveWhitespaceRuns, city), "albedo", Format(w.start))
    ensures ExportAlbedo(c, city, w).effects[0].image.None?
  {
  }

  /** One iteration of `addToMap`: a layer `clean Albedo week date` iff the window has scenes. */
  function AddToMap(c: CityCatalog, city: string, w: Week): (r: Step)
    requires ValidDay(w.start)
    ensures r.error.None?
    ensures r.effects == (if |S2Week(c.s2, w.start, w.end)| > 0
      then [MapLayer(Clean(RemoveWhitespaceRuns, city) + " Albedo week " + Format(w.start), Some(Composite(c, w)))]
      else [])
  {
    if |S2Week(c.s2, w.start, w.end)| > 0 then
      Step([MapLayer(Clean(RemoveWhitespaceRuns, city) + " Albedo week " + Format(w.start), Some(Composite(c, w)))], None)
    else Nothing
  }
}

=== FILE: albedo_py.dfy ===
/**
 * server/gee/albedo.py: per window, the mean broadband albedo of the cloud-free Sentinel-2
 * scenes, exported as `clean_albedo_date` unless the window has no scene.
 */
module AlbedoPy {
  import opened Wrappers
  import opened QualityMask
  import opened Rasters
  import opened Catalog
  import opened Names
  import opened Dates
  import opened Weeks
  import opened Tasks

  const CityNames: seq<string> := ["Riyadh"]

  /** `dataset.map(calculate_albedo).mean().select('Albedo')` of one window. */
  function Composite(c: CityCatalog, w: Week): (r: Raster)
    ensures |r| == c.pixels
  {
    TemporalMean(Stack(S2Week(c.s2, w.start, w.end), AlbedoBand), c.pixels)
  }

  /** One iteration of `export_albedo`: skipped when `dataset_size == 0`, else one export. */
  function ExportAlbedo(c: CityCatalog, city: string, w: Week): (r: Step)
    requires ValidDay(w.start)
    ensures r.error.None?
    ensures r.effects == [] <==> |S2Week(c.s2, w.start, w.end)| == 0
    ensures r.effects != [] ==>
      r.effects == [Export(ArtifactName(Clean(RemoveSpaces, city), "albedo", Format(w.start)), Some(Composite(c, w)), None)]
  {
    if |S2Week(c.s2, w.start, w.end)| == 0 then Nothing
    else Step([Export(ArtifactName(Clean(RemoveSpaces, city), "albedo", Format(w.start)), Some(Composite(c, w)), None)], None)
  }
}

=== FILE: catalog.dfy ===
/**
 * Image collections as the scripts filter and composite them. A scene carries its acquisition
 * day, its scene-level cloud metadata and one pixel record per pixel of the city's area of
 * interest (`None` where the scene has no valid data). Filters keep scenes in collection order.
 */
module Catalog {
  import opened Wrappers
  import opened QualityMask
  import opened Indices
  import opened Rasters
  import opened Uhi

  datatype Scene<P> = Scene(day: int, cloud: real, pixels: seq<Option<P>>)

  /** The collections one city's scripts read, restricted to its area of `pixels` pixels. */
  datatype CityCatalog = CityCatalog(
    landsat: seq<Scene<LandsatPixel>>,
    s2: seq<Scene<S2Raw>>,
    viirs: seq<Scene<real>>,
    pixels: nat)

  /** `filterMetadata('CLOUD_COVER', 'less_than', 1)` of the Landsat pipelines. */
  const LandsatCloudLimit: real := 1.0
  /** `ee.Filter.lt('CLOUDY_PIXEL_PERCENTAGE', 20)` of the Sentinel-2 pipelines. */
  const S2CloudLimit: real := 20.0

  /** `filterDate(start, end)` / `ee.Filter.date(start, end)`: the start day is in, the end day is out. */
  function FilterDate<P(!new)>(c: seq<Scene<P>>, start: int, end: int): (r: seq<Scene<P>>)
    ensures |r| <= |c|
    ensures forall s :: s in r <==> s in c && start <= s.day < end
  {
    if c == [] then []
    else if start <= c[0].day < end then [c[0]] + FilterDate(c[1..], start, end)
    else FilterDate(c[1..], start, end)
  }

  /** The date filter keeps every copy of a scene in the window and no copy of any other. */
  lemma {:induction false} FilterDateMultiplicity<P(!new)>(c: seq<Scene<P>>, start: int, end: int)
    ensures forall s :: multiset(FilterDate(c, start, end))[s] == if start <= s.day < end then multiset(c)[s] else 0
  {
    if c != [] {
      assert c == [c[0]] + c[1..];
      FilterDateMultiplicity(c[1..], start, end);
    }
  }

  /** The date filter keeps collection order: filtering a concatenation filters each part. */
  lemma {:induction false} FilterDateAppend<P(!new)>(a: seq<Scene<P>>, b: seq<Scene<P>>, start: int, end: int)
    ensures FilterDate(a + b, start, end) == FilterDate(a, start, end) + FilterDate(b, start, end)
  {
    if a == [] {
      assert a + b == b;
    } else {
      assert (a + b)[0] == a[0] && (a + b)[1..] == a[1..] + b;
      FilterDateAppend(a[1..], b, start, end);
    }
  }

  /** A strict `less_than` filter on the scene's cloud metadata. */
  function FilterCloudBelow<P(!new)>(c: seq<Scene<P>>, limit: real): (r: seq<Scene<P>>)
    ensures |r| <= |c|
    ensures forall s :: s in r <==> s in c && s.cloud < limit
  {
    if c == [] then []
    else if c[0].cloud < limit then [c[0]] + FilterCloudBelow(c[1..], limit)
    else FilterCloudBelow(c[1..], limit)
  }

  /** The cloud filter keeps every copy of a clear-enough scene and no copy of any other. */
  lemma {:induction false} FilterCloudBelowMultiplicity<P(!new)>(c: seq<Scene<P>>, limit: real)
    ensures forall s :: multiset(FilterCloudBelow(c, limit))[s] == if s.cloud < limit then multiset(c)[s] else 0
  {
    if c != [] {
      assert c == [c[0]] + c[1..];
      FilterCloudBelowMultiplicity(c[1..], limit);
    }
  }

  /** The cloud filter keeps collection order: filtering a concatenation filters each part. */
  lemma {:induction false} FilterCloudBelowAppend<P(!new)>(a: seq<Scene<P>>, b: seq<Scene<P>>, limit: real)
    ensures FilterCloudBelow(a + b, limit) == FilterCloudBelow(a, limit) + FilterCloudBelow(b, limit)
  {
    if a == [] {
      assert a + b == b;
    } else {
      assert (a + b)[0] == a[0] && (a + b)[1..] == a[1..] + b;
      FilterCloudBelowAppend(a[1..], b, limit);
    }
  }

  /** Narrowing a date filter to a sub-range is the same as filtering to the sub-range directly. */
  lemma {:induction false} FilterDateNarrow<P(!new)>(c: seq<Scene<P>>, a: int, b: int, a2: int, b2: int)
    requires a <= a2 && b2 <= b
    ensures FilterDate(FilterDate(c, a, b), a2, b2) == FilterDate(c, a2, b2)
  {
    if c != [] {
      FilterDateNarrow(c[1..], a, b, a2, b2);
    }
  }

  /** The cloud filter and the date filter commute. */
  lemma {:induction false} FilterDateCloudCommute<P(!new)>(c: seq<Scene<P>>, a: int, b: int, limit: real)
    ensures FilterDate(FilterCloudBelow(c, limit), a, b) == FilterCloudBelow(FilterDate(c, a, b), limit)
  {
    if c != [] {
      FilterDateCloudCommute(c[1..], a, b, limit);
    }
  }

  /** A scene acquired on a window's last day is never selected for that window. */
  lemma WindowMissesLastDay<P(!new)>(c: seq<Scene<P>>, start: int, end: int, s: Scene<P>)
    requires s.day == end
    ensures s !in FilterDate(c, start, end)
  {
  }

  /** Landsat scenes of the horizon below the cloud limit: `landsat_images` before the QA mask. */
  function LandsatQualifying(c: seq<Scene<LandsatPixel>>, horizonStart: int, horizonEnd: int): seq<Scene<LandsatPixel>> {
    FilterCloudBelow(FilterDate(c, horizonStart, horizonEnd), LandsatCloudLimit)
  }

  /** The qualifying Landsat scenes that fall in one window: `landsat_images.filter(week_filter)`. */
  function LandsatWeek(c: seq<Scene<LandsatPixel>>, horizonStart: int, horizonEnd: int, start: int, end: int)
    : seq<Scene<LandsatPixel>>
  {
    FilterDate(LandsatQualifying(c, horizonStart, horizonEnd), start, end)
  }

  /** For a window inside the horizon, the horizon filter is redundant. */
  lemma LandsatWeekDirect(c: seq<Scene<LandsatPixel>>, horizonStart: int, horizonEnd: int, start: int, end: int)
    requires horizonStart <= start && end <= horizonEnd
    ensures LandsatWeek(c, horizonStart, horizonEnd, start, end)
         == FilterCloudBelow(FilterDate(c, start, end), LandsatCloudLimit)
  {
    FilterDateCloudCommute(FilterDate(c, horizonStart, horizonEnd), start, end, LandsatCloudLimit);
    FilterDateNarrow(c, horizonStart, horizonEnd, start, end);
  }

  /** The Sentinel-2 scenes of one window below the cloud limit. */
  function S2Week(c: seq<Scene<S2Raw>>, start: int, end: int): (r: seq<Scene<S2Raw>>)
    ensures forall s :: s in r <==> s in c && start <= s.day < end && s.cloud < S2CloudLimit
  {
    FilterCloudBelow(FilterDate(c, start, end), S2CloudLimit)
  }

  /** A window's Sentinel-2 collection holds every copy of each qualifying scene and nothing else. */
  lemma S2WeekMultiplicity(c: seq<Scene<S2Raw>>, start: int, end: int)
    ensures forall s :: multiset(S2Week(c, start, end))[s]
                     == if start <= s.day < end && s.cloud < S2CloudLimit then multiset(c)[s] else 0
  {
    FilterDateMultiplicity(c, start, end);
    FilterCloudBelowMultiplicity(FilterDate(c, start, end), S2CloudLimit);
  }

  /** One band of every scene of a collection. */
  function Stack<P>(c: seq<Scene<P>>, band: Scene<P> -> Raster): (r: seq<Raster>)
    ensures |r| == |c|
    ensures forall i :: 0 <= i < |c| ==> r[i] == band(c[i])
  {
    seq(|c|, i requires 0 <= i < |c| => band(c[i]))
  }

  /** The `lst` band of a Landsat scene after `mask_invalid_pixels` and `calculate_lst`. */
  function LstBand(s: Scene<LandsatPixel>): (r: Raster)
    ensures |r| == |s.pixels|
    ensures forall k :: 0 <= k < |r| ==>
      (r[k].Some? <==> s.pixels[k].Some? && LandsatClear(s.pixels[k].value.qaPixel))
    ensures forall k :: 0 <= k < |r| && r[k].Some? ==> r[k].value == Lst(s.pixels[k].value.stB10)
  {
    var m := MaskInvalidPixels(s.pixels);
    seq(|m|, k requires 0 <= k < |m| => if m[k].Some? then Some(CalculateLst(m[k].value).lst) else None)
  }

  /** A Sentinel-2 band computed from every cloud-free, rescaled pixel; `None` where it is undefined. */
  function S2Band(s: Scene<S2Raw>, index: S2Pixel -> Option<real>): (r: Raster)
    ensures |r| == |s.pixels|
    ensures forall k :: 0 <= k < |r| ==>
      r[k] == (if MaskS2Cloud(s.pixels[k]).Some? then index(MaskS2Cloud(s.pixels[k]).value) else None)
  {
    seq(|s.pixels|, k requires 0 <= k < |s.pixels| =>
      var p := MaskS2Cloud(s.pixels[k]);
      if p.Some? then index(p.value) else None)
  }

  function AlbedoIndex(p: S2Pixel): Option<real> {
    Some(Albedo(p))
  }

  /** `calculate_albedo` then `select('Albedo')`, on one scene. */
  function AlbedoBand(s: Scene<S2Raw>): Raster {
    S2Band(s, AlbedoIndex)
  }

  /** `calculate_ndvi` then `select('NDVI')`, on one scene. */
  function NdviBand(s: Scene<S2Raw>): Raster {
    S2Band(s, Ndvi)
  }

  /** `calculate_ndbi` then `select('NDBI')`, on one scene. */
  function NdbiBand(s: Scene<S2Raw>): Raster {
    S2Band(s, Ndbi)
  }

  /** The `avg_rad` band of a night-lights scene. */
  function RadianceBand(s: Scene<real>): Raster {
    s.pixels
  }

  /** A cloud-free pixel with non-negative reflectances has an NDVI in [-1, 1] or none at all. */
  lemma NdviBandRange(s: Scene<S2Raw>, k: int)
    requires 0 <= k < |s.pixels| && s.pixels[k].Some?
    requires s.pixels[k].value.b8 >= 0.0 && s.pixels[k].value.b4 >= 0.0
    ensures NdviBand(s)[k].Some? ==> -1.0 <= NdviBand(s)[k].value <= 1.0
  {
    var raw := s.pixels[k].value;
    var p := MaskS2Cloud(s.pixels[k]);
    if p.Some? {
      assert p.value.b8 * S2Scale == raw.b8 && p.value.b4 * S2Scale == raw.b4;
      assert p.value.b8 >= 0.0 && p.value.b4 >= 0.0;
    }
  }

  /**
   * The weekly LST composite: `select('lst').mean()` re-masked with its own `mask()`, which
   * leaves every pixel as it was.
   */
  function LstMean(weekly: seq<Scene<LandsatPixel>>, n: nat): (r: Raster)
    ensures |r| == n
    ensures r == TemporalMean(Stack(weekly, LstBand), n)
  {
    var composite := TemporalMean(Stack(weekly, LstBand), n);
    UpdateMaskSelf(composite);
    UpdateMask(composite, MaskOf(composite))
  }

  /** The horizon urban mask of a city: mean night-time radiance over the horizon above 5. */
  function HorizonMask(c: CityCatalog, horizonStart: int, horizonEnd: int): (m: Raster)
    ensures |m| == c.pixels
  {
    HorizonUrbanMask(Stack(FilterDate(c.viirs, horizonStart, horizonEnd), RadianceBand), c.pixels)
  }

  /** The heat island raster of a composite, when both zones have pixels; otherwise the server has no value. */
  function WeekUhi(lst: Raster, urban: Raster): (r: Option<Raster>)
    requires |urban| == |lst|
    ensures r.Some? <==> ZonesNonEmpty(lst, urban)
    ensures r.Some? ==> Mean(r.value) == Some(UrbanMean(lst, urban) - NonUrbanMean(lst, urban))
  {
    if ZonesNonEmpty(lst, urban) then UhiIndex(lst, urban); Some(UhiRaster(lst, urban)) else None
  }
}

=== FILE: dates.dfy ===
/**
 * Calendar days. A day is a proleptic Gregorian ordinal as Python's `date.toordinal()`
 * numbers it (0001-01-01 is day 1); Earth Engine's `advance(k, 'day')` is `+ k` on it.
 * The date strings the scripts produce with `format('YYYY-MM-dd')` and that the download
 * side reads back with `strptime(..., "%Y-%m-%d")` are modelled by Format and Parse.
 */
module Dates {
  import opened Wrappers
  import opened Decimal

  datatype Date = Date(year: int, month: int, day: int)

  predicate IsLeap(y: int) {
    y % 4 == 0 && (y % 100 != 0 || y % 400 == 0)
  }

  function DaysInYear(y: int): int {
    if IsLeap(y) then 366 else 365
  }

  function DaysInMonth(y: int, m: int): int
    requires 1 <= m <= 12
  {
    if m == 2 then (if IsLeap(y) then 29 else 28)
    else if m == 4 || m == 6 || m == 9 || m == 11 then 30
    else 31
  }

  /** Days of year `y` that precede the first of month `m` (13 stands for the next year). */
  function DaysBeforeMonth(y: int, m: int): int
    requires 1 <= m <= 13
  {
    var common :=
      if m == 1 then 0 else if m == 2 then 31 else if m == 3 then 59 else if m == 4 then 90
      else if m == 5 then 120 else if m == 6 then 151 else if m == 7 then 181
      else if m == 8 then 212 else if m == 9 then 243 else if m == 10 then 273
      else if m == 11 then 304 else if m == 12 then 334 else 365;
    common + (if m > 2 && IsLeap(y) then 1 else 0)
  }

  /** Days from 0001-01-01 to the first day of year `y`. */
  function DaysBeforeYear(y: int): int
    requires y >= 1
  {
    var p := y - 1;
    365 * p + p / 4 - p / 100 + p / 400
  }

  const MinYear: int := 1
  const MaxYear: int := 9999
  /** The ordinal of 9999-12-31, Python's `date.max`. */
  const MaxOrdinal: int := 3652059

  predicate ValidDate(d: Date) {
    MinYear <= d.year <= MaxYear && 1 <= d.month <= 12 && 1 <= d.day <= DaysInMonth(d.year, d.month)
  }

  /** The days Python's `date` can represent. */
  predicate ValidDay(n: int) {
    1 <= n <= MaxOrdinal
  }

  function ToOrdinal(d: Date): int
    requires ValidDate(d)
  {
    DaysBeforeYear(d.year) + DaysBeforeMonth(d.year, d.month) + d.day
  }

  lemma MonthStep(y: int, m: int)
    requires 1 <= m <= 12
    ensures DaysBeforeMonth(y, m + 1) == DaysBeforeMonth(y, m) + DaysInMonth(y, m)
  {
  }

  lemma YearStep(y: int)
    requires y >= 1
    ensures DaysBeforeYear(y + 1) == DaysBeforeYear(y) + DaysInYear(y)
  {
    var p := y - 1;
    assert (p + 1) / 4 == p / 4 + (if y % 4 == 0 then 1 else 0);
    assert (p + 1) / 100 == p / 100 + (if y % 100 == 0 then 1 else 0);
    assert (p + 1) / 400 == p / 400 + (if y % 400 == 0 then 1 else 0);
  }

  lemma {:induction false} YearsOrdered(a: int, b: int)
    requires 1 <= a < b
    ensures DaysBeforeYear(a + 1) <= DaysBeforeYear(b)
    decreases b - a
  {
    if a + 1 < b {
      YearsOrdered(a, b - 1);
      YearStep(b - 1);
    }
  }

  /** The year whose days contain ordinal `n`, searching upwards from `y`. */
  function FindYear(n: int, y: int): (r: int)
    requires y >= 1 && DaysBeforeYear(y) < n
    ensures r >= y && DaysBeforeYear(r) < n <= DaysBeforeYear(r + 1)
    decreases n - DaysBeforeYear(y)
  {
    YearStep(y);
    if n <= DaysBeforeYear(y + 1) then y else FindYear(n, y + 1)
  }

  /** The month of year `y` that holds its `r`-th day, searching upwards from `m`. */
  function FindMonth(y: int, r: int, m: int): (k: int)
    requires 1 <= m <= 12 && DaysBeforeMonth(y, m) < r <= DaysBeforeMonth(y, 13)
    ensures m <= k <= 12 && DaysBeforeMonth(y, k) < r <= DaysBeforeMonth(y, k + 1)
    decreases 12 - m
  {
    if r <= DaysBeforeMonth(y, m + 1) then m else FindMonth(y, r, m + 1)
  }

  /** Python's `date.fromordinal(n)`. */
  function FromOrdinal(n: int): (d: Date)
    requires ValidDay(n)
    ensures ValidDate(d) && ToOrdinal(d) == n
  {
    var y := FindYear(n, 1);
    YearStep(y);
    YearInRange(n);
    var r := n - DaysBeforeYear(y);
    var m := FindMonth(y, r, 1);
    MonthStep(y, m);
    Date(y, m, r - DaysBeforeMonth(y, m))
  }

  lemma YearInRange(n: int)
    requires ValidDay(n)
    ensures FindYear(n, 1) <= MaxYear
  {
    var y := FindYear(n, 1);
    if y > MaxYear {
      YearsOrdered(MaxYear, y);
      YearStep(MaxYear);
    }
  }

  lemma YearUnique(n: int, a: int, b: int)
    requires 1 <= a && DaysBeforeYear(a) < n <= DaysBeforeYear(a + 1)
    requires 1 <= b && DaysBeforeYear(b) < n <= DaysBeforeYear(b + 1)
    ensures a == b
  {
    if a < b { YearsOrdered(a, b); }
    if b < a { YearsOrdered(b, a); }
  }

  lemma MonthUnique(y: int, r: int, a: int, b: int)
    requires 1 <= a <= 12 && DaysBeforeMonth(y, a) < r <= DaysBeforeMonth(y, a + 1)
    requires 1 <= b <= 12 && DaysBeforeMonth(y, b) < r <= DaysBeforeMonth(y, b + 1)
    ensures a == b
  {
  }

  /** Ordinals number the valid dates one-to-one. */
  lemma {:induction false} FromToOrdinal(d: Date)
    requires ValidDate(d)
    ensures ToOrdinal(d) <= MaxOrdinal && FromOrdinal(ToOrdinal(d)) == d
  {
    var n := ToOrdinal(d);
    OrdinalWithinYear(d);
    OrdinalBound(d);
    var y := FindYear(n, 1);
    YearUnique(n, y, d.year);
    var r := n - DaysBeforeYear(y);
    var m := FindMonth(y, r, 1);
    MonthUnique(y, r, m, d.month);
    assert FromOrdinal(n) == Date(y, m, r - DaysBeforeMonth(y, m));
  }

  /** A date's ordinal falls among the days of its year and of its month. */
  lemma OrdinalWithinYear(d: Date)
    requires ValidDate(d)
    ensures DaysBeforeYear(d.year) < ToOrdinal(d) <= DaysBeforeYear(d.year + 1)
    ensures DaysBeforeMonth(d.year, d.month) < ToOrdinal(d) - DaysBeforeYear(d.year) <= DaysBeforeMonth(d.year, d.month + 1)
  {
    YearStep(d.year);
    MonthStep(d.year, d.month);
  }

  /** No valid date lies beyond 9999-12-31. */
  lemma OrdinalBound(d: Date)
    requires ValidDate(d)
    ensures ToOrdinal(d) <= MaxOrdinal
  {
    OrdinalWithinYear(d);
    if d.year < MaxYear { YearsOrdered(d.year, MaxYear); }
    YearStep(MaxYear);
    assert DaysBeforeYear(MaxYear + 1) == MaxOrdinal;
  }

  /** `format('YYYY-MM-dd')` of a day. */
  function Format(n: int): (s: string)
    requires ValidDay(n)
    ensures |s| == 10 && s[4] == '-' && s[7] == '-'
  {
    var d := FromOrdinal(n);
    Pad(d.year, 4) + "-" + Pad(d.month, 2) + "-" + Pad(d.day, 2)
  }

  /** A `%m` field of `strptime`: one of `1[0-2]`, `0[1-9]`, `[1-9]`. */
  predicate MonthField(f: string) {
    (|f| == 1 && '1' <= f[0] <= '9')
    || (|f| == 2 && AllDigits(f) && 1 <= Value(f) <= 12)
  }

  /** A `%d` field of `strptime`: one of `3[01]`, `[12]\d`, `0[1-9]`, `[1-9]`, ` [1-9]`. */
  predicate DayField(f: string) {
    (|f| == 1 && '1' <= f[0] <= '9')
    || (|f| == 2 && AllDigits(f) && 1 <= Value(f) <= 31)
    || (|f| == 2 && f[0] == ' ' && '1' <= f[1] <= '9')
  }

  function FieldValue(f: string): nat
    requires MonthField(f) || DayField(f)
  {
    if f[0] == ' ' then Value(f[1..]) else Value(f)
  }

  /**
   * `strptime(s, "%Y-%m-%d")`, then `toordinal()`; None where Python raises ValueError.
   * The year is exactly four digits; month and day may be unpadded, the day may be
   * space-padded; nothing may follow the day; the date must exist.
   */
  function Parse(s: string): (r: Option<int>)
    ensures r.Some? ==> ValidDay(r.value)
  {
    if |s| >= 7 && AllDigits(s[..4]) && s[4] == '-' then
      var rest := s[5..];
      var k := if rest[1] == '-' then 1 else 2;
      if |rest| > k && rest[k] == '-' && MonthField(rest[..k]) && DayField(rest[k + 1..]) then
        var d := Date(Value(s[..4]), FieldValue(rest[..k]), FieldValue(rest[k + 1..]));
        if ValidDate(d) then
          FromToOrdinal(d);
          Some(ToOrdinal(d))
        else None
      else None
    else None
  }

  /** A formatted day holds nothing but digits and the two dashes. */
  lemma FormatCharacters(n: int)
    requires ValidDay(n)
    ensures forall k :: 0 <= k < 10 && k != 4 && k != 7 ==> IsDigit(Format(n)[k])
  {
    var d := FromOrdinal(n);
    var s := Format(n);
    assert s[..4] == Pad(d.year, 4);
    assert s[5..7] == Pad(d.month, 2);
    assert s[8..] == Pad(d.day, 2);
    forall k | 0 <= k < 10 && k != 4 && k != 7 ensures IsDigit(s[k]) {
      if k < 4 { assert s[k] == s[..4][k]; }
      else if k < 7 { assert s[k] == s[5..7][k - 5]; }
      else { assert s[k] == s[8..][k - 8]; }
    }
  }

  /** Reading back a formatted day gives the day: the name's date field round-trips. */
  lemma {:induction false} ParseFormat(n: int)
    requires ValidDay(n)
    ensures Parse(Format(n)) == Some(n)
  {
    var d := FromOrdinal(n);
    var s := Format(n);
    assert s[..4] == Pad(d.year, 4);
    assert s[5..7] == Pad(d.month, 2);
    assert s[8..] == Pad(d.day, 2);
    ValuePad(d.year, 4);
    ValuePad(d.month, 2);
    ValuePad(d.day, 2);
    var rest := s[5..];
    assert rest[..2] == s[5..7] && rest[3..] == s[8..];
    assert IsDigit(rest[1]) by { FormatCharacters(n); assert rest[1] == s[6]; }
    assert MonthField(rest[..2]) && DayField(rest[3..]);
    assert Date(Value(s[..4]), FieldValue(rest[..2]), FieldValue(rest[3..])) == d;
  }

  /** Different days get different date strings. */
  lemma FormatInjective(a: int, b: int)
    requires ValidDay(a) && ValidDay(b) && Format(a) == Format(b)
    ensures a == b
  {
    ParseFormat(a);
    ParseFormat(b);
  }

  /** Different days format differently. */
  lemma FormatDistinct(a: int, b: int)
    requires ValidDay(a) && ValidDay(b) && a != b
    ensures Format(a) != Format(b)
  {
    if Format(a) == Format(b) {
      FormatInjective(a, b);
    }
  }

  /** Python's `date.weekday()`: Monday is 0, Sunday is 6. 0001-01-01 was a Monday. */
  function Weekday(n: int): int {
    (n + 6) % 7
  }

  datatype DateError = ValueError | OverflowError

  /**
   * `get_first_day_of_week_for_date` applied to a day: subtract `(weekday() + 1) % 7` days.
   * Python raises OverflowError when the result falls before 0001-01-01.
   */
  function FirstDayOfWeek(n: int): (r: Result<int, DateError>)
    requires ValidDay(n)
    ensures r.Ok? ==> ValidDay(r.value) && Weekday(r.value) == 6
                      && r.value <= n < r.value + 7
    ensures r.Err? <==> n < 7
  {
    var sundayIndex := (Weekday(n) + 1) % 7;
    var first := n - sundayIndex;
    if first < 1 then Err(OverflowError) else Ok(first)
  }

  /** A Sunday is its own first day of the week, so snapping twice changes nothing. */
  lemma FirstDayOfWeekIdempotent(n: int)
    requires ValidDay(n) && FirstDayOfWeek(n).Ok?
    ensures FirstDayOfWeek(FirstDayOfWeek(n).value) == FirstDayOfWeek(n)
  {
  }

  /** Snapping commutes with a one-week shift: weeks 7 days apart land on Sundays 7 days apart. */
  lemma FirstDayOfWeekShift(n: int)
    requires ValidDay(n) && ValidDay(n + 7) && FirstDayOfWeek(n).Ok?
    ensures FirstDayOfWeek(n + 7) == Ok(FirstDayOfWeek(n).value + 7)
  {
  }

  /** `get_first_day_of_week_for_date(input_date)` on the date string of a file name. */
  function FirstDayOfWeekForDate(s: string): (r: Result<int, DateError>)
    ensures r.Err? ==> Parse(s).None? || r.error == OverflowError
    ensures Parse(s).None? ==> r == Err(ValueError)
    ensures Parse(s).Some? ==> r == FirstDayOfWeek(Parse(s).value)
  {
    match Parse(s)
    case None => Err(ValueError)
    case Some(n) => FirstDayOfWeek(n)
  }
}

=== FILE: decimal.dfy ===
/** Decimal renderings of natural numbers, as used by date formatting and week tags. */
module Decimal {

  predicate IsDigit(c: char) {
    '0' <= c <= '9'
  }

  predicate AllDigits(s: string) {
    forall k :: 0 <= k < |s| ==> IsDigit(s[k])
  }

  function DigitChar(d: nat): (c: char)
    requires d < 10
    ensures IsDigit(c) && c as int - '0' as int == d
  {
    ('0' as int + d) as char
  }

  /** `10 ** k`: a `k`-digit field holds exactly the numbers below it. */
  function Pow10(k: nat): (r: nat)
    ensures r >= 1
  {
    if k == 0 then 1 else 10 * Pow10(k - 1)
  }

  /** `n` written with exactly `width` digits, zero-padded on the left. */
  function Pad(n: nat, width: nat): (s: string)
    requires n < Pow10(width)
    ensures |s| == width && AllDigits(s)
  {
    if width == 0 then "" else Pad(n / 10, width - 1) + [DigitChar(n % 10)]
  }

  /** The number a string of decimal digits denotes. */
  function Value(s: string): nat
    requires AllDigits(s)
  {
    if |s| == 0 then 0 else Value(s[..|s| - 1]) * 10 + (s[|s| - 1] as int - '0' as int)
  }

  /** Reading back a padded rendering gives the number that was written. */
  lemma {:induction false} ValuePad(n: nat, width: nat)
    requires n < Pow10(width)
    ensures Value(Pad(n, width)) == n
  {
    if width > 0 {
      var s := Pad(n, width);
      assert s[..|s| - 1] == Pad(n / 10, width - 1);
      ValuePad(n / 10, width - 1);
    }
  }

  /** Python's `str(n)` / JavaScript's `String(n)` for a natural number: no leading zeros. */
  function NatToString(n: nat): (s: string)
    ensures |s| >= 1 && AllDigits(s)
    ensures Value(s) == n
    ensures |s| > 1 ==> s[0] != '0'
  {
    if n < 10 then [DigitChar(n)]
    else
      var p := NatToString(n / 10);
      var s := p + [DigitChar(n % 10)];
      assert s[..|s| - 1] == p;
      s
  }

  /** Different numbers are rendered differently. */
  lemma NatToStringInjective(a: nat, b: nat)
    requires NatToString(a) == NatToString(b)
    ensures a == b
  {
  }
}

=== FILE: download.dfy ===
/**
 * server/download.py: the listing of the Drive folder the scripts export to is walked once per
 * analysis type. A file whose name contains the type is parsed as `city_analysis_date.ext`, its
 * date is snapped to the Sunday that starts its week, and, when the analysis field is the type
 * itself, the file is fetched to `<data>/<city>/<sunday>/<analysis>/image.tif` and again to
 * `.../stats.json`, each unless that path already exists. The local file system is a set of
 * existing paths; a fetch writes its destination only when the server answers it.
 */
module Download {
  import opened Wrappers
  import opened Dates
  import opened Names
  import opened PyStrings
  import opened Decimal

  datatype DownloadError =
    | IndexError                // `parts[1]` or `parts[2]` of a name with fewer than three fields
    | BadDate(cause: DateError) // `strptime` or the date subtraction fails
    | NotIterable               // the loop over the `None` an empty listing returns

  datatype DriveFile = DriveFile(id: string, name: string)

  /** The fields of a file name: the city key, the analysis and the Sunday of its week. */
  datatype ParsedName = ParsedName(city: string, analysis: string, sunday: int)

  /** One call of `download_file`: which file, written where. */
  datatype Fetch = Fetch(fileId: string, destination: string)

  /** The paths that exist locally and the fetches issued so far. */
  datatype Store = Store(existing: set<string>, fetches: seq<Fetch>)

  /** `analysis_types` of `main`. */
  const AnalysisTypes: seq<string> := ["um", "lst", "uhi", "ndvi", "ndbi", "albedo"]

  /**
   * Lines 74-78: split the name on `_`, read the city, the analysis and the date up to the first
   * `.`, and snap the date to its Sunday.
   */
  function ParseName(name: string): (r: Result<ParsedName, DownloadError>)
    ensures r == Err(IndexError) <==> |Split(name, '_')| < 3
    ensures r.Ok? ==> var parts := Split(name, '_');
      && r.value.city == parts[0] && r.value.analysis == parts[1]
      && ValidDay(r.value.sunday) && Weekday(r.value.sunday) == 6
      && Parse(Split(parts[2], '.')[0]).Some?
      && r.value.sunday <= Parse(Split(parts[2], '.')[0]).value < r.value.sunday + 7
    ensures |Split(name, '_')| >= 3 ==>
      var date := FirstDayOfWeekForDate(Split(Split(name, '_')[2], '.')[0]);
      && (r.Ok? <==> date.Ok?)
      && (r.Err? ==> r.error == BadDate(date.error))
  {
    var parts := Split(name, '_');
    if |parts| < 3 then Err(IndexError)
    else
      match FirstDayOfWeekForDate(Split(parts[2], '.')[0])
      case Err(e) => Err(BadDate(e))
      case Ok(sunday) => Ok(ParsedName(parts[0], parts[1], sunday))
  }

  /** The file a script export leaves in Drive: the artifact name and an extension such as `.tif`. */
  function ExportedFile(clean: string, index: string, day: int, ext: string): string
    requires ValidDay(day)
  {
    ArtifactName(clean, index, Format(day)) + ext
  }

  /** A formatted date holds no `_`, no `.` and no `/`. */
  lemma DateHasNoSeparator(day: int)
    requires ValidDay(day)
    ensures '_' !in Format(day) && '.' !in Format(day) && '/' !in Format(day)
  {
    var date := Format(day);
    FormatCharacters(day);
    forall k | 0 <= k < |date| ensures date[k] != '_' && date[k] != '.' && date[k] != '/' {
      assert k == 4 || k == 7 || IsDigit(date[k]);
    }
  }

  /** Splitting an exported file's name on `_` gives the key, the index and the date with the extension. */
  lemma ExportedFileFields(clean: string, index: string, day: int, ext: string)
    requires ValidDay(day)
    requires '_' !in clean && '_' !in index && '_' !in ext
    ensures Split(ExportedFile(clean, index, day, ext), '_') == [clean, index, Format(day) + ext]
  {
    var date := Format(day);
    DateHasNoSeparator(day);
    var parts := [clean, index, date + ext];
    assert '_' !in date + ext;
    assert parts[1..][1..] == [date + ext];
    assert Join(parts[1..][1..], '_') == date + ext;
    assert Join(parts[1..], '_') == index + ['_'] + (date + ext);
    assert Join(parts, '_') == clean + ['_'] + (index + ['_'] + (date + ext));
    assert Join(parts, '_') == ExportedFile(clean, index, day, ext);
    SplitJoin(parts, '_');
  }

  /**
   * Reading back an exported file's name gives its key, its index and the Sunday of its week,
   * provided neither the key nor the index holds a `_`; a day in the first week of the calendar
   * has no Sunday to snap to.
   */
  lemma ParseExportedFile(clean: string, index: string, day: int, ext: string)
    requires ValidDay(day)
    requires '_' !in clean && '_' !in index && '_' !in ext && (ext == [] || ext[0] == '.')
    ensures ParseName(ExportedFile(clean, index, day, ext))
         == if day < 7 then Err(BadDate(OverflowError)) else Ok(ParsedName(clean, index, FirstDayOfWeek(day).value))
  {
    ExportedFileFields(clean, index, day, ext);
    DateHasNoSeparator(day);
    SplitFirstField(Format(day), ext, '.');
    ParseFormat(day);
  }

  /** Line 82: `<data>/<city>`. */
  function CityFolder(dataFolder: string, p: ParsedName): string {
    PosixJoin(dataFolder, p.city)
  }

  /** Line 87: `<data>/<city>/<sunday>`. */
  function DateFolder(dataFolder: string, p: ParsedName): string
    requires ValidDay(p.sunday)
  {
    PosixJoin(CityFolder(dataFolder, p), Format(p.sunday))
  }

  /** Line 92: `<data>/<city>/<sunday>/<analysis>`. */
  function AnalysisFolder(dataFolder: string, p: ParsedName): string
    requires ValidDay(p.sunday)
  {
    PosixJoin(DateFolder(dataFolder, p), p.analysis)
  }

  /** Line 96. */
  function ImagePath(dataFolder: string, p: ParsedName): string
    requires ValidDay(p.sunday)
  {
    PosixJoin(AnalysisFolder(dataFolder, p), "image.tif")
  }

  /** Line 103. */
  function StatsPath(dataFolder: string, p: ParsedName): string
    requires ValidDay(p.sunday)
  {
    PosixJoin(AnalysisFolder(dataFolder, p), "stats.json")
  }

  /** Joining relative, non-empty fields that neither start nor end with a slash puts one slash between each. */
  lemma SlashSeparated(dataFolder: string, city: string, date: string, analysis: string)
    requires dataFolder != [] && dataFolder[|dataFolder| - 1] != '/'
    requires city != [] && city[0] != '/' && city[|city| - 1] != '/'
    requires date != [] && date[0] != '/' && date[|date| - 1] != '/'
    requires analysis != [] && analysis[0] != '/' && analysis[|analysis| - 1] != '/'
    ensures var folder := PosixJoin(PosixJoin(PosixJoin(dataFolder, city), date), analysis);
      folder == dataFolder + "/" + city + "/" + date + "/" + analysis
      && PosixJoin(folder, "image.tif") == folder + "/image.tif"
      && PosixJoin(folder, "stats.json") == folder + "/stats.json"
  {
    var cityFolder := dataFolder + "/" + city;
    PosixJoinRelative(dataFolder, city);
    assert cityFolder[|cityFolder| - 1] == city[|city| - 1];
    var dateFolder := cityFolder + "/" + date;
    PosixJoinRelative(cityFolder, date);
    assert dateFolder[|dateFolder| - 1] == date[|date| - 1];
    var folder := dateFolder + "/" + analysis;
    PosixJoinRelative(dateFolder, analysis);
    assert folder[|folder| - 1] == analysis[|analysis| - 1];
  }

  /**
   * Lines 82-103: for a data folder without a trailing slash and fields that are not paths, the
   * destinations are `<data>/<city>/<sunday>/<analysis>/image.tif` and `.../stats.json`.
   */
  lemma DestinationLayout(dataFolder: string, p: ParsedName)
    requires ValidDay(p.sunday)
    requires dataFolder != [] && dataFolder[|dataFolder| - 1] != '/'
    requires p.city != [] && '/' !in p.city && p.analysis != [] && '/' !in p.analysis
    ensures ImagePath(dataFolder, p) == dataFolder + "/" + p.city + "/" + Format(p.sunday) + "/" + p.analysis + "/image.tif"
    ensures StatsPath(dataFolder, p) == dataFolder + "/" + p.city + "/" + Format(p.sunday) + "/" + p.analysis + "/stats.json"
  {
    DateHasNoSeparator(p.sunday);
    var date := Format(p.sunday);
    assert date[0] != '/' && date[|date| - 1] != '/';
    SlashSeparated(dataFolder, p.city, date, p.analysis);
  }

  /**
   * With relative fields, the two destinations are different paths, and neither is one of the
   * folders created before them.
   */
  lemma DestinationsDistinct(dataFolder: string, p: ParsedName)
    requires ValidDay(p.sunday)
    requires (p.city == [] || p.city[0] != '/') && (p.analysis == [] || p.analysis[0] != '/')
    ensures ImagePath(dataFolder, p) != StatsPath(dataFolder, p)
    ensures ImagePath(dataFolder, p) !in {CityFolder(dataFolder, p), DateFolder(dataFolder, p), AnalysisFolder(dataFolder, p)}
    ensures StatsPath(dataFolder, p) !in {CityFolder(dataFolder, p), DateFolder(dataFolder, p), AnalysisFolder(dataFolder, p)}
  {
    DateHasNoSeparator(p.sunday);
    var date := Format(p.sunday);
    assert date[0] != '/';
    var image, stats := ImagePath(dataFolder, p), StatsPath(dataFolder, p);
    assert image[|image| - 1] == "image.tif"[8];
    assert stats[|stats| - 1] == "stats.json"[9];
  }

  /** Lines 96-107: a fetch only when the destination does not exist yet; it exists afterwards if served. */
  function FetchIfMissing(st: Store, fileId: string, destination: string, served: set<string>): (r: Store)
    ensures destination in st.existing ==> r == st
    ensures destination !in st.existing ==>
      r.fetches == st.fetches + [Fetch(fileId, destination)]
      && r.existing == st.existing + (if fileId in served then {destination} else {})
  {
    if destination in st.existing then st
    else Store(st.existing + (if fileId in served then {destination} else {}), st.fetches + [Fetch(fileId, destination)])
  }

  /**
   * One file of the listing: lines 69-107. A name without the analysis type is passed over; a
   * name with it that does not parse stops the whole run; a parsed name of another analysis is
   * passed over after parsing.
   */
  function ProcessItem(analysisType: string, dataFolder: string, served: set<string>, item: DriveFile, st: Store)
    : (r: (Store, Option<DownloadError>))
    ensures r.1.Some? ==> r.0 == st
    ensures !Contains(item.name, analysisType) ==> r == (st, None)
    ensures Contains(item.name, analysisType) ==> (r.1.Some? <==> ParseName(item.name).Err?)
    ensures st.existing <= r.0.existing
    ensures |st.fetches| <= |r.0.fetches| && r.0.fetches[..|st.fetches|] == st.fetches
    ensures r.0.fetches != st.fetches ==>
      && ParseName(item.name).Ok? && ParseName(item.name).value.analysis == analysisType
      && forall k :: |st.fetches| <= k < |r.0.fetches| ==> r.0.fetches[k].fileId == item.id
  {
    if !Contains(item.name, analysisType) then (st, None)
    else
      match ParseName(item.name)
      case Err(e) => (st, Some(e))
      case Ok(p) =>
        if p.analysis != analysisType then (st, None)
        else
          (StoreItem(dataFolder, served, item.id, p, st), None)
  }

  /**
   * Lines 82-107: create the city, date and analysis folders of a parsed name, then fetch the
   * file to `image.tif` and to `stats.json` where each is missing.
   */
  function StoreItem(dataFolder: string, served: set<string>, fileId: string, p: ParsedName, st: Store): (r: Store)
    requires ValidDay(p.sunday)
    ensures st.existing + {CityFolder(dataFolder, p), DateFolder(dataFolder, p), AnalysisFolder(dataFolder, p)} <= r.existing
    ensures |st.fetches| <= |r.fetches| <= |st.fetches| + 2 && r.fetches[..|st.fetches|] == st.fetches
    ensures forall k :: |st.fetches| <= k < |r.fetches| ==> r.fetches[k].fileId == fileId
  {
    var made := Store(st.existing + {CityFolder(dataFolder, p), DateFolder(dataFolder, p), AnalysisFolder(dataFolder, p)},
                      st.fetches);
    var image := FetchIfMissing(made, fileId, ImagePath(dataFolder, p), served);
    FetchIfMissing(image, fileId, StatsPath(dataFolder, p), served)
  }

  /** The loop of lines 67-107 from the first remaining file, stopping at the first error. */
  function ProcessItems(analysisType: string, dataFolder: string, served: set<string>, items: seq<DriveFile>, st: Store)
    : (r: (Store, Option<DownloadError>))
    decreases |items|
  {
    if items == [] then (st, None)
    else
      var (next, err) := ProcessItem(analysisType, dataFolder, served, items[0], st);
      if err.Some? then (next, err) else ProcessItems(analysisType, dataFolder, served, items[1..], next)
  }

  /**
   * `download_and_process_files`: the data folder is created, then the listing is walked; an
   * empty listing is `None`, which the loop cannot iterate.
   */
  function DownloadAndProcess(analysisType: string, dataFolder: string, served: set<string>, listing: seq<DriveFile>, st: Store)
    : (r: (Store, Option<DownloadError>))
  {
    var ready := Store(st.existing + {dataFolder}, st.fetches);
    if listing == [] then (ready, Some(NotIterable))
    else ProcessItems(analysisType, dataFolder, served, listing, ready)
  }

  /** `main`: every analysis type in turn, stopping at the first error; the `--analysis` argument is unused. */
  function RunMain(analysisArgument: string, dataFolder: string, served: set<string>, listing: seq<DriveFile>,
                   types: seq<string>, st: Store): (r: (Store, Option<DownloadError>))
    decreases |types|
  {
    if types == [] then (st, None)
    else
      var (next, err) := DownloadAndProcess(types[0], dataFolder, served, listing, st);
      if err.Some? then (next, err) else RunMain(analysisArgument, dataFolder, served, listing, types[1..], next)
  }

  /** A run only ever adds paths and fetches. */
  lemma {:induction false} ProcessItemsGrows(analysisType: string, dataFolder: string, served: set<string>,
                                             items: seq<DriveFile>, st: Store)
    ensures var r := ProcessItems(analysisType, dataFolder, served, items, st).0;
      st.existing <= r.existing && |st.fetches| <= |r.fetches| && r.fetches[..|st.fetches|] == st.fetches
    decreases |items|
  {
    if items != [] {
      var (next, err) := ProcessItem(analysisType, dataFolder, served, items[0], st);
      if err.None? {
        ProcessItemsGrows(analysisType, dataFolder, served, items[1..], next);
        var r := ProcessItems(analysisType, dataFolder, served, items[1..], next).0;
        assert r.fetches[..|next.fetches|][..|st.fetches|] == r.fetches[..|st.fetches|];
      }
    }
  }

  /** A file whose name does not parse stops the run where it is: nothing after it is looked at. */
  lemma BadNameStopsRun(analysisType: string, dataFolder: string, served: set<string>, item: DriveFile,
                        rest: seq<DriveFile>, st: Store)
    requires Contains(item.name, analysisType) && ParseName(item.name).Err?
    ensures ProcessItems(analysisType, dataFolder, served, [item] + rest, st) == (st, Some(ParseName(item.name).error))
  {
    assert ([item] + rest)[0] == item;
  }

  /** `um.tif` contains `um` but has a single field: the `um` pass raises IndexError at once. */
  lemma ShortNameRaises(id: string, st: Store)
    ensures Split("um.tif", '_') == ["um.tif"]
    ensures ProcessItem("um", "data", {}, DriveFile(id, "um.tif"), st) == (st, Some(IndexError))
  {
    SplitJoin(["um.tif"], '_');
    assert "um.tif"[..2] == "um";
  }

  /**
   * The substring test of line 69 is not enough: an `lst` export of a city whose key starts with
   * `um` passes it in the `um` pass and is dropped only by the field test of line 80.
   */
  lemma SubstringPrecheckNotEnough(day: int, served: set<string>, st: Store)
    requires ValidDay(day) && day >= 7
    ensures var name := ExportedFile("umluj", "lst", day, ".tif");
      Contains(name, "um") && ParseName(name).Ok? && ParseName(name).value.analysis != "um"
      && ProcessItem("um", "data", served, DriveFile("id", name), st) == (st, None)
  {
    var name := ExportedFile("umluj", "lst", day, ".tif");
    assert name == "um" + ("luj_lst_" + Format(day) + ".tif");
    ContainsPrefix("um", "luj_lst_" + Format(day) + ".tif");
    ParseExportedFile("umluj", "lst", day, ".tif");
  }

  /** Two exports of one week land in one folder, so the later one finds its paths taken. */
  lemma SameWeekSameFolder(a: int, b: int)
    requires ValidDay(a) && ValidDay(b) && FirstDayOfWeek(a).Ok?
    requires FirstDayOfWeek(a).value <= b < FirstDayOfWeek(a).value + 7
    ensures FirstDayOfWeek(b) == FirstDayOfWeek(a)
  {
  }

  /** Exports a week apart land in different Sunday folders. */
  lemma WeekApartDifferentFolder(day: int)
    requires ValidDay(day) && ValidDay(day + 7) && day >= 7
    ensures FirstDayOfWeek(day + 7).Ok? && FirstDayOfWeek(day).Ok?
    ensures Format(FirstDayOfWeek(day + 7).value) != Format(FirstDayOfWeek(day).value)
  {
    FirstDayOfWeekShift(day);
    FormatDistinct(FirstDayOfWeek(day + 7).value, FirstDayOfWeek(day).value);
  }

  /**
   * Lines 96-107: when neither destination exists yet, storing a parsed name fetches the file
   * twice: first to `image.tif`, then to `stats.json`.
   */
  lemma StoreItemFetchesBoth(dataFolder: string, served: set<string>, fileId: string, p: ParsedName, st: Store)
    requires ValidDay(p.sunday)
    requires (p.city == [] || p.city[0] != '/') && (p.analysis == [] || p.analysis[0] != '/')
    requires ImagePath(dataFolder, p) !in st.existing && StatsPath(dataFolder, p) !in st.existing
    ensures StoreItem(dataFolder, served, fileId, p, st).fetches
         == st.fetches + [Fetch(fileId, ImagePath(dataFolder, p)), Fetch(fileId, StatsPath(dataFolder, p))]
  {
    DestinationsDistinct(dataFolder, p);
    var made := Store(st.existing + {CityFolder(dataFolder, p), DateFolder(dataFolder, p), AnalysisFolder(dataFolder, p)},
                      st.fetches);
    FetchTwoMissing(made, fileId, ImagePath(dataFolder, p), StatsPath(dataFolder, p), served);
  }

  /** Two different missing destinations are both fetched, in order. */
  lemma FetchTwoMissing(st: Store, fileId: string, first: string, second: string, served: set<string>)
    requires first !in st.existing && second !in st.existing && first != second
    ensures FetchIfMissing(FetchIfMissing(st, fileId, first, served), fileId, second, served).fetches
         == st.fetches + [Fetch(fileId, first), Fetch(fileId, second)]
  {
    assert second !in FetchIfMissing(st, fileId, first, served).existing;
  }

  /**
   * A file of the analysis being fetched whose name parses, in a store that holds neither of its
   * destinations, is fetched twice from its id and the run goes on.
   */
  lemma ItemFetchedTwice(analysisType: string, dataFolder: string, served: set<string>, item: DriveFile, st: Store,
                         p: ParsedName)
    requires Contains(item.name, analysisType) && ParseName(item.name) == Ok(p) && p.analysis == analysisType
    requires ValidDay(p.sunday)
    requires (p.city == [] || p.city[0] != '/') && (p.analysis == [] || p.analysis[0] != '/')
    requires ImagePath(dataFolder, p) !in st.existing && StatsPath(dataFolder, p) !in st.existing
    ensures var r := ProcessItem(analysisType, dataFolder, served, item, st);
      r.1.None? && r.0.fetches == st.fetches + [Fetch(item.id, ImagePath(dataFolder, p)), Fetch(item.id, StatsPath(dataFolder, p))]
  {
    StoreItemFetchesBoth(dataFolder, served, item.id, p, st);
    assert ProcessItem(analysisType, dataFolder, served, item, st) == (StoreItem(dataFolder, served, item.id, p, st), None);
  }

  /**
   * An exported file of the analysis being fetched, in a store that holds neither of its
   * destinations, is fetched twice, into the folder of the Sunday of its week.
   */
  lemma ExportFetchedTwice(dataFolder: string, served: set<string>, clean: string, index: string, day: int, ext: string,
                           id: string, st: Store)
    requires ValidDay(day) && day >= 7
    requires '_' !in clean && '_' !in index && '_' !in ext && (ext == [] || ext[0] == '.')
    requires (clean == [] || clean[0] != '/') && (index == [] || index[0] != '/')
    requires Contains(ExportedFile(clean, index, day, ext), index)
    requires var p := ParsedName(clean, index, FirstDayOfWeek(day).value);
      ImagePath(dataFolder, p) !in st.existing && StatsPath(dataFolder, p) !in st.existing
    ensures var p := ParsedName(clean, index, FirstDayOfWeek(day).value);
      var r := ProcessItem(index, dataFolder, served, DriveFile(id, ExportedFile(clean, index, day, ext)), st);
      r.1.None?
      && r.0.fetches == st.fetches + [Fetch(id, ImagePath(dataFolder, p)), Fetch(id, StatsPath(dataFolder, p))]
  {
    ParseExportedFile(clean, index, day, ext);
    var p := ParsedName(clean, index, FirstDayOfWeek(day).value);
    ItemFetchedTwice(index, dataFolder, served, DriveFile(id, ExportedFile(clean, index, day, ext)), st, p);
  }

  /** An empty listing stops `main` in its first pass, after creating only the data folder. */
  lemma EmptyListingStopsMain(analysisArgument: string, dataFolder: string, served: set<string>, st: Store)
    ensures RunMain(analysisArgument, dataFolder, served, [], AnalysisTypes, st)
         == (Store(st.existing + {dataFolder}, st.fetches), Some(NotIterable))
  {
  }

  /** The `--analysis` argument changes nothing. */
  lemma {:induction false} MainIgnoresArgument(a: string, b: string, dataFolder: string, served: set<string>,
                                               listing: seq<DriveFile>, types: seq<string>, st: Store)
    ensures RunMain(a, dataFolder, served, listing, types, st) == RunMain(b, dataFolder, served, listing, types, st)
    decreases |types|
  {
    if types != [] {
      var (next, err) := DownloadAndProcess(types[0], dataFolder, served, listing, st);
      if err.None? {
        MainIgnoresArgument(a, b, dataFolder, served, listing, types[1..], next);
      }
    }
  }

  /** The local data folder and the fetches made into it. */
  class LocalStore {
    var existing: set<string>
    var fetches: seq<Fetch>

    constructor (existing: set<string>)
      ensures this.existing == existing && fetches == []
    {
      this.existing := existing;
      fetches := [];
    }

    function State(): Store
      reads this
    {
      Store(existing, fetches)
    }

    /** `download_file` when the destination is missing; nothing when it exists. */
    method FetchMissing(fileId: string, destination: string, served: set<string>)
      modifies this
      ensures State() == FetchIfMissing(old(State()), fileId, destination, served)
    {
      if destination !in existing {
        fetches := fetches + [Fetch(fileId, destination)];
        if fileId in served {
          existing := existing + {destination};
        }
      }
    }

    /** `download_and_process_files(analysis_type)`. */
    method DownloadAndProcessFiles(analysisType: string, dataFolder: string, served: set<string>, listing: seq<DriveFile>)
      returns (err: Option<DownloadError>)
      modifies this
      ensures (State(), err) == DownloadAndProcess(analysisType, dataFolder, served, listing, old(State()))
    {
      existing := existing + {dataFolder};
      if listing == [] {
        return Some(NotIterable);
      }
      ghost var goal := ProcessItems(analysisType, dataFolder, served, listing, State());
      err := None;
      var i := 0;
      while i < |listing|
        invariant 0 <= i <= |listing|
        invariant goal == ProcessItems(analysisType, dataFolder, served, listing[i..], State())
      {
        var item := listing[i];
        assert listing[i..][0] == item && listing[i..][1..] == listing[i + 1..];
        if !Contains(item.name, analysisType) {
          i := i + 1;
          continue;
        }
        var parsed := ParseName(item.name);
        if parsed.Err? {
          return Some(parsed.error);
        }
        var p := parsed.value;
        if p.analysis != analysisType {
          i := i + 1;
          continue;
        }
        existing := existing + {CityFolder(dataFolder, p), DateFolder(dataFolder, p), AnalysisFolder(dataFolder, p)};
        FetchMissing(item.id, ImagePath(dataFolder, p), served);
        FetchMissing(item.id, StatsPath(dataFolder, p), served);
        i := i + 1;
      }
    }

    /** Lines 122-123: the loop of `main` over a list of analysis types, stopping at the first error. */
    method ProcessTypes(analysisArgument: string, dataFolder: string, served: set<string>, listing: seq<DriveFile>,
                        types: seq<string>)
      returns (err: Option<DownloadError>)
      modifies this
      ensures (State(), err) == RunMain(analysisArgument, dataFolder, served, listing, types, old(State()))
    {
      ghost var goal := RunMain(analysisArgument, dataFolder, served, listing, types, State());
      err := None;
      var k := 0;
      while k < |types|
        invariant 0 <= k <= |types|
        invariant goal == RunMain(analysisArgument, dataFolder, served, listing, types[k..], State())
        invariant err.None?
      {
        assert types[k..][0] == types[k] && types[k..][1..] == types[k + 1..];
        ghost var before := State();
        err := DownloadAndProcessFiles(types[k], dataFolder, served, listing);
        assert RunMain(analysisArgument, dataFolder, served, listing, types[k..], before)
            == if err.Some? then (State(), err) else RunMain(analysisArgument, dataFolder, served, listing, types[k + 1..], State());
        if err.Some? {
          return;
        }
        k := k + 1;
      }
      assert types[k..] == [];
    }

    /** Lines 110-123: `main` runs every analysis type of the fixed list. */
    method RunAllTypes(analysisArgument: string, dataFolder: string, served: set<string>, listing: seq<DriveFile>)
      returns (err: Option<DownloadError>)
      modifies this
      ensures (State(), err) == RunMain(analysisArgument, dataFolder, served, listing, AnalysisTypes, old(State()))
    {
      err := ProcessTypes(analysisArgument, dataFolder, served, listing, AnalysisTypes);
    }
  }
}

=== FILE: driver.dfy ===
/**
 * The scripts' top level: for each city, for each window, one per-window operation. A run is a
 * fold over the cities and the windows in order that stops at the first error; a `Session` is the
 * export log that the loops append to. Each operation decides for itself whether a window without
 * scenes is skipped, and the lemmas here state and compare those rules.
 */
module Driver {
  import opened Wrappers
  import opened Catalog
  import opened Names
  import opened Dates
  import opened Weeks
  import opened Tasks
  import LstPy
  import LstJs
  import LstBck
  import AlbedoPy
  import AlbedoJs
  import NdviPy
  import NdviJs
  import NdbiPy
  import NdbiJs
  import UrbanMaskPy
  import UrbanJs

  /** The per-window operations of the scripts. */
  datatype Operation =
    | LstPyExport | LstJsExport | LstJsExportAsWritten | LstJsMap | LstBckExport
    | AlbedoPyExport | AlbedoJsExport | AlbedoJsMap
    | NdviPyExport | NdviJsExport | NdviJsExportAsWritten | NdviJsMap
    | NdbiPyExport | NdbiPyMap | NdbiJsExport | NdbiJsMap
    | UrbanMaskPyExport | UrbanJsExport

  /** A horizon of representable days that does not end before it starts. */
  predicate ValidHorizon(horizonStart: int, horizonEnd: int) {
    ValidDay(horizonStart) && ValidDay(horizonEnd) && horizonStart <= horizonEnd
  }

  predicate WindowsValid(weeks: seq<Week>) {
    forall i :: 0 <= i < |weeks| ==> ValidDay(weeks[i].start)
  }

  /**
   * The windows an operation's script builds: urbanmask.py truncates the count, the others floor
   * it, and the two agree; on a valid horizon every window starts on a representable day.
   */
  function OperationWindows(op: Operation, horizonStart: int, horizonEnd: int): (r: seq<Week>)
    ensures r == Windows(horizonStart, horizonEnd - horizonStart)
    ensures ValidHorizon(horizonStart, horizonEnd) ==> WindowsValid(r)
  {
    TruncWindowsAgree(horizonStart, horizonEnd - horizonStart);
    if horizonStart <= horizonEnd then WindowsWithinHorizon(horizonStart, horizonEnd - horizonStart); OperationWindowsBody(op, horizonStart, horizonEnd)
    else OperationWindowsBody(op, horizonStart, horizonEnd)
  }

  function OperationWindowsBody(op: Operation, horizonStart: int, horizonEnd: int): seq<Week> {
    if op == UrbanMaskPyExport then WeeklyIntervals(horizonStart, WeekCountTrunc(horizonEnd - horizonStart))
    else Windows(horizonStart, horizonEnd - horizonStart)
  }

  /** What an operation does for a city before its loop over the windows. */
  function Prologue(op: Operation, city: string): Step {
    if op == NdviJsExportAsWritten then NdviJs.ExportNdviAsWritten(city) else Nothing
  }

  /** One window of one city. */
  function WindowStep(op: Operation, c: CityCatalog, horizonStart: int, horizonEnd: int, city: string, i: nat, w: Week): Step
    requires ValidHorizon(horizonStart, horizonEnd) && ValidDay(w.start)
  {
    match op
    case LstPyExport => LstPy.ExportLstAndUhi(c, horizonStart, horizonEnd, city, w)
    case LstJsExport => LstJs.ExportLstUhi(c, horizonStart, horizonEnd, city, w)
    case LstJsExportAsWritten => LstJs.ExportLstUhiAsWritten(c, horizonStart, horizonEnd, city, w)
    case LstJsMap => LstJs.AddToMap(c, horizonStart, horizonEnd, city, w)
    case LstBckExport => LstBck.ExportLst(c, horizonStart, horizonEnd, city, i, w)
    case AlbedoPyExport => AlbedoPy.ExportAlbedo(c, city, w)
    case AlbedoJsExport => AlbedoJs.ExportAlbedo(c, city, w)
    case AlbedoJsMap => AlbedoJs.AddToMap(c, city, w)
    case NdviPyExport => NdviPy.ExportNdvi(c, city, w)
    case NdviJsExport => NdviJs.ExportNdvi(c, city, w)
    case NdviJsExportAsWritten => Nothing
    case NdviJsMap => NdviJs.AddToMap(c, city, w)
    case NdbiPyExport => NdbiPy.ExportNdbi(c, city, w)
    case NdbiPyMap => NdbiPy.AddToMap(c, city, w)
    case NdbiJsExport => NdbiJs.ExportNdbi(c, city, w)
    case NdbiJsMap => NdbiJs.AddToMap(c, city, w)
    case UrbanMaskPyExport => UrbanMaskPy.ExportUrbanMask(c, horizonStart, horizonEnd, city, w)
    case UrbanJsExport => UrbanJs.ExportUrbanMask(c, horizonStart, horizonEnd, city, w)
  }

  /** A script's top level for one horizon: what it does for a city, then for each window. */
  datatype Program = Program(prologue: string -> Step, window: (string, nat, Week) -> Step)

  /** The program that runs `op` for each city on that city's catalog. */
  function ProgramOf(op: Operation, catalog: string -> CityCatalog, horizonStart: int, horizonEnd: int): Program
    requires ValidHorizon(horizonStart, horizonEnd)
  {
    Program(
      city => Prologue(op, city),
      (city, i: nat, w: Week) => if ValidDay(w.start) then WindowStep(op, catalog(city), horizonStart, horizonEnd, city, i, w) else Nothing)
  }

  /** The step of every window of `weeks`, in order. */
  function WindowSteps(p: Program, city: string, weeks: seq<Week>): (r: seq<Step>)
    ensures |r| == |weeks|
    ensures forall i :: 0 <= i < |weeks| ==> r[i] == p.window(city, i, weeks[i])
  {
    seq(|weeks|, i requires 0 <= i < |weeks| => p.window(city, i, weeks[i]))
  }

  /** One city: the prologue, then its windows in order, stopping at the first error. */
  function RunCity(p: Program, city: string, weeks: seq<Week>): Step {
    Then(p.prologue(city), Fold(WindowSteps(p, city, weeks)))
  }

  /** The run of every city of `cities`. */
  function CitySteps(p: Program, cities: seq<string>, weeks: seq<Week>): (r: seq<Step>)
    ensures |r| == |cities|
    ensures forall k :: 0 <= k < |cities| ==> r[k] == RunCity(p, cities[k], weeks)
  {
    seq(|cities|, k requires 0 <= k < |cities| => RunCity(p, cities[k], weeks))
  }

  /** The cities in order, stopping at the first error. */
  function RunCities(p: Program, cities: seq<string>, weeks: seq<Week>): Step {
    Fold(CitySteps(p, cities, weeks))
  }

  /** The number of scenes the script checks before it works on a window. */
  function WindowScenes(op: Operation, c: CityCatalog, horizonStart: int, horizonEnd: int, w: Week): nat {
    match op
    case LstPyExport | LstJsExport | LstJsExportAsWritten | LstJsMap | LstBckExport =>
      |LandsatWeek(c.landsat, horizonStart, horizonEnd, w.start, w.end)|
    case UrbanMaskPyExport | UrbanJsExport =>
      |FilterDate(FilterDate(c.viirs, horizonStart, horizonEnd), w.start, w.end)|
    case _ => |S2Week(c.s2, w.start, w.end)|
  }

  /** The operations that leave a window without scenes out. */
  predicate SkipsEmptyWindows(op: Operation) {
    op in {LstPyExport, LstJsExport, LstJsExportAsWritten, LstJsMap, LstBckExport, AlbedoPyExport,
           AlbedoJsMap, NdviPyExport, NdviJsMap, NdbiPyMap, NdbiJsMap}
  }

  /** The operations that export every window, with or without scenes. */
  predicate ExportsEveryWindow(op: Operation) {
    op in {AlbedoJsExport, NdviJsExport, NdbiPyExport, NdbiJsExport, UrbanMaskPyExport, UrbanJsExport}
  }

  /** The city key each operation builds. */
  function Key(op: Operation): Normaliser {
    match op
    case LstPyExport | LstBckExport | AlbedoPyExport | NdviPyExport | NdbiPyExport | NdbiPyMap | UrbanMaskPyExport =>
      RemoveSpaces
    case NdviJsExport | NdviJsExportAsWritten | NdviJsMap => RemoveFirstSpace
    case _ => RemoveWhitespaceRuns
  }

  /** The index part of the names an exporting operation gives its artifacts. */
  function Index(op: Operation): string {
    match op
    case AlbedoPyExport | AlbedoJsExport | AlbedoJsMap => "albedo"
    case NdviPyExport | NdviJsExport | NdviJsExportAsWritten | NdviJsMap => "ndvi"
    case NdbiPyExport | NdbiPyMap | NdbiJsExport | NdbiJsMap => "ndbi"
    case UrbanMaskPyExport | UrbanJsExport => "um"
    case LstBckExport => "lst"
    case _ => "uhi"
  }

  /** An operation that skips empty windows does something for a window iff it has scenes. */
  lemma SkipRule(op: Operation, c: CityCatalog, horizonStart: int, horizonEnd: int, city: string, i: nat, w: Week)
    requires ValidHorizon(horizonStart, horizonEnd) && ValidDay(w.start) && SkipsEmptyWindows(op)
    ensures WindowStep(op, c, horizonStart, horizonEnd, city, i, w).effects == []
        <==> WindowScenes(op, c, horizonStart, horizonEnd, w) == 0
  {
  }

  /** An operation that exports every window exports exactly one artifact, named after the window,
   * with an image iff the window has scenes. */
  lemma ExportRule(op: Operation, c: CityCatalog, horizonStart: int, horizonEnd: int, city: string, i: nat, w: Week)
    requires ValidHorizon(horizonStart, horizonEnd) && ValidDay(w.start) && ExportsEveryWindow(op)
    ensures var s := WindowStep(op, c, horizonStart, horizonEnd, city, i, w);
      s.error.None? && |s.effects| == 1 && s.effects[0].ImageExport?
      && s.effects[0].fileNamePrefix == s.effects[0].description
      && s.effects[0].description == ArtifactName(Clean(Key(op), city), Index(op), Format(w.start))
      && (s.effects[0].image.None? <==> WindowScenes(op, c, horizonStart, horizonEnd, w) == 0)
  {
  }

  /** Skipping operations act only on windows that have scenes. */
  lemma SkippedWindowsLeaveNoTrace(op: Operation, catalog: string -> CityCatalog, horizonStart: int, horizonEnd: int,
                                   city: string, weeks: seq<Week>, e: Effect)
    requires ValidHorizon(horizonStart, horizonEnd) && WindowsValid(weeks) && SkipsEmptyWindows(op)
    requires e in RunCity(ProgramOf(op, catalog, horizonStart, horizonEnd), city, weeks).effects
    ensures exists i ::
      && 0 <= i < |weeks|
      && WindowScenes(op, catalog(city), horizonStart, horizonEnd, weeks[i]) > 0
      && e in WindowStep(op, catalog(city), horizonStart, horizonEnd, city, i, weeks[i]).effects
  {
    var steps := WindowSteps(ProgramOf(op, catalog, horizonStart, horizonEnd), city, weeks);
    FoldMember(steps, e);
    var i :| 0 <= i < |steps| && e in steps[i].effects;
    SkipRule(op, catalog(city), horizonStart, horizonEnd, city, i, weeks[i]);
  }

  /** Steps that each export one artifact under its own name, the names all different. */
  lemma {:induction false} DistinctExports(steps: seq<Step>, names: seq<string>)
    requires |steps| == |names|
    requires forall i :: 0 <= i < |steps| ==>
      |steps[i].effects| == 1 && steps[i].error.None? && Title(steps[i].effects[0]) == names[i]
    requires forall i, j :: 0 <= i < j < |names| ==> names[i] != names[j]
    ensures Fold(steps).error.None? && |Fold(steps).effects| == |steps|
    ensures forall i :: 0 <= i < |steps| ==> Title(Fold(steps).effects[i]) == names[i]
    ensures forall i, j :: 0 <= i < j < |steps| ==> Title(Fold(steps).effects[i]) != Title(Fold(steps).effects[j])
  {
    FoldOnePerStep(steps);
  }

  /** The window `i` of an exporting operation's program exports one artifact named after the window. */
  lemma ProgramExportRule(op: Operation, catalog: string -> CityCatalog, horizonStart: int, horizonEnd: int,
                          city: string, i: nat, w: Week)
    requires ValidHorizon(horizonStart, horizonEnd) && ExportsEveryWindow(op) && ValidDay(w.start)
    ensures var s := ProgramOf(op, catalog, horizonStart, horizonEnd).window(city, i, w);
      |s.effects| == 1 && s.error.None?
      && Title(s.effects[0]) == ArtifactName(Clean(Key(op), city), Index(op), Format(w.start))
  {
    var s := WindowStep(op, catalog(city), horizonStart, horizonEnd, city, i, w);
    assert ProgramOf(op, catalog, horizonStart, horizonEnd).window(city, i, w) == s;
    ExportRule(op, catalog(city), horizonStart, horizonEnd, city, i, w);
    assert Title(s.effects[0]) == s.effects[0].description;
  }

  /**
   * An operation that exports every window produces, for a city, one artifact per window of the
   * horizon, in window order, each named after its own window's start date, no two alike.
   */
  lemma EveryWindowExported(op: Operation, catalog: string -> CityCatalog, horizonStart: int, horizonEnd: int, city: string)
    requires ValidHorizon(horizonStart, horizonEnd) && ExportsEveryWindow(op)
    ensures var weeks := OperationWindows(op, horizonStart, horizonEnd);
      var r := RunCity(ProgramOf(op, catalog, horizonStart, horizonEnd), city, weeks);
      r.error.None? && |r.effects| == |weeks| == WeekCount(horizonEnd - horizonStart)
      && (forall i :: 0 <= i < |weeks| ==>
            Title(r.effects[i]) == ArtifactName(Clean(Key(op), city), Index(op), Format(weeks[i].start)))
      && (forall i, j :: 0 <= i < j < |weeks| ==> Title(r.effects[i]) != Title(r.effects[j]))
  {
    var weeks := OperationWindows(op, horizonStart, horizonEnd);
    WindowsIncreasing(horizonStart, horizonEnd - horizonStart);
    WindowStepsExport(op, catalog, horizonStart, horizonEnd, city, weeks);
    RunCityExportsNames(ProgramOf(op, catalog, horizonStart, horizonEnd), city, weeks, Clean(Key(op), city), Index(op));
  }

  /**
   * For one city, a program has no prologue and each window exports one artifact named after the
   * window's start.
   */
  predicate ExportsNamed(p: Program, city: string, weeks: seq<Week>, clean: string, index: string)
    requires WindowsValid(weeks)
  {
    && p.prologue(city) == Nothing
    && forall i :: 0 <= i < |weeks| ==>
         |p.window(city, i, weeks[i]).effects| == 1 && p.window(city, i, weeks[i]).error.None?
         && Title(p.window(city, i, weeks[i]).effects[0]) == ArtifactName(clean, index, Format(weeks[i].start))
  }

  /**
   * A program without a prologue whose every window exports one artifact named after the
   * window's start, over windows that start on different days, runs a city to one artifact per
   * window, in window order, no two alike.
   */
  lemma RunCityExportsNames(p: Program, city: string, weeks: seq<Week>, clean: string, index: string)
    requires WindowsValid(weeks) && ExportsNamed(p, city, weeks, clean, index)
    requires forall i, j :: 0 <= i < j < |weeks| ==> weeks[i].start < weeks[j].start
    ensures var r := RunCity(p, city, weeks);
      r.error.None? && |r.effects| == |weeks|
      && (forall i :: 0 <= i < |weeks| ==> Title(r.effects[i]) == ArtifactName(clean, index, Format(weeks[i].start)))
      && (forall i, j :: 0 <= i < j < |weeks| ==> Title(r.effects[i]) != Title(r.effects[j]))
  {
    var n := |weeks|;
    var names := seq(n, i requires 0 <= i < n => ArtifactName(clean, index, Format(weeks[i].start)));
    WindowNamesDistinct(clean, index, weeks);
    var steps := WindowSteps(p, city, weeks);
    DistinctExports(steps, names);
    assert RunCity(p, city, weeks) == Fold(steps);
  }

  /** Each window of an exporting operation's program exports one artifact named after that window. */
  lemma WindowStepsExport(op: Operation, catalog: string -> CityCatalog, horizonStart: int, horizonEnd: int,
                          city: string, weeks: seq<Week>)
    requires ValidHorizon(horizonStart, horizonEnd) && ExportsEveryWindow(op) && WindowsValid(weeks)
    ensures ExportsNamed(ProgramOf(op, catalog, horizonStart, horizonEnd), city, weeks, Clean(Key(op), city), Index(op))
  {
    forall i | 0 <= i < |weeks| {
      ProgramExportRule(op, catalog, horizonStart, horizonEnd, city, i, weeks[i]);
    }
  }

  /** Windows that start on different days are exported under different names. */
  lemma WindowNamesDistinct(clean: string, index: string, weeks: seq<Week>)
    requires WindowsValid(weeks)
    requires forall i, j :: 0 <= i < j < |weeks| ==> weeks[i].start < weeks[j].start
    ensures forall i, j :: 0 <= i < j < |weeks| ==>
      ArtifactName(clean, index, Format(weeks[i].start)) != ArtifactName(clean, index, Format(weeks[j].start))
  {
    forall i, j | 0 <= i < j < |weeks|
      ensures ArtifactName(clean, index, Format(weeks[i].start)) != ArtifactName(clean, index, Format(weeks[j].start))
    {
      FormatDistinct(weeks[i].start, weeks[j].start);
      ArtifactNameDistinct(clean, index, Format(weeks[i].start), Format(weeks[j].start));
    }
  }

  /** As written, lst.js exports at most one artifact in a whole run, and fails right after it. */
  lemma LstJsAsWrittenExportsAtMostOne(catalog: string -> CityCatalog, horizonStart: int, horizonEnd: int,
                                       cities: seq<string>, weeks: seq<Week>)
    requires ValidHorizon(horizonStart, horizonEnd)
    ensures StopsAfterOne(RunCities(ProgramOf(LstJsExportAsWritten, catalog, horizonStart, horizonEnd), cities, weeks), TypeError)
  {
    var p := ProgramOf(LstJsExportAsWritten, catalog, horizonStart, horizonEnd);
    var cs := CitySteps(p, cities, weeks);
    forall k | 0 <= k < |cs|
      ensures StopsAfterOne(cs[k], TypeError)
    {
      var ws := WindowSteps(p, cities[k], weeks);
      FoldStopsAfterOne(ws, TypeError);
      assert cs[k] == Fold(ws);
    }
    FoldStopsAfterOne(cs, TypeError);
  }

  /** As written, ndvi.js's export stops at once with a ReferenceError, exporting nothing. */
  lemma NdviJsAsWrittenExportsNothing(catalog: string -> CityCatalog, horizonStart: int, horizonEnd: int,
                                      cities: seq<string>, weeks: seq<Week>)
    requires ValidHorizon(horizonStart, horizonEnd) && cities != []
    ensures RunCities(ProgramOf(NdviJsExportAsWritten, catalog, horizonStart, horizonEnd), cities, weeks)
         == Step([], Some(ReferenceError))
  {
    var cs := CitySteps(ProgramOf(NdviJsExportAsWritten, catalog, horizonStart, horizonEnd), cities, weeks);
    FoldSnoc(cs, 0);
    assert cs[..0] == [];
    FoldStopped(cs, 1);
  }

  /** The script files, each with the operation its top level runs and the cities it runs it for. */
  datatype Script =
    | LstPyScript | LstJsScript | LstBckScript | AlbedoPyScript | AlbedoJsScript
    | NdviPyScript | NdviJsScript | NdbiPyScript | NdbiJsScript | UrbanMaskPyScript | UrbanJsScript

  function EntryOperation(s: Script): Operation {
    match s
    case LstPyScript => LstPyExport
    case LstJsScript => LstJsExport
    case LstBckScript => LstBckExport
    case AlbedoPyScript => AlbedoPyExport
    case AlbedoJsScript => AlbedoJsMap
    case NdviPyScript => NdviPyExport
    case NdviJsScript => NdviJsMap
    case NdbiPyScript => NdbiPyExport
    case NdbiJsScript => NdbiJsMap
    case UrbanMaskPyScript => UrbanMaskPyExport
    case UrbanJsScript => UrbanJsExport
  }

  function EntryCities(s: Script): seq<string> {
    match s
    case LstPyScript => LstPy.CityNames
    case LstJsScript => LstJs.CityNames
    case LstBckScript => LstBck.CityNames
    case AlbedoPyScript => AlbedoPy.CityNames
    case AlbedoJsScript => AlbedoJs.CityNames
    case NdviPyScript => NdviPy.CityNames
    case NdviJsScript => NdviJs.CityNames
    case NdbiPyScript => NdbiPy.CityNames
    case NdbiJsScript => NdbiJs.CityNames
    case UrbanMaskPyScript => UrbanMaskPy.CityNames
    case UrbanJsScript => UrbanJs.Processed
  }

  /** urban.js runs for 'Jiddah' alone, although its `city_names` is ['Riyadh']. */
  lemma UrbanJsRunsJiddahOnly()
    ensures EntryCities(UrbanJsScript) == ["Jiddah"] && UrbanJs.CityNames == ["Riyadh"]
  {
  }

  /** A log that holds the first `k` steps of a run that has not failed, extended by step `k`. */
  lemma LogExtends(start: seq<Effect>, steps: seq<Step>, k: nat)
    requires k < |steps| && Fold(steps[..k]).error.None?
    ensures start + Fold(steps[..k + 1]).effects == (start + Fold(steps[..k]).effects) + steps[k].effects
    ensures Fold(steps[..k + 1]).error == steps[k].error
  {
    FoldExtends(steps, k);
  }

  /** The export log of a script run. */
  class Session {
    var log: seq<Effect>
    var error: Option<ScriptError>

    constructor ()
      ensures log == [] && error == None
    {
      log := [];
      error := None;
    }

    /** A script's run: its windows, then its cities loop. */
    method Run(p: Program, horizonStart: int, horizonEnd: int, cities: seq<string>)
      requires error.None?
      modifies this
      ensures var r := RunCities(p, cities, Windows(horizonStart, horizonEnd - horizonStart));
        log == old(log) + r.effects && error == r.error
    {
      var weeks := BuildWeeks(horizonStart, horizonEnd - horizonStart);
      RunEachCity(p, cities, weeks);
    }

    /** The cities loop of a script, stopping at the first error. */
    method RunEachCity(p: Program, cities: seq<string>, weeks: seq<Week>)
      requires error.None?
      modifies this
      ensures log == old(log) + RunCities(p, cities, weeks).effects && error == RunCities(p, cities, weeks).error
    {
      ghost var cs := CitySteps(p, cities, weeks);
      ghost var start := log;
      assert cs[..0] == [];
      var k := 0;
      while k < |cities| && error.None?
        invariant 0 <= k <= |cities|
        invariant log == start + Fold(cs[..k]).effects && error == Fold(cs[..k]).error
      {
        RunOneCity(p, cities[k], weeks);
        LogExtends(start, cs, k);
        k := k + 1;
      }
      if k < |cities| {
        FoldStopped(cs, k);
      }
      assert cs[..|cities|] == cs;
    }

    /** The windows loop of one city, after the city's prologue, stopping at the first error. */
    method RunOneCity(p: Program, city: string, weeks: seq<Week>)
      requires error.None?
      modifies this
      ensures log == old(log) + RunCity(p, city, weeks).effects && error == RunCity(p, city, weeks).error
    {
      ghost var ws := WindowSteps(p, city, weeks);
      var first := p.prologue(city);
      var appended := first.effects;
      var failure := first.error;
      var i := 0;
      while i < |weeks| && failure.None?
        invariant 0 <= i <= |weeks|
        invariant appended == Then(first, Fold(ws[..i])).effects
        invariant failure == Then(first, Fold(ws[..i])).error
        invariant unchanged(this)
      {
        var s := p.window(city, i, weeks[i]);
        FoldSnoc(ws, i);
        appended := appended + s.effects;
        failure := s.error;
        i := i + 1;
      }
      if i < |weeks| && first.error.None? {
        FoldStopped(ws, i);
      }
      assert ws[..|weeks|] == ws;
      assert RunCity(p, city, weeks) == Step(appended, failure);
      log := log + appended;
      error := failure;
    }

    /** A script file's top level, from a fresh log. */
    method RunScript(s: Script, catalog: string -> CityCatalog, horizonStart: int, horizonEnd: int)
      requires ValidHorizon(horizonStart, horizonEnd) && log == [] && error.None?
      modifies this
      ensures var r := RunCities(ProgramOf(EntryOperation(s), catalog, horizonStart, horizonEnd), EntryCities(s),
                                 OperationWindows(EntryOperation(s), horizonStart, horizonEnd));
        log == r.effects && error == r.error
    {
      Run(ProgramOf(EntryOperation(s), catalog, horizonStart, horizonEnd), horizonStart, horizonEnd, EntryCities(s));
    }
  }
}

=== FILE: indices.dfy ===
/**
 * Per-pixel index formulas over exact reals: land surface temperature from Landsat's thermal
 * band, broadband albedo and the normalised differences NDVI and NDBI from Sentinel-2
 * reflectances. A normalised difference whose denominator is zero is a masked pixel.
 */
module Indices {
  import opened Wrappers
  import opened QualityMask

  /** Collection 2 Level-2 surface-temperature scale factor and offset, then Kelvin to Celsius. */
  const LstGain: real := 0.00341802
  const LstOffset: real := 149.0
  const KelvinToCelsius: real := 273.15

  /** `ST_B10.multiply(0.00341802).add(149.0).subtract(273.15)`. */
  function Lst(stB10: real): real {
    stB10 * LstGain + LstOffset - KelvinToCelsius
  }

  /** The digital number that a temperature in degrees Celsius was scaled from. */
  function LstDigitalNumber(celsius: real): real {
    (celsius + KelvinToCelsius - LstOffset) / LstGain
  }

  /** The temperature is strictly increasing in the thermal band. */
  lemma LstStrictlyIncreasing(a: real, b: real)
    requires a < b
    ensures Lst(a) < Lst(b)
  {
  }

  /** The scaling is invertible: each temperature comes from exactly one digital number. */
  lemma LstInverse(dn: real, celsius: real)
    ensures LstDigitalNumber(Lst(dn)) == dn
    ensures Lst(LstDigitalNumber(celsius)) == celsius
  {
  }

  /** A Landsat pixel after `calculate_lst`: the original bands plus the `lst` band. */
  datatype LstPixel = LstPixel(qaPixel: bv16, stB10: real, lst: real)

  /** `image.addBands(lst_celsius)`: the new band is added, the existing bands are kept. */
  function CalculateLst(p: LandsatPixel): (r: LstPixel)
    ensures r.qaPixel == p.qaPixel && r.stB10 == p.stB10
    ensures r.lst + KelvinToCelsius - LstOffset == p.stB10 * LstGain
  {
    LstPixel(p.qaPixel, p.stB10, Lst(p.stB10))
  }

  const AlbedoBlue: real := 0.279
  const AlbedoGreen: real := 0.192
  const AlbedoRed: real := 0.119
  const AlbedoNir: real := 0.093
  const AlbedoSwir1: real := 0.043
  const AlbedoSwir2: real := 0.017

  /** The six albedo weights add up to 0.743. */
  lemma AlbedoWeightsSum()
    ensures AlbedoBlue + AlbedoGreen + AlbedoRed + AlbedoNir + AlbedoSwir1 + AlbedoSwir2 == 0.743
  {
  }

  /** `calculate_albedo`: the weighted sum of B2, B3, B4, B8, B11 and B12. */
  function Albedo(p: S2Pixel): real {
    AlbedoBlue * p.b2 + AlbedoGreen * p.b3 + AlbedoRed * p.b4
    + AlbedoNir * p.b8 + AlbedoSwir1 * p.b11 + AlbedoSwir2 * p.b12
  }

  predicate InUnit(x: real) {
    0.0 <= x <= 1.0
  }

  /** Reflectances in [0, 1] give an albedo in [0, 0.743]; all ones reach the upper bound. */
  lemma {:induction false} AlbedoBounds(p: S2Pixel)
    requires InUnit(p.b2) && InUnit(p.b3) && InUnit(p.b4) && InUnit(p.b8) && InUnit(p.b11) && InUnit(p.b12)
    ensures 0.0 <= Albedo(p) <= 0.743
    ensures Albedo(S2Pixel(p.qa60, 1.0, 1.0, 1.0, 1.0, 1.0, 1.0)) == 0.743
  {
    AlbedoWeightsSum();
  }

  /** Albedo is monotone in every band. */
  lemma AlbedoMonotone(p: S2Pixel, q: S2Pixel)
    requires p.b2 <= q.b2 && p.b3 <= q.b3 && p.b4 <= q.b4 && p.b8 <= q.b8 && p.b11 <= q.b11 && p.b12 <= q.b12
    ensures Albedo(p) <= Albedo(q)
  {
  }

  /** Worked value: reflectances (0.1, 0.15, 0.12, 0.3, 0.25, 0.1) give 0.11133. */
  lemma AlbedoExample(qa60: real)
    ensures Albedo(S2Pixel(qa60, 0.1, 0.15, 0.12, 0.3, 0.25, 0.1)) == 0.11133
  {
  }

  /** `normalizedDifference([first, second])`: `(first - second) / (first + second)`. */
  function NormalizedDifference(first: real, second: real): (r: Option<real>)
    ensures r.None? <==> first + second == 0.0
    ensures r.Some? ==> r.value * (first + second) == first - second
  {
    if first + second == 0.0 then None else Some((first - second) / (first + second))
  }

  /** For non-negative inputs the normalised difference lies in [-1, 1]. */
  lemma NormalizedDifferenceRange(first: real, second: real)
    requires first >= 0.0 && second >= 0.0 && first + second != 0.0
    ensures -1.0 <= NormalizedDifference(first, second).value <= 1.0
  {
    var s := first + second;
    var d := first - second;
    assert NormalizedDifference(first, second).value == d / s;
    QuotientAtMostOne(d, s);
    QuotientAtLeastMinusOne(d, s);
  }

  lemma QuotientAtMostOne(d: real, s: real)
    requires s > 0.0 && d <= s
    ensures d / s <= 1.0
  {
    var q := d / s;
    assert q * s == d;
    assert (1.0 - q) * s == s - d;
  }

  lemma QuotientAtLeastMinusOne(d: real, s: real)
    requires s > 0.0 && -s <= d
    ensures -1.0 <= d / s
  {
    var q := d / s;
    assert q * s == d;
    assert (q + 1.0) * s == d + s;
  }

  /** Swapping the two bands negates the index. */
  lemma NormalizedDifferenceAntisymmetric(first: real, second: real)
    requires first + second != 0.0
    ensures NormalizedDifference(second, first).value == -NormalizedDifference(first, second).value
  {
  }

  /** The ratio does not depend on the common scale of the bands, so the /10000 rescale cancels. */
  lemma NormalizedDifferenceScaleInvariant(first: real, second: real, c: real)
    requires c > 0.0
    ensures NormalizedDifference(first / c, second / c) == NormalizedDifference(first, second)
  {
    var s := first + second;
    assert first / c + second / c == s / c;
    if s != 0.0 {
      assert (first / c - second / c) / (s / c) == (first - second) / s;
    }
  }

  /** NDVI `normalizedDifference(['B8', 'B4'])`. */
  function Ndvi(p: S2Pixel): (r: Option<real>)
    ensures r.Some? ==> (p.b8 >= 0.0 && p.b4 >= 0.0 ==> -1.0 <= r.value <= 1.0)
    ensures r.None? <==> p.b8 + p.b4 == 0.0
    ensures r.Some? ==> r.value * (p.b8 + p.b4) == p.b8 - p.b4
  {
    if p.b8 >= 0.0 && p.b4 >= 0.0 && p.b8 + p.b4 != 0.0 then
      NormalizedDifferenceRange(p.b8, p.b4);
      NormalizedDifference(p.b8, p.b4)
    else NormalizedDifference(p.b8, p.b4)
  }

  /** NDBI `normalizedDifference(['B11', 'B8'])`. */
  function Ndbi(p: S2Pixel): (r: Option<real>)
    ensures r.Some? ==> (p.b11 >= 0.0 && p.b8 >= 0.0 ==> -1.0 <= r.value <= 1.0)
    ensures r.None? <==> p.b11 + p.b8 == 0.0
    ensures r.Some? ==> r.value * (p.b11 + p.b8) == p.b11 - p.b8
  {
    if p.b11 >= 0.0 && p.b8 >= 0.0 && p.b11 + p.b8 != 0.0 then
      NormalizedDifferenceRange(p.b11, p.b8);
      NormalizedDifference(p.b11, p.b8)
    else NormalizedDifference(p.b11, p.b8)
  }
}

=== FILE: lst_bck.dfy ===
/**
 * server/gee/lst_bck.py: the earlier LST-only pipeline. Each non-empty window's LST composite is
 * tagged with its 1-based week number and exported as `clean_lst_date`.
 */
module LstBck {
  import opened Wrappers
  import opened QualityMask
  import opened Rasters
  import opened Catalog
  import opened Names
  import opened Decimal
  import opened Dates
  import opened Weeks
  import opened Tasks

  const CityNames: seq<string> := ["Riyadh"]

  /** `weekly_images` of window `w`: `data` already holds the horizon's qualifying scenes. */
  function WeeklyImages(c: CityCatalog, horizonStart: int, horizonEnd: int, w: Week): seq<Scene<LandsatPixel>> {
    LandsatWeek(c.landsat, horizonStart, horizonEnd, w.start, w.end)
  }

  /** `f'Week {i + 1}'`. */
  function WeekTag(i: nat): string {
    "Week " + NatToString(i + 1)
  }

  /** The tag is 1-based and tells the windows apart. */
  lemma WeekTagDistinct(i: nat, j: nat)
    requires WeekTag(i) == WeekTag(j)
    ensures i == j
  {
    assert WeekTag(i)[5..] == NatToString(i + 1);
    assert WeekTag(j)[5..] == NatToString(j + 1);
    NatToStringInjective(i + 1, j + 1);
  }

  /** The first window is tagged "Week 1". */
  lemma FirstWeekTag()
    ensures WeekTag(0) == "Week 1"
  {
  }

  /**
   * One iteration of `export_lst`'s loop over window `i`: skipped without images; otherwise the
   * composite, tagged with the week number, exported as `clean_lst_date`.
   */
  function ExportLst(c: CityCatalog, horizonStart: int, horizonEnd: int, city: string, i: nat, w: Week): (r: Step)
    requires ValidDay(w.start)
    ensures r.error.None?
    ensures r.effects == [] <==> |WeeklyImages(c, horizonStart, horizonEnd, w)| == 0
    ensures r.effects != [] ==>
      r.effects == [Export(ArtifactName(Clean(RemoveSpaces, city), "lst", Format(w.start)),
                           Some(TemporalMean(Stack(WeeklyImages(c, horizonStart, horizonEnd, w), LstBand), c.pixels)),
                           Some(WeekTag(i)))]
  {
    var weekly := WeeklyImages(c, horizonStart, horizonEnd, w);
    if |weekly| <= 0 then Nothing
    else
      var lst := LstMean(weekly, c.pixels);
      var name := ArtifactName(Clean(RemoveSpaces, city), "lst", Format(w.start));
      Step([Export(name, Some(lst), Some(WeekTag(i)))], None)
  }
}

=== FILE: lst_js.dfy ===
/**
 * server/gee/js/lst.js: the Code Editor twin of lst.py. Its city key drops every whitespace run,
 * and a non-empty window is meant to produce four exports: the heat island raster and table request
 * named `clean_uhi_date`, and the LST raster and table request named `clean_lst_date`. As written, the table
 * exports read `stats.get(...)` on a plain JavaScript object, which has no `get` method, so the
 * first non-empty window stops the script with a TypeError right after its first image export.
 */
module LstJs {
  import opened Wrappers
  import opened QualityMask
  import opened Rasters
  import opened Uhi
  import opened Catalog
  import opened Names
  import opened Dates
  import opened Weeks
  import opened Tasks

  const CityNames: seq<string> := ["Riyadh"]

  /** `getCityUrbanMask`: mean night-time radiance over the whole horizon above 5. */
  function CityUrbanMask(c: CityCatalog, horizonStart: int, horizonEnd: int): (m: Raster)
    ensures |m| == c.pixels
  {
    HorizonMask(c, horizonStart, horizonEnd)
  }

  /** `lst_images` of one window. */
  function LstImages(c: CityCatalog, horizonStart: int, horizonEnd: int, w: Week): seq<Scene<LandsatPixel>> {
    LandsatWeek(c.landsat, horizonStart, horizonEnd, w.start, w.end)
  }

  /** `lst_mean` of one window. */
  function Composite(c: CityCatalog, horizonStart: int, horizonEnd: int, w: Week): (r: Raster)
    ensures |r| == c.pixels
  {
    LstMean(LstImages(c, horizonStart, horizonEnd, w), c.pixels)
  }

  /** `uhi_index` of one window. */
  function HeatIsland(c: CityCatalog, horizonStart: int, horizonEnd: int, w: Week): Option<Raster> {
    WeekUhi(Composite(c, horizonStart, horizonEnd, w), CityUrbanMask(c, horizonStart, horizonEnd))
  }

  /** `export_lst_uhi` as written: the first image export, then the TypeError of `stats.get`. */
  function ExportLstUhiAsWritten(c: CityCatalog, horizonStart: int, horizonEnd: int, city: string, w: Week): (r: Step)
    requires ValidDay(w.start)
    ensures r.effects == [] <==> |LstImages(c, horizonStart, horizonEnd, w)| == 0
    ensures r.error.Some? <==> r.effects != []
    ensures |r.effects| <= 1
  {
    if |LstImages(c, horizonStart, horizonEnd, w)| <= 0 then Nothing
    else
      var uhiName := ArtifactName(Clean(RemoveWhitespaceRuns, city), "uhi", Format(w.start));
      Step([Export(uhiName, HeatIsland(c, horizonStart, horizonEnd, w), None)], Some(TypeError))
  }

  /**
   * `export_lst_uhi` as intended: the heat island raster and its AOI mean under `clean_uhi_date`,
   * then the LST composite and its AOI mean under `clean_lst_date`.
   */
  function ExportLstUhi(c: CityCatalog, horizonStart: int, horizonEnd: int, city: string, w: Week): (r: Step)
    requires ValidDay(w.start)
    ensures r.error.None?
    ensures r.effects == [] <==> |LstImages(c, horizonStart, horizonEnd, w)| == 0
    ensures r.effects != [] ==>
      var clean := Clean(RemoveWhitespaceRuns, city);
      |r.effects| == 4
      && ImageWithMean(r.effects[..2], ArtifactName(clean, "uhi", Format(w.start)))
      && ImageWithMean(r.effects[2..], ArtifactName(clean, "lst", Format(w.start)))
      && r.effects[0].image == HeatIsland(c, horizonStart, horizonEnd, w)
      && r.effects[2].image == Some(Composite(c, horizonStart, horizonEnd, w))
  {
    if |LstImages(c, horizonStart, horizonEnd, w)| <= 0 then Nothing
    else
      var clean := Clean(RemoveWhitespaceRuns, city);
      var date := Format(w.start);
      var uhi := HeatIsland(c, horizonStart, horizonEnd, w);
      var lst := Composite(c, horizonStart, horizonEnd, w);
      var uhiName := ArtifactName(clean, "uhi", date);
      var lstName := ArtifactName(clean, "lst", date);
      var first, second := ExportWithMean(uhiName, uhi), ExportWithMean(lstName, Some(lst));
      var r := Step(first + second, None);
      assert r.effects[..2] == first && r.effects[2..] == second;
      r
  }

  /**
   * The heat island table request of a non-empty window is given, as its feature's properties
   * argument, the urban mean of the composite less its non-urban mean, when both zones have
   * pixels; otherwise the heat island image is missing.
   */
  lemma ExportedUhiIsMeanDifference(c: CityCatalog, horizonStart: int, horizonEnd: int, city: string, w: Week)
    requires ValidDay(w.start) && |LstImages(c, horizonStart, horizonEnd, w)| > 0
    ensures var r := ExportLstUhi(c, horizonStart, horizonEnd, city, w);
      var lst := Composite(c, horizonStart, horizonEnd, w);
      var urban := CityUrbanMask(c, horizonStart, horizonEnd);
      (r.effects[0].image.Some? <==> ZonesNonEmpty(lst, urban))
      && (ZonesNonEmpty(lst, urban) ==> r.effects[1].value == Some(UrbanMean(lst, urban) - NonUrbanMean(lst, urban)))
  {
  }

  /** As written, a non-empty window issues exactly the first of the four intended exports. */
  lemma AsWrittenStopsAfterFirstExport(c: CityCatalog, horizonStart: int, horizonEnd: int, city: string, w: Week)
    requires ValidDay(w.start) && |LstImages(c, horizonStart, horizonEnd, w)| > 0
    ensures ExportLstUhiAsWritten(c, horizonStart, horizonEnd, city, w).effects
         == ExportLstUhi(c, horizonStart, horizonEnd, city, w).effects[..1]
    ensures ExportLstUhiAsWritten(c, horizonStart, horizonEnd, city, w).error == Some(TypeError)
  {
  }

  /**
   * `add_to_map`: for a non-empty window, the heat island raster with its zero pixels masked and
   * the LST composite, both labelled with the horizon's dates rather than the window's.
   */
  function AddToMap(c: CityCatalog, horizonStart: int, horizonEnd: int, city: string, w: Week): (r: Step)
    requires ValidDay(horizonStart) && ValidDay(horizonEnd)
    ensures r.error.None?
    ensures r.effects == [] <==> |LstImages(c, horizonStart, horizonEnd, w)| == 0
    ensures r.effects != [] ==>
      |r.effects| == 2 && r.effects[0].MapLayer? && r.effects[1].MapLayer?
      && r.effects[1].image == Some(Composite(c, horizonStart, horizonEnd, w))
    ensures r.effects != [] ==>
      var uhi := HeatIsland(c, horizonStart, horizonEnd, w);
      r.effects[0].image == (if uhi.Some? then Some(MaskZeros(uhi.value)) else None)
    ensures r.effects != [] ==>
      var span := Format(horizonStart) + " to " + Format(horizonEnd);
      Title(r.effects[0]) == city + " UHI" + span && Title(r.effects[1]) == city + " LST " + span
  {
    if |LstImages(c, horizonStart, horizonEnd, w)| <= 0 then Nothing
    else
      var span := Format(horizonStart) + " to " + Format(horizonEnd);
      var uhi := HeatIsland(c, horizonStart, horizonEnd, w);
      var filtered := if uhi.Some? then Some(MaskZeros(uhi.value)) else None;
      Step([MapLayer(city + " UHI" + span, filtered),
            MapLayer(city + " LST " + span, Some(Composite(c, horizonStart, horizonEnd, w)))], None)
  }

  /** Every window's layers carry the same two labels, so the map cannot tell the weeks apart. */
  lemma AddToMapLabelsIgnoreWindow(c: CityCatalog, horizonStart: int, horizonEnd: int, city: string, w1: Week, w2: Week)
    requires ValidDay(horizonStart) && ValidDay(horizonEnd)
    requires |LstImages(c, horizonStart, horizonEnd, w1)| > 0 && |LstImages(c, horizonStart, horizonEnd, w2)| > 0
    ensures Title(AddToMap(c, horizonStart, horizonEnd, city, w1).effects[0])
         == Title(AddToMap(c, horizonStart, horizonEnd, city, w2).effects[0])
    ensures Title(AddToMap(c, horizonStart, horizonEnd, city, w1).effects[1])
         == Title(AddToMap(c, horizonStart, horizonEnd, city, w2).effects[1])
  {
  }
}

=== FILE: lst_py.dfy ===
/**
 * server/gee/lst.py: for each city and each window, the Landsat LST composite is split into an
 * urban and a non-urban zone by the horizon's night-lights mask, each zone is gap-filled with its
 * own mean, and the heat island raster and its AOI mean are exported under one name.
 */
module LstPy {
  import opened Wrappers
  import opened QualityMask
  import opened Rasters
  import opened Uhi
  import opened Catalog
  import opened Names
  import opened Dates
  import opened Weeks
  import opened Tasks

  const CityNames: seq<string> := ["Riyadh"]

  /** `get_urban_mask`: it reads only the horizon, never the window. */
  function UrbanMask(c: CityCatalog, horizonStart: int, horizonEnd: int): (m: Raster)
    ensures |m| == c.pixels
  {
    HorizonMask(c, horizonStart, horizonEnd)
  }

  /** `weekly_images`: the qualifying scenes of one window. */
  function WeeklyImages(c: CityCatalog, horizonStart: int, horizonEnd: int, w: Week): seq<Scene<LandsatPixel>> {
    LandsatWeek(c.landsat, horizonStart, horizonEnd, w.start, w.end)
  }

  /** `lst_mean` of one window. */
  function Composite(c: CityCatalog, horizonStart: int, horizonEnd: int, w: Week): (r: Raster)
    ensures |r| == c.pixels
  {
    LstMean(WeeklyImages(c, horizonStart, horizonEnd, w), c.pixels)
  }

  /**
   * `export_lst_and_uhi`: nothing for a window without images; otherwise the heat island raster
   * and its AOI mean, both named `clean_uhi_date`, and no `lst` artifact at all.
   */
  function ExportLstAndUhi(c: CityCatalog, horizonStart: int, horizonEnd: int, city: string, w: Week): (r: Step)
    requires ValidDay(w.start)
    ensures r.error.None?
    ensures r.effects == [] <==> |WeeklyImages(c, horizonStart, horizonEnd, w)| == 0
    ensures r.effects != [] ==>
      ImageWithMean(r.effects, ArtifactName(Clean(RemoveSpaces, city), "uhi", Format(w.start)))
    ensures r.effects != [] ==>
      var lst := Composite(c, horizonStart, horizonEnd, w);
      var urban := UrbanMask(c, horizonStart, horizonEnd);
      (r.effects[0].image.Some? <==> ZonesNonEmpty(lst, urban))
      && (ZonesNonEmpty(lst, urban) ==> r.effects[1].value == Some(UrbanMean(lst, urban) - NonUrbanMean(lst, urban)))
  {
    var clean := Clean(RemoveSpaces, city);
    var urban := UrbanMask(c, horizonStart, horizonEnd);
    var weekly := WeeklyImages(c, horizonStart, horizonEnd, w);
    if |weekly| <= 0 then Nothing
    else
      var uhi := WeekUhi(Composite(c, horizonStart, horizonEnd, w), urban);
      var name := ArtifactName(clean, "uhi", Format(w.start));
      Step([Export(name, uhi, None), TableExport(name, MeanOf(uhi))], None)
  }
}

=== FILE: names.dfy ===
/**
 * City keys and artifact names. Every script derives a storage key from a city's display
 * name and names each weekly artifact `<key>_<index>_<YYYY-MM-dd>`. The scripts disagree on
 * how the key is derived:
 *   - Python `name.replace(" ", "").lower()` removes every U+0020 space;
 *   - JavaScript `name.replace(/\s+/g, '').toLowerCase()` removes every whitespace run;
 *   - JavaScript `name.replace(" ", "").toLowerCase()` (a string pattern, so only the first
 *     match, section 22.1.3.18 of ECMA-262, 2022 edition) removes the first space only.
 */
module Names {

  datatype Normaliser = RemoveSpaces | RemoveWhitespaceRuns | RemoveFirstSpace

  /** The characters JavaScript's `\s` matches: WhiteSpace and LineTerminator of ECMA-262. */
  predicate IsJsWhitespace(c: char) {
    var k := c as int;
    (9 <= k <= 13) || k == 32 || k == 0xA0 || k == 0x1680 || (0x2000 <= k <= 0x200A)
    || k == 0x2028 || k == 0x2029 || k == 0x202F || k == 0x205F || k == 0x3000 || k == 0xFEFF
  }

  predicate NoWhitespace(s: string) {
    forall k :: 0 <= k < |s| ==> !IsJsWhitespace(s[k])
  }

  predicate IsUpper(c: char) {
    'A' <= c <= 'Z'
  }

  function LowerChar(c: char): char {
    if IsUpper(c) then (c as int + 32) as char else c
  }

  /** `lower()` / `toLowerCase()` on the ASCII letters. */
  function Lower(s: string): string {
    seq(|s|, k requires 0 <= k < |s| => LowerChar(s[k]))
  }

  /** Python's `s.replace(c, "")`: every occurrence of `c` removed. */
  function RemoveAll(s: string, c: char): (r: string)
    ensures c !in r
    ensures |r| <= |s|
    ensures forall x :: x in r ==> x in s
    ensures |s| == 1 ==> r == (if s[0] == c then [] else s)
  {
    if s == [] then [] else (if s[0] == c then [] else [s[0]]) + RemoveAll(s[1..], c)
  }

  /** `s.replace(/\s+/g, '')`: deleting every whitespace run deletes every whitespace character. */
  function RemoveWhitespace(s: string): (r: string)
    ensures NoWhitespace(r)
    ensures |r| <= |s|
    ensures forall x :: x in r ==> x in s
    ensures |s| == 1 ==> r == (if IsJsWhitespace(s[0]) then [] else s)
  {
    if s == [] then [] else (if IsJsWhitespace(s[0]) then [] else [s[0]]) + RemoveWhitespace(s[1..])
  }

  /** JavaScript's `s.replace(" ", "")`: the first space removed, the rest kept. */
  function RemoveFirst(s: string, c: char): string
  {
    if s == [] then [] else if s[0] == c then s[1..] else [s[0]] + RemoveFirst(s[1..], c)
  }

  function Clean(how: Normaliser, city: string): string {
    match how
    case RemoveSpaces => Lower(RemoveAll(city, ' '))
    case RemoveWhitespaceRuns => Lower(RemoveWhitespace(city))
    case RemoveFirstSpace => Lower(RemoveFirst(city, ' '))
  }

  /** `f"{clean_name}_{index}_{processed_date}"`. */
  function ArtifactName(clean: string, index: string, date: string): (r: string)
    ensures |r| == |clean| + |index| + |date| + 2
    ensures r[|clean|] == '_' && r[|clean| + |index| + 1] == '_'
  {
    clean + "_" + index + "_" + date
  }

  /** The three fields can be read back from their positions in the name. */
  lemma ArtifactNameFields(clean: string, index: string, date: string)
    ensures var r := ArtifactName(clean, index, date);
      r[..|clean|] == clean && r[|clean| + 1..|clean| + |index| + 1] == index
      && r[|clean| + |index| + 2..] == date
  {
    var r := ArtifactName(clean, index, date);
    assert r == clean + ("_" + (index + ("_" + date)));
  }

  /** Names that share a key and an index differ when their dates differ. */
  lemma ArtifactNameDateInjective(clean: string, index: string, a: string, b: string)
    requires ArtifactName(clean, index, a) == ArtifactName(clean, index, b)
    ensures a == b
  {
    ArtifactNameFields(clean, index, a);
    ArtifactNameFields(clean, index, b);
  }

  /** Names that share a key and an index but not a date are different. */
  lemma ArtifactNameDistinct(clean: string, index: string, a: string, b: string)
    requires a != b
    ensures ArtifactName(clean, index, a) != ArtifactName(clean, index, b)
  {
    if ArtifactName(clean, index, a) == ArtifactName(clean, index, b) {
      ArtifactNameDateInjective(clean, index, a, b);
    }
  }

  /** The Python key holds no space. */
  lemma RemoveSpacesHasNoSpace(city: string)
    ensures ' ' !in Clean(RemoveSpaces, city)
  {
  }

  /** The JavaScript key holds no whitespace at all. */
  lemma RemoveWhitespaceRunsHasNoWhitespace(city: string)
    ensures NoWhitespace(Clean(RemoveWhitespaceRuns, city))
  {
  }

  lemma {:induction false} LowerIdempotent(s: string)
    ensures Lower(Lower(s)) == Lower(s)
  {
    if s != [] {
      LowerIdempotent(s[1..]);
      assert Lower(s)[1..] == Lower(s[1..]);
    }
  }

  lemma {:induction false} RemoveAllLower(s: string)
    ensures RemoveAll(Lower(s), ' ') == Lower(RemoveAll(s, ' '))
  {
    if s != [] {
      RemoveAllLower(s[1..]);
      assert Lower(s)[1..] == Lower(s[1..]);
      assert Lower(s) == [LowerChar(s[0])] + Lower(s[1..]);
      if s[0] != ' ' {
        assert Lower([s[0]] + RemoveAll(s[1..], ' ')) == [LowerChar(s[0])] + Lower(RemoveAll(s[1..], ' '));
      }
    }
  }

  /** Lowering a letter never turns it into whitespace or back. */
  lemma LowerCharWhitespace(c: char)
    ensures IsJsWhitespace(LowerChar(c)) <==> IsJsWhitespace(c)
  {
  }

  lemma {:induction false} RemoveWhitespaceLower(s: string)
    ensures RemoveWhitespace(Lower(s)) == Lower(RemoveWhitespace(s))
  {
    if s != [] {
      var head := if IsJsWhitespace(s[0]) then [] else [s[0]];
      RemoveWhitespaceLower(s[1..]);
      LowerCharWhitespace(s[0]);
      assert Lower(s)[0] == LowerChar(s[0]) && Lower(s)[1..] == Lower(s[1..]);
      assert RemoveWhitespace(Lower(s)) == Lower(head) + RemoveWhitespace(Lower(s[1..]));
      LowerAppend(head, RemoveWhitespace(s[1..]));
    }
  }

  lemma {:induction false} RemoveAllNothing(s: string, c: char)
    requires c !in s
    ensures RemoveAll(s, c) == s
  {
    if s != [] {
      RemoveAllNothing(s[1..], c);
    }
  }

  lemma {:induction false} RemoveWhitespaceNothing(s: string)
    requires NoWhitespace(s)
    ensures RemoveWhitespace(s) == s
  {
    if s != [] {
      RemoveWhitespaceNothing(s[1..]);
    }
  }

  /** Removing a character keeps every copy of every other character and no copy of it. */
  lemma {:induction false} RemoveAllMultiset(s: string, c: char)
    ensures multiset(RemoveAll(s, c)) == multiset(s)[c := 0]
  {
    if s != [] {
      assert s == [s[0]] + s[1..];
      RemoveAllMultiset(s[1..], c);
    }
  }

  /** Removal works piece by piece, so the kept characters stay in their order. */
  lemma {:induction false} RemoveAllAppend(a: string, b: string, c: char)
    ensures RemoveAll(a + b, c) == RemoveAll(a, c) + RemoveAll(b, c)
  {
    if a != [] {
      assert (a + b)[1..] == a[1..] + b;
      RemoveAllAppend(a[1..], b, c);
    } else {
      assert a + b == b;
    }
  }

  /** Whitespace removal keeps every copy of every other character and no whitespace. */
  lemma {:induction false} RemoveWhitespaceMultiset(s: string, x: char)
    ensures multiset(RemoveWhitespace(s))[x] == if IsJsWhitespace(x) then 0 else multiset(s)[x]
  {
    if s != [] {
      assert s == [s[0]] + s[1..];
      RemoveWhitespaceMultiset(s[1..], x);
    }
  }

  /** Removal works piece by piece, so the kept characters stay in their order. */
  lemma {:induction false} RemoveWhitespaceAppend(a: string, b: string)
    ensures RemoveWhitespace(a + b) == RemoveWhitespace(a) + RemoveWhitespace(b)
  {
    if a != [] {
      assert (a + b)[1..] == a[1..] + b;
      RemoveWhitespaceAppend(a[1..], b);
    } else {
      assert a + b == b;
    }
  }

  lemma {:induction false} LowerAppend(a: string, b: string)
    ensures Lower(a + b) == Lower(a) + Lower(b)
  {
  }

  lemma {:induction false} RemoveFirstAfter(a: string, c: char, b: string)
    requires c !in a
    ensures RemoveFirst(a + [c] + b, c) == a + b
  {
    if a != [] {
      assert (a + [c] + b)[1..] == a[1..] + [c] + b;
      RemoveFirstAfter(a[1..], c, b);
    } else {
      assert a + [c] + b == [c] + b;
    }
  }

  /** The first-space variant removes exactly one occurrence when there is one, and nothing otherwise. */
  lemma {:induction false} RemoveFirstRemovesOne(s: string, c: char)
    ensures multiset(RemoveFirst(s, c)) == multiset(s) - multiset{c}
    ensures c in s ==> |RemoveFirst(s, c)| == |s| - 1
    ensures c !in s ==> RemoveFirst(s, c) == s
  {
    if s != [] {
      assert s == [s[0]] + s[1..];
      assert multiset(s) == multiset{s[0]} + multiset(s[1..]);
      if s[0] != c {
        RemoveFirstRemovesOne(s[1..], c);
      }
    }
  }

  /** Normalising a key that is already normalised changes nothing (both full-removal variants). */
  lemma CleanIdempotent(how: Normaliser, city: string)
    requires how != RemoveFirstSpace
    ensures Clean(how, Clean(how, city)) == Clean(how, city)
  {
    if how == RemoveSpaces {
      var s := RemoveAll(city, ' ');
      RemoveAllLower(s);
      RemoveAllNothing(s, ' ');
      LowerIdempotent(s);
    } else {
      var s := RemoveWhitespace(city);
      RemoveWhitespaceLower(s);
      RemoveWhitespaceNothing(s);
      LowerIdempotent(s);
    }
  }

  lemma {:induction false} SpacesOnlyRemovalsAgree(city: string)
    requires forall k :: 0 <= k < |city| && IsJsWhitespace(city[k]) ==> city[k] == ' '
    ensures RemoveAll(city, ' ') == RemoveWhitespace(city)
  {
    if city != [] {
      assert forall k :: 0 <= k < |city| - 1 ==> city[1..][k] == city[k + 1];
      SpacesOnlyRemovalsAgree(city[1..]);
    }
  }

  /** On names whose only whitespace is U+0020, the Python and the JavaScript keys agree. */
  lemma SpacesOnlyKeysAgree(city: string)
    requires forall k :: 0 <= k < |city| && IsJsWhitespace(city[k]) ==> city[k] == ' '
    ensures Clean(RemoveSpaces, city) == Clean(RemoveWhitespaceRuns, city)
  {
    SpacesOnlyRemovalsAgree(city);
  }

  lemma {:induction false} AtMostOneSpaceRemovalsAgree(city: string)
    requires multiset(city)[' '] <= 1
    ensures RemoveFirst(city, ' ') == RemoveAll(city, ' ')
  {
    if city != [] {
      assert city == [city[0]] + city[1..];
      assert multiset(city) == multiset{city[0]} + multiset(city[1..]);
      if city[0] == ' ' {
        assert ' ' !in city[1..];
        RemoveAllNothing(city[1..], ' ');
      } else {
        AtMostOneSpaceRemovalsAgree(city[1..]);
      }
    }
  }

  /** The first-space variant agrees with the Python key when the name has at most one space. */
  lemma FirstSpaceOnly(city: string)
    requires multiset(city)[' '] <= 1
    ensures Clean(RemoveFirstSpace, city) == Clean(RemoveSpaces, city)
  {
    AtMostOneSpaceRemovalsAgree(city);
  }

  lemma RemoveWhitespaceSpaceBefore(c: string)
    ensures RemoveWhitespace(" " + c) == RemoveWhitespace(c)
  {
    assert (" " + c)[1..] == c;
  }

  lemma RemoveWhitespaceWordBefore(a: string, c: string)
    requires NoWhitespace(a)
    ensures RemoveWhitespace(a + c) == a + RemoveWhitespace(c)
  {
    RemoveWhitespaceAppend(a, c);
    RemoveWhitespaceNothing(a);
  }

  /** Whitespace removal on a name made of three words separated by single spaces. */
  lemma RemoveWhitespaceWords(a: string, b: string, c: string)
    requires NoWhitespace(a) && NoWhitespace(b) && NoWhitespace(c)
    ensures RemoveWhitespace(a + (" " + (b + (" " + c)))) == a + (b + c)
  {
    var s1 := " " + c;
    assert RemoveWhitespace(s1) == c by { RemoveWhitespaceSpaceBefore(c); RemoveWhitespaceNothing(c); }
    var s2 := b + s1;
    assert RemoveWhitespace(s2) == b + c by { RemoveWhitespaceWordBefore(b, s1); }
    var s3 := " " + s2;
    assert RemoveWhitespace(s3) == b + c by { RemoveWhitespaceSpaceBefore(s2); }
    RemoveWhitespaceWordBefore(a, s3);
  }

  lemma LowerMakkah()
    ensures Lower("Makkah") == "makkah" && Lower("Al") == "al" && Lower("Al ") == "al "
    ensures Lower("Mukarramah") == "mukarramah"
  {
  }

  /** The JavaScript key of three words separated by single spaces is the three lowered words joined. */
  lemma ThreeWordsKey(a: string, b: string, c: string)
    requires NoWhitespace(a) && NoWhitespace(b) && NoWhitespace(c)
    ensures Clean(RemoveWhitespaceRuns, a + (" " + (b + (" " + c)))) == Lower(a) + (Lower(b) + Lower(c))
  {
    RemoveWhitespaceWords(a, b, c);
    LowerAppend(a, b + c);
    LowerAppend(b, c);
  }

  lemma MakkahSplit(city: string)
    requires city == "Makkah Al Mukarramah"
    ensures city == "Makkah" + (" " + ("Al" + (" " + "Mukarramah")))
  {
    assert " " + "Mukarramah" == " Mukarramah";
    assert "Al" + " Mukarramah" == "Al Mukarramah";
    assert " " + "Al Mukarramah" == " Al Mukarramah";
  }

  lemma MakkahWordsPlain()
    ensures NoWhitespace("Makkah") && NoWhitespace("Al") && NoWhitespace("Mukarramah")
  {
  }

  lemma MakkahJoin()
    ensures "makkah" + ("al" + "mukarramah") == "makkahalmukarramah"
  {
  }

  /** 'Makkah Al Mukarramah' has two spaces: the JavaScript key drops both. */
  lemma MakkahWhitespaceRuns(city: string)
    requires city == "Makkah Al Mukarramah"
    ensures Clean(RemoveWhitespaceRuns, city) == "makkahalmukarramah"
  {
    MakkahSplit(city);
    MakkahWordsPlain();
    ThreeWordsKey("Makkah", "Al", "Mukarramah");
    LowerMakkah();
    MakkahJoin();
  }

  lemma RemoveFirstMakkah(city: string)
    requires city == "Makkah" + [' '] + "Al Mukarramah"
    ensures RemoveFirst(city, ' ') == "Makkah" + "Al Mukarramah"
  {
    RemoveFirstAfter("Makkah", ' ', "Al Mukarramah");
  }

  /** ... while the first-space variant keeps the second one. */
  lemma MakkahFirstSpace(city: string)
    requires city == "Makkah Al Mukarramah"
    ensures Clean(RemoveFirstSpace, city) == "makkahal mukarramah"
  {
    var removed := "Makkah" + "Al Mukarramah";
    assert RemoveFirst(city, ' ') == removed by {
      assert city == "Makkah" + [' '] + "Al Mukarramah";
      RemoveFirstMakkah(city);
    }
    var lowered := "makkah" + ("al " + "mukarramah");
    assert Lower(removed) == lowered by {
      assert "Al Mukarramah" == "Al " + "Mukarramah";
      LowerAppend("Makkah", "Al Mukarramah");
      LowerAppend("Al ", "Mukarramah");
      LowerMakkah();
    }
    assert lowered == "makkahal mukarramah";
  }
}

=== FILE: ndbi_js.dfy ===
/**
 * server/gee/js/ndbi.js: the Code Editor NDBI script. `exportNDBI` exports every window, empty or
 * not; `addToMap`, the one the script runs for its four cities, adds a layer only for a window
 * that has scenes.
 */
module NdbiJs {
  import opened Wrappers
  import opened QualityMask
  import opened Rasters
  import opened Catalog
  import opened Names
  import opened Dates
  import opened Weeks
  import opened Tasks

  const CityNames: seq<string> := ["Riyadh", "Jiddah", "Makkah Al Mukarramah", "Al Qatif"]

  /** `dataset.map(calculateNDBI).mean().select('NDBI')` of one window. */
  function Composite(c: CityCatalog, w: Week): (r: Raster)
    ensures |r| == c.pixels
  {
    TemporalMean(Stack(S2Week(c.s2, w.start, w.end), NdbiBand), c.pixels)
  }

  /** One iteration of `exportNDBI`: one export whatever the window holds, with
   * no image when the window has no scenes (the mean of an empty collection has no bands to select). */
  function ExportNdbi(c: CityCatalog, city: string, w: Week): (r: Step)
    requires ValidDay(w.start)
    ensures r.error.None?
    ensures r.effects == [Export(ArtifactName(Clean(RemoveWhitespaceRuns, city), "ndbi", Format(w.start)),
      (if |S2Week(c.s2, w.start, w.end)| > 0 then Some(Composite(c, w)) else None), None)]
  {
    Step([Export(ArtifactName(Clean(RemoveWhitespaceRuns, city), "ndbi", Format(w.start)),
      (if |S2Week(c.s2, w.start, w.end)| > 0 then Some(Composite(c, w)) else None), None)], None)
  }

  /** One iteration of `addToMap`: a layer `clean NDBI week date` iff the window has scenes. */
  function AddToMap(c: CityCatalog, city: string, w: Week): (r: Step)
    requires ValidDay(w.start)
    ensures r.error.None?
    ensures r.effects == (if |S2Week(c.s2, w.start, w.end)| > 0
      then [MapLayer(Clean(RemoveWhitespaceRuns, city) + " NDBI week " + Format(w.start), Some(Composite(c, w)))]
      else [])
  {
    if |S2Week(c.s2, w.start, w.end)| > 0 then
      Step([MapLayer(Clean(RemoveWhitespaceRuns, city) + " NDBI week " + Format(w.start), Some(Composite(c, w)))], None)
    else Nothing
  }
}

=== FILE: ndbi_py.dfy ===
/**
 * server/gee/ndbi.py: per window, the mean NDBI of the cloud-free Sentinel-2 scenes.
 * `export_ndbi` exports every window, empty or not; `add_to_map`, which the script does not call,
 * reports a layer only for a window that has scenes.
 */
module NdbiPy {
  import opened Wrappers
  import opened QualityMask
  import opened Rasters
  import opened Catalog
  import opened Names
  import opened Dates
  import opened Weeks
  import opened Tasks

  const CityNames: seq<string> := ["Riyadh"]

  /** `dataset.map(calculate_ndbi).mean().select('NDBI')` of one window. */
  function Composite(c: CityCatalog, w: Week): (r: Raster)
    ensures |r| == c.pixels
  {
    TemporalMean(Stack(S2Week(c.s2, w.start, w.end), NdbiBand), c.pixels)
  }

  /** One iteration of `export_ndbi`: one export whatever the window holds, with
   * no image when the window has no scenes (the mean of an empty collection has no bands to select). */
  function ExportNdbi(c: CityCatalog, city: string, w: Week): (r: Step)
    requires ValidDay(w.start)
    ensures r.error.None?
    ensures r.effects == [Export(ArtifactName(Clean(RemoveSpaces, city), "ndbi", Format(w.start)),
      (if |S2Week(c.s2, w.start, w.end)| > 0 then Some(Composite(c, w)) else None), None)]
  {
    Step([Export(ArtifactName(Clean(RemoveSpaces, city), "ndbi", Format(w.start)),
      (if |S2Week(c.s2, w.start, w.end)| > 0 then Some(Composite(c, w)) else None), None)], None)
  }

  /** One iteration of `add_to_map`: "Layer added: clean NDBI week date" iff the window has scenes. */
  function AddToMap(c: CityCatalog, city: string, w: Week): (r: Step)
    requires ValidDay(w.start)
    ensures r.error.None?
    ensures r.effects == (if |S2Week(c.s2, w.start, w.end)| > 0
      then [LayerReport(Clean(RemoveSpaces, city) + " NDBI week " + Format(w.start))]
      else [])
  {
    if |S2Week(c.s2, w.start, w.end)| > 0 then
      Step([LayerReport(Clean(RemoveSpaces, city) + " NDBI week " + Format(w.start))], None)
    else Nothing
  }
}

=== FILE: ndvi_js.dfy ===
/**
 * server/gee/js/ndvi.js: the Code Editor NDVI script. Its city key is built with
 * `replace(" ", "")`, which removes only the first space. `exportNDVI` reads the undeclared name
 * `data` for the boundary path, so it stops with a ReferenceError before any export; the script
 * never calls it and runs `addToMap` instead.
 */
module NdviJs {
  import opened Wrappers
  import opened QualityMask
  import opened Rasters
  import opened Catalog
  import opened Names
  import opened Dates
  import opened Weeks
  import opened Tasks

  const CityNames: seq<string> := ["Riyadh"]

  /** `dataset.map(calculateNDVI).mean().select('NDVI')` of one window. */
  function Composite(c: CityCatalog, w: Week): (r: Raster)
    ensures |r| == c.pixels
  {
    TemporalMean(Stack(S2Week(c.s2, w.start, w.end), NdviBand), c.pixels)
  }

  /** `exportNDVI` as written: the ReferenceError on `data`, raised before its loop starts. */
  function ExportNdviAsWritten(city: string): (r: Step)
    ensures r.effects == [] && r.error == Some(ReferenceError)
  {
    Step([], Some(ReferenceError))
  }

  /** One iteration of `exportNDVI` as intended (boundary path from `dest`): one export per window, with no image when
   * the window has no scenes (the mean of an empty collection has no bands to select). */
  function ExportNdvi(c: CityCatalog, city: string, w: Week): (r: Step)
    requires ValidDay(w.start)
    ensures r.error.None?
    ensures r.effects == [Export(ArtifactName(Clean(RemoveFirstSpace, city), "ndvi", Format(w.start)),
      (if |S2Week(c.s2, w.start, w.end)| > 0 then Some(Composite(c, w)) else None), None)]
  {
    Step([Export(ArtifactName(Clean(RemoveFirstSpace, city), "ndvi", Format(w.start)),
      (if |S2Week(c.s2, w.start, w.end)| > 0 then Some(Composite(c, w)) else None), None)], None)
  }

  /** One iteration of `addToMap`: a layer `clean NDVI date` iff the window has scenes. */
  function AddToMap(c: CityCatalog, city: string, w: Week): (r: Step)
    requires ValidDay(w.start)
    ensures r.error.None?
    ensures r.effects == (if |S2Week(c.s2, w.start, w.end)| > 0
      then [MapLayer(Clean(RemoveFirstSpace, city) + " NDVI " + Format(w.start), Some(Composite(c, w)))]
      else [])
  {
    if |S2Week(c.s2, w.start, w.end)| > 0 then
      Step([MapLayer(Clean(RemoveFirstSpace, city) + " NDVI " + Format(w.start), Some(Composite(c, w)))], None)
    else Nothing
  }

  /** For "Makkah Al Mukarramah" the layer label keeps a space: "makkahal mukarramah NDVI date". */
  lemma MakkahLabel(c: CityCatalog, w: Week)
    requires ValidDay(w.start) && |S2Week(c.s2, w.start, w.end)| > 0
    ensures Title(AddToMap(c, "Makkah Al Mukarramah", w).effects[0]) == "makkahal mukarramah" + " NDVI " + Format(w.start)
  {
    MakkahFirstSpace("Makkah Al Mukarramah");
  }
}

=== FILE: ndvi_py.dfy ===
/**
 * server/gee/ndvi.py: per window, the mean NDVI of the cloud-free Sentinel-2 scenes, exported as
 * `clean_ndvi_date` unless the window has no scene.
 */
module NdviPy {
  import opened Wrappers
  import opened QualityMask
  import opened Rasters
  import opened Catalog
  import opened Names
  import opened Dates
  import opened Weeks
  import opened Tasks

  const CityNames: seq<string> := ["Riyadh"]

  /** `dataset.map(calculate_ndvi).mean().select('NDVI')` of one window. */
  function Composite(c: CityCatalog, w: Week): (r: Raster)
    ensures |r| == c.pixels
  {
    TemporalMean(Stack(S2Week(c.s2, w.start, w.end), NdviBand), c.pixels)
  }

  /** One iteration of `export_ndvi`: skipped when `dataset_size == 0`, else one export. */
  function ExportNdvi(c: CityCatalog, city: string, w: Week): (r: Step)
    requires ValidDay(w.start)
    ensures r.error.None?
    ensures r.effects == [] <==> |S2Week(c.s2, w.start, w.end)| == 0
    ensures r.effects != [] ==>
      r.effects == [Export(ArtifactName(Clean(RemoveSpaces, city), "ndvi", Format(w.start)), Some(Composite(c, w)), None)]
  {
    if |S2Week(c.s2, w.start, w.end)| == 0 then Nothing
    else Step([Export(ArtifactName(Clean(RemoveSpaces, city), "ndvi", Format(w.start)), Some(Composite(c, w)), None)], None)
  }
}

=== FILE: pystrings.dfy ===
/** The Python string and path operations the download side relies on. */
module PyStrings {

  /** `s.split(sep)` with a one-character separator: never empty, the pieces free of `sep`. */
  function Split(s: string, sep: char): (r: seq<string>)
    ensures |r| >= 1
    ensures forall k :: 0 <= k < |r| ==> sep !in r[k]
    decreases |s|
  {
    if s == [] then [""]
    else
      var rest := Split(s[1..], sep);
      if s[0] == sep then [""] + rest else [[s[0]] + rest[0]] + rest[1..]
  }

  /** `sep.join(parts)`. */
  function Join(parts: seq<string>, sep: char): string
    requires |parts| >= 1
    decreases |parts|
  {
    if |parts| == 1 then parts[0] else parts[0] + [sep] + Join(parts[1..], sep)
  }

  /** Joining the pieces of a split gives back the string. */
  lemma {:induction false} JoinSplit(s: string, sep: char)
    ensures Join(Split(s, sep), sep) == s
    decreases |s|
  {
    if s != [] {
      var rest := Split(s[1..], sep);
      JoinSplit(s[1..], sep);
      if s[0] == sep {
        assert ([""] + rest)[1..] == rest;
      } else if |rest| > 1 {
        var r := [[s[0]] + rest[0]] + rest[1..];
        assert r[1..] == rest[1..];
        assert Join(r, sep) == [s[0]] + (rest[0] + [sep] + Join(rest[1..], sep));
      }
    }
  }

  /** A prefix without the separator sticks to the first piece of what follows it. */
  lemma {:induction false} SplitPrefix(a: string, t: string, sep: char)
    requires sep !in a
    ensures Split(a + t, sep) == [a + Split(t, sep)[0]] + Split(t, sep)[1..]
    decreases |a|
  {
    if a != [] {
      assert (a + t)[1..] == a[1..] + t;
      SplitPrefix(a[1..], t, sep);
      assert [a[0]] + (a[1..] + Split(t, sep)[0]) == a + Split(t, sep)[0];
    } else {
      var r := Split(t, sep);
      assert a + t == t && a + r[0] == r[0];
      assert r == [r[0]] + r[1..];
    }
  }

  /** Splitting a join of separator-free pieces gives back the pieces. */
  lemma {:induction false} SplitJoin(parts: seq<string>, sep: char)
    requires |parts| >= 1
    requires forall k :: 0 <= k < |parts| ==> sep !in parts[k]
    ensures Split(Join(parts, sep), sep) == parts
    decreases |parts|
  {
    if |parts| == 1 {
      SplitPrefix(parts[0], [], sep);
      assert parts[0] + [] == parts[0];
    } else {
      var tail := Join(parts[1..], sep);
      SplitJoin(parts[1..], sep);
      assert Split([sep] + tail, sep) == [""] + parts[1..];
      assert parts[0] + [sep] + tail == parts[0] + ([sep] + tail);
      SplitPrefix(parts[0], [sep] + tail, sep);
      assert parts[0] + "" == parts[0];
    }
  }

  /** The first piece of a split stops at the first separator. */
  lemma SplitFirstField(a: string, b: string, sep: char)
    requires sep !in a && (b == [] || b[0] == sep)
    ensures Split(a + b, sep)[0] == a
  {
    SplitPrefix(a, b, sep);
    assert a + "" == a;
  }

  /** `needle in hay` on strings: a substring test, which the empty needle always passes. */
  predicate Contains(hay: string, needle: string)
    decreases |hay|
  {
    |needle| <= |hay| && (hay[..|needle|] == needle || Contains(hay[1..], needle))
  }

  /** A string contains each of its prefixes. */
  lemma ContainsPrefix(a: string, b: string)
    ensures Contains(a + b, a)
  {
    assert (a + b)[..|a|] == a;
  }

  /**
   * `posixpath.join(a, b)`: an absolute `b` replaces `a`; otherwise `b` is appended, with a
   * slash in between unless `a` is empty or already ends in one.
   */
  function PosixJoin(a: string, b: string): (r: string)
    ensures |b| > 0 && b[0] == '/' ==> r == b
    ensures !(|b| > 0 && b[0] == '/') ==> |r| >= |a| + |b| && r[..|a|] == a && r[|r| - |b|..] == b
  {
    if |b| > 0 && b[0] == '/' then b
    else if a == [] || a[|a| - 1] == '/' then a + b
    else a + "/" + b
  }

  /** With a relative `b` and an `a` that does not end in a slash, the two are joined by one slash. */
  lemma PosixJoinRelative(a: string, b: string)
    requires a != [] && a[|a| - 1] != '/' && (b == [] || b[0] != '/')
    ensures PosixJoin(a, b) == a + "/" + b
  {
  }
}

=== FILE: qa.dfy ===
/**
 * Per-sensor quality masks. A quality word is a 16-bit unsigned integer band; a pixel survives
 * when the bits it checks are clear. Sentinel-2 scenes are also rescaled from digital numbers to
 * reflectance by dividing every band by 10000.
 */
module QualityMask {
  import opened Wrappers

  /** `1 << 5` on `QA_PIXEL`, labelled "cloud" in the scripts. */
  const LandsatCloudBit: bv16 := 1 << 5
  /** `1 << 3` on `QA_PIXEL`, labelled "shadow" in the scripts. */
  const LandsatShadowBit: bv16 := 1 << 3
  /** `1 << 10` on `QA60`: opaque clouds. */
  const S2CloudBit: bv16 := 1 << 10
  /** `1 << 11` on `QA60`: cirrus. */
  const S2CirrusBit: bv16 := 1 << 11
  /** Digital number to reflectance. */
  const S2Scale: real := 10000.0

  /** `qa.bitwise_and(1 << 5).eq(0).And(qa.bitwise_and(1 << 3).eq(0))`. */
  predicate LandsatClear(qa: bv16) {
    qa & LandsatCloudBit == 0 && qa & LandsatShadowBit == 0
  }

  /** `qa.bitwiseAnd(1 << 10).eq(0).and(qa.bitwiseAnd(1 << 11).eq(0))`. */
  predicate S2Clear(qa: bv16) {
    qa & S2CloudBit == 0 && qa & S2CirrusBit == 0
  }

  /** A Landsat pixel is kept iff bits 5 and 3 are both 0. */
  lemma LandsatClearBits(qa: bv16)
    ensures LandsatClear(qa) <==> qa & 0x28 == 0
  {
  }

  /** No bit other than 5 and 3 affects the Landsat decision. */
  lemma LandsatOnlyBits(a: bv16, b: bv16)
    requires a & 0x28 == b & 0x28
    ensures LandsatClear(a) == LandsatClear(b)
  {
  }

  /** A Sentinel-2 pixel is kept iff bits 10 and 11 are both 0. */
  lemma S2ClearBits(qa: bv16)
    ensures S2Clear(qa) <==> qa & 0xC00 == 0
  {
  }

  /** No bit other than 10 and 11 affects the Sentinel-2 decision. */
  lemma S2OnlyBits(a: bv16, b: bv16)
    requires a & 0xC00 == b & 0xC00
    ensures S2Clear(a) == S2Clear(b)
  {
  }

  /** A Landsat Collection 2 Level-2 pixel: the quality word and the thermal band's DN. */
  datatype LandsatPixel = LandsatPixel(qaPixel: bv16, stB10: real)

  /** A Sentinel-2 surface-reflectance pixel as stored: quality word and band DNs. */
  datatype S2Raw = S2Raw(qa60: bv16, b2: real, b3: real, b4: real, b8: real, b11: real, b12: real)

  /** The same pixel after `divide(10000)`: every band, the quality band included, is rescaled. */
  datatype S2Pixel = S2Pixel(qa60: real, b2: real, b3: real, b4: real, b8: real, b11: real, b12: real)

  /** `mask_invalid_pixels` on one pixel (`None` is a masked pixel). */
  function MaskInvalidPixel(p: Option<LandsatPixel>): (r: Option<LandsatPixel>)
    ensures r.Some? <==> p.Some? && LandsatClear(p.value.qaPixel)
    ensures r.Some? ==> r == p
  {
    match p
    case None => None
    case Some(px) => if LandsatClear(px.qaPixel) then p else None
  }

  /** `image.updateMask(mask).divide(10000)` on one pixel. */
  function MaskS2Cloud(p: Option<S2Raw>): (r: Option<S2Pixel>)
    ensures r.Some? <==> p.Some? && S2Clear(p.value.qa60)
    ensures r.Some? ==>
              && r.value.b2 * S2Scale == p.value.b2 && r.value.b3 * S2Scale == p.value.b3
              && r.value.b4 * S2Scale == p.value.b4 && r.value.b8 * S2Scale == p.value.b8
              && r.value.b11 * S2Scale == p.value.b11 && r.value.b12 * S2Scale == p.value.b12
              && r.value.qa60 * S2Scale == p.value.qa60 as int as real
  {
    match p
    case None => None
    case Some(px) =>
      if S2Clear(px.qa60) then
        Some(S2Pixel(px.qa60 as int as real / S2Scale, px.b2 / S2Scale, px.b3 / S2Scale,
                     px.b4 / S2Scale, px.b8 / S2Scale, px.b11 / S2Scale, px.b12 / S2Scale))
      else None
  }

  /** `mask_invalid_pixels` on a whole image, pixel by pixel. */
  function MaskInvalidPixels(img: seq<Option<LandsatPixel>>): (r: seq<Option<LandsatPixel>>)
    ensures |r| == |img|
    ensures forall k :: 0 <= k < |r| ==> r[k] == MaskInvalidPixel(img[k])
  {
    seq(|img|, k requires 0 <= k < |img| => MaskInvalidPixel(img[k]))
  }

  /** `mask_s2_clouds` on a whole image, pixel by pixel. */
  function MaskS2Clouds(img: seq<Option<S2Raw>>): (r: seq<Option<S2Pixel>>)
    ensures |r| == |img|
    ensures forall k :: 0 <= k < |r| ==> r[k] == MaskS2Cloud(img[k])
  {
    seq(|img|, k requires 0 <= k < |img| => MaskS2Cloud(img[k]))
  }

  /** Masking never brings back a pixel: a masked pixel stays masked. */
  lemma MaskInvalidPixelsOnlyRemoves(img: seq<Option<LandsatPixel>>, k: int)
    requires 0 <= k < |img| && img[k].None?
    ensures MaskInvalidPixels(img)[k].None?
  {
  }

  /** Landsat masking is idempotent. */
  lemma MaskInvalidPixelsIdempotent(img: seq<Option<LandsatPixel>>)
    ensures MaskInvalidPixels(MaskInvalidPixels(img)) == MaskInvalidPixels(img)
  {
  }
}

=== FILE: rasters.dfy ===
/**
 * Single-band rasters over the pixels of an area of interest. A pixel is either masked (`None`)
 * or holds a value. Masks are rasters too: `updateMask(m)` keeps a pixel where the mask pixel is
 * present and non-zero, and drops it where the mask is zero or itself masked. Clipping to the
 * area of interest is the identity here, since the pixel list is the area of interest.
 */
module Rasters {
  import opened Wrappers

  type Raster = seq<Option<real>>

  /** The number of unmasked pixels. */
  function Count(r: Raster): (n: nat)
    ensures n <= |r|
  {
    if r == [] then 0 else (if r[0].Some? then 1 else 0) + Count(r[1..])
  }

  /** The sum of the unmasked pixels. */
  function Sum(r: Raster): real {
    if r == [] then 0.0 else (if r[0].Some? then r[0].value else 0.0) + Sum(r[1..])
  }

  /** `reduceRegion(ee.Reducer.mean())`: no value when every pixel is masked. */
  function Mean(r: Raster): (m: Option<real>)
    ensures m.None? <==> Count(r) == 0
    ensures m.Some? ==> m.value * (Count(r) as real) == Sum(r)
  {
    if Count(r) == 0 then None else Some(Sum(r) / Count(r) as real)
  }

  predicate Full(r: Raster) {
    forall k :: 0 <= k < |r| ==> r[k].Some?
  }

  /** A mask pixel lets its pixel through when it is present and non-zero. */
  predicate Keeps(m: Option<real>) {
    m.Some? && m.value != 0.0
  }

  /** `image.updateMask(mask)`. */
  function UpdateMask(r: Raster, mask: Raster): Raster
    requires |mask| == |r|
  {
    seq(|r|, k requires 0 <= k < |r| => if Keeps(mask[k]) then r[k] else None)
  }

  /** `image.mask()`: 1 where the pixel is present, 0 where it is masked; never masked itself. */
  function MaskOf(r: Raster): Raster {
    seq(|r|, k requires 0 <= k < |r| => if r[k].Some? then Some(1.0) else Some(0.0))
  }

  /** `image.unmask(v)`: masked pixels take the value `v`. */
  function Unmask(r: Raster, v: real): Raster {
    seq(|r|, k requires 0 <= k < |r| => if r[k].Some? then r[k] else Some(v))
  }

  /** `image.not()` / `image.Not()`: 1 where the value is 0, 0 elsewhere; masked stays masked. */
  function Not(r: Raster): Raster {
    seq(|r|, k requires 0 <= k < |r| =>
      match r[k] case None => None case Some(v) => Some(if v == 0.0 then 1.0 else 0.0))
  }

  /** `image.gt(t)`: 1 where the value is strictly above `t`, 0 elsewhere; masked stays masked. */
  function Gt(r: Raster, t: real): Raster {
    seq(|r|, k requires 0 <= k < |r| =>
      match r[k] case None => None case Some(v) => Some(if v > t then 1.0 else 0.0))
  }

  /** `image.neq(c)`: 1 where the value differs from `c`, 0 elsewhere; masked stays masked. */
  function Neq(r: Raster, c: real): Raster {
    seq(|r|, k requires 0 <= k < |r| =>
      match r[k] case None => None case Some(v) => Some(if v != c then 1.0 else 0.0))
  }

  /** `a.subtract(b)`: defined where both operands are. */
  function Subtract(a: Raster, b: Raster): Raster
    requires |a| == |b|
  {
    seq(|a|, k requires 0 <= k < |a| =>
      if a[k].Some? && b[k].Some? then Some(a[k].value - b[k].value) else None)
  }

  /** The value of pixel `k` of a raster; a raster that does not reach `k` is masked there. */
  function PixelAt(r: Raster, k: nat): Option<real> {
    if k < |r| then r[k] else None
  }

  /** The values one pixel takes across a stack of rasters. */
  function Column(stack: seq<Raster>, k: nat): Raster {
    seq(|stack|, i requires 0 <= i < |stack| => PixelAt(stack[i], k))
  }

  /** `collection.mean()` over `n` pixels: per pixel, the mean of the images where it is unmasked. */
  function TemporalMean(stack: seq<Raster>, n: nat): (r: Raster)
    ensures |r| == n
  {
    seq(n, k requires 0 <= k < n => Mean(Column(stack, k)))
  }

  // ----- Properties -----

  /** A composite pixel is present iff some image of the stack has that pixel. */
  lemma {:induction false} CountPositive(r: Raster)
    ensures Count(r) > 0 <==> exists k :: 0 <= k < |r| && r[k].Some?
  {
    if r != [] {
      CountPositive(r[1..]);
      if r[0].None? {
        forall k | 0 < k < |r| && r[k].Some? ensures r[1..][k - 1].Some? { }
      } else {
        assert r[0].Some?;
      }
    }
  }

  /** Full rasters count every pixel. */
  lemma {:induction false} CountFull(r: Raster)
    requires Full(r)
    ensures Count(r) == |r|
  {
    if r != [] {
      assert Full(r[1..]) by { forall k | 0 <= k < |r[1..]| ensures r[1..][k].Some? { assert r[1..][k] == r[k + 1]; } }
      CountFull(r[1..]);
    }
  }

  /** Re-masking an image with its own mask changes no pixel. */
  lemma UpdateMaskSelf(r: Raster)
    ensures UpdateMask(r, MaskOf(r)) == r
  {
  }

  /** A pixel present after `updateMask` was present before with the same value. */
  lemma UpdateMaskOnlyRemoves(r: Raster, mask: Raster, k: int)
    requires |mask| == |r| && 0 <= k < |r| && UpdateMask(r, mask)[k].Some?
    ensures r[k] == UpdateMask(r, mask)[k] && Keeps(mask[k])
  {
  }

  /** After `unmask(v)` nothing is masked, and the present pixels are untouched. */
  lemma UnmaskFills(r: Raster, v: real)
    ensures Full(Unmask(r, v))
    ensures forall k :: 0 <= k < |r| && r[k].Some? ==> Unmask(r, v)[k] == r[k]
  {
  }

  /** Filling the gaps with `v` adds `v` once per masked pixel to the sum. */
  lemma {:induction false} UnmaskSum(r: Raster, v: real)
    ensures Count(Unmask(r, v)) == |r|
    ensures Sum(Unmask(r, v)) == Sum(r) + ((|r| - Count(r)) as real) * v
  {
    if r != [] {
      UnmaskSum(r[1..], v);
      assert Unmask(r, v)[1..] == Unmask(r[1..], v);
    }
  }

  /** Filling a raster's gaps with its own mean leaves the mean unchanged. */
  lemma {:induction false} MeanOfGapFill(r: Raster)
    requires Count(r) > 0
    ensures Mean(Unmask(r, Mean(r).value)) == Mean(r)
  {
    var m := Mean(r).value;
    var u := Unmask(r, m);
    UnmaskSum(r, m);
    FillArithmetic(m, Count(r) as real, |r| as real, Sum(r), Mean(u).value);
  }

  /** The arithmetic of a gap fill: `n - c` extra values `m` keep the mean `m` of `c` values. */
  lemma FillArithmetic(m: real, c: real, n: real, s: real, f: real)
    requires 0.0 < c <= n && m * c == s && f * n == s + (n - c) * m
    ensures f == m
  {
    assert s + (n - c) * m == m * n;
    Cancel(f, m, n);
  }

  lemma MulStrictPos(a: real, b: real, c: real)
    requires a > b && c > 0.0
    ensures a * c > b * c
  {
    assert (a - b) * c > 0.0;
  }

  /** A positive factor cancels. */
  lemma Cancel(a: real, b: real, c: real)
    requires c > 0.0 && a * c == b * c
    ensures a == b
  {
    if a > b { MulStrictPos(a, b, c); }
    if b > a { MulStrictPos(b, a, c); }
  }

  /** The difference of two full rasters sums to the difference of their sums. */
  lemma {:induction false} SubtractSum(a: Raster, b: Raster)
    requires |a| == |b| && Full(a) && Full(b)
    ensures Full(Subtract(a, b))
    ensures Sum(Subtract(a, b)) == Sum(a) - Sum(b)
  {
    if a != [] {
      assert Subtract(a, b)[1..] == Subtract(a[1..], b[1..]);
      assert Full(a[1..]) by { forall k | 0 <= k < |a| - 1 ensures a[1..][k].Some? { assert a[1..][k] == a[k + 1]; } }
      assert Full(b[1..]) by { forall k | 0 <= k < |b| - 1 ensures b[1..][k].Some? { assert b[1..][k] == b[k + 1]; } }
      SubtractSum(a[1..], b[1..]);
    }
  }

  /** The mean of a difference of full rasters is the difference of their means. */
  lemma SubtractMean(a: Raster, b: Raster)
    requires |a| == |b| && |a| > 0 && Full(a) && Full(b)
    ensures Mean(Subtract(a, b)) == Some(Mean(a).value - Mean(b).value)
  {
    SubtractSum(a, b);
    CountFull(a);
    CountFull(b);
    CountFull(Subtract(a, b));
    var n := |a| as real;
    var d := Subtract(a, b);
    var ma, mb, md := Mean(a).value, Mean(b).value, Mean(d).value;
    assert ma * (Count(a) as real) == Sum(a);
    assert mb * (Count(b) as real) == Sum(b);
    assert md * (Count(d) as real) == Sum(d);
    assert Count(a) as real == n && Count(b) as real == n && Count(d) as real == n;
    assert md * n == Sum(d);
    assert ma * n == Sum(a);
    assert mb * n == Sum(b);
    assert Sum(d) == Sum(a) - Sum(b);
    DifferenceOfQuotients(md, ma, mb, n, Sum(d), Sum(a), Sum(b));
  }

  lemma DifferenceOfQuotients(q: real, a: real, b: real, n: real, sq: real, sa: real, sb: real)
    requires n > 0.0 && q * n == sq && a * n == sa && b * n == sb && sq == sa - sb
    ensures q == a - b
  {
    assert a * n - b * n == (a - b) * n;
    Cancel(q, a - b, n);
  }

  /** The number of present pixels whose value differs from `c`. */
  function CountOther(r: Raster, c: real): (n: nat)
    ensures n <= Count(r)
  {
    if r == [] then 0 else (if r[0].Some? && r[0].value != c then 1 else 0) + CountOther(r[1..], c)
  }

  /** Masking the pixels equal to 0 keeps the sum and counts only the non-zero pixels. */
  lemma {:induction false} MaskZerosSum(r: Raster)
    ensures Sum(UpdateMask(r, Neq(r, 0.0))) == Sum(r)
    ensures Count(UpdateMask(r, Neq(r, 0.0))) == CountOther(r, 0.0)
  {
    if r != [] {
      assert UpdateMask(r, Neq(r, 0.0))[1..] == UpdateMask(r[1..], Neq(r[1..], 0.0));
      MaskZerosSum(r[1..]);
    }
  }

  /** A one-image collection's mean is that image. */
  lemma TemporalMeanSingle(img: Raster)
    ensures TemporalMean([img], |img|) == img
  {
    forall k | 0 <= k < |img| ensures TemporalMean([img], |img|)[k] == img[k] {
      var col := Column([img], k);
      assert col == [img[k]] by { assert PixelAt(img, k) == img[k]; }
      assert col[1..] == [];
      assert Count(col) == (if img[k].Some? then 1 else 0);
      assert Sum(col) == (if img[k].Some? then img[k].value else 0.0);
    }
  }

  /** A composite pixel is present iff at least one image has that pixel. */
  lemma TemporalMeanPresent(stack: seq<Raster>, n: nat, k: nat)
    requires k < n
    ensures TemporalMean(stack, n)[k].Some? <==> exists i :: 0 <= i < |stack| && PixelAt(stack[i], k).Some?
  {
    var col := Column(stack, k);
    CountPositive(col);
    if exists i :: 0 <= i < |stack| && PixelAt(stack[i], k).Some? {
      var i :| 0 <= i < |stack| && PixelAt(stack[i], k).Some?;
      assert col[i].Some?;
    }
  }
}

=== FILE: tasks.dfy ===
/**
 * What a script leaves behind: the export tasks it submits, the map layers it adds and the
 * layers it reports, in order, and the error that stops it, if any. An image or a statistic the
 * server cannot compute (a zonal mean over an empty zone) is `None`: the export is still submitted.
 */
module Tasks {
  import opened Wrappers
  import opened Rasters

  datatype ScriptError = TypeError | ReferenceError | SyntaxError

  datatype Effect =
    | ImageExport(description: string, fileNamePrefix: string, image: Option<Raster>, weekTag: Option<string>)
    /** `Export.table.toDrive` of one feature over the area; `value` is what the feature is given
     * as its properties argument. */
    | TableExport(description: string, value: Option<real>)
    | MapLayer(caption: string, image: Option<Raster>)
    | LayerReport(caption: string)

  /** The effects of one call, and the error it ends with. */
  datatype Step = Step(effects: seq<Effect>, error: Option<ScriptError>)

  const Nothing: Step := Step([], None)

  /** The name an effect is filed under: an export's description, a layer's label. */
  function Title(e: Effect): string {
    match e
    case ImageExport(d, _, _, _) => d
    case TableExport(d, _) => d
    case MapLayer(l, _) => l
    case LayerReport(l) => l
  }

  /** `Export.image.toDrive` without a `fileNamePrefix`: the file is named after the description. */
  function Export(description: string, image: Option<Raster>, weekTag: Option<string>): (e: Effect)
    ensures e.ImageExport? && e.fileNamePrefix == e.description == description
  {
    ImageExport(description, description, image, weekTag)
  }

  /** Running `b` after `a`: nothing after an error runs. */
  function Then(a: Step, b: Step): (r: Step)
    ensures a.error.Some? ==> r == a
    ensures a.error.None? ==> r.effects == a.effects + b.effects && r.error == b.error
  {
    if a.error.Some? then a else Step(a.effects + b.effects, b.error)
  }

  lemma ThenAssociative(a: Step, b: Step, c: Step)
    ensures Then(Then(a, b), c) == Then(a, Then(b, c))
  {
    if a.error.None? && b.error.None? {
      assert (a.effects + b.effects) + c.effects == a.effects + (b.effects + c.effects);
    }
  }

  /** Steps run one after another, stopping at the first error. */
  function Fold(steps: seq<Step>): Step
    decreases |steps|
  {
    if steps == [] then Nothing
    else Then(Fold(steps[..|steps| - 1]), steps[|steps| - 1])
  }

  /** Running one more step after a prefix of the steps. */
  lemma FoldSnoc(steps: seq<Step>, i: nat)
    requires i < |steps|
    ensures Fold(steps[..i + 1]) == Then(Fold(steps[..i]), steps[i])
  {
    assert steps[..i + 1][..i] == steps[..i];
  }

  /** A run that has not failed yet appends the next step's effects and takes on its error. */
  lemma FoldExtends(steps: seq<Step>, i: nat)
    requires i < |steps| && Fold(steps[..i]).error.None?
    ensures Fold(steps[..i + 1]).effects == Fold(steps[..i]).effects + steps[i].effects
    ensures Fold(steps[..i + 1]).error == steps[i].error
  {
    FoldSnoc(steps, i);
  }

  /** Once a prefix of the steps has failed, the later steps add nothing. */
  lemma {:induction false} FoldStopped(steps: seq<Step>, i: nat)
    requires i <= |steps| && Fold(steps[..i]).error.Some?
    ensures Fold(steps) == Fold(steps[..i])
    decreases |steps| - i
  {
    if i < |steps| {
      var k := |steps| - 1;
      assert steps[..k][..i] == steps[..i];
      FoldStopped(steps[..k], i);
    } else {
      assert steps[..i] == steps;
    }
  }

  /** Every effect of a run comes from one of its steps. */
  lemma {:induction false} FoldMember(steps: seq<Step>, e: Effect)
    requires e in Fold(steps).effects
    ensures exists i :: 0 <= i < |steps| && e in steps[i].effects
  {
    var k := |steps| - 1;
    if e in Fold(steps[..k]).effects {
      FoldMember(steps[..k], e);
      var i :| 0 <= i < k && e in steps[..k][i].effects;
      assert steps[..k][i] == steps[i];
    } else {
      assert e in steps[k].effects;
    }
  }

  /** When every step yields exactly one effect and no error, the run is those effects in order. */
  lemma {:induction false} FoldOnePerStep(steps: seq<Step>)
    requires forall i :: 0 <= i < |steps| ==> |steps[i].effects| == 1 && steps[i].error.None?
    ensures Fold(steps).error.None? && |Fold(steps).effects| == |steps|
    ensures forall i :: 0 <= i < |steps| ==> Fold(steps).effects[i] == steps[i].effects[0]
  {
    if steps != [] {
      var k := |steps| - 1;
      assert forall i :: 0 <= i < k ==> steps[..k][i] == steps[i];
      FoldOnePerStep(steps[..k]);
    }
  }

  /** A step that issues at most one effect, and fails with `err` exactly when it issues one. */
  predicate StopsAfterOne(s: Step, err: ScriptError) {
    |s.effects| <= 1 && (s.effects == [] <==> s.error.None?) && (s.error.Some? ==> s.error == Some(err))
  }

  /** Steps that each stop after their one effect make a run with at most one effect in all. */
  lemma {:induction false} FoldStopsAfterOne(steps: seq<Step>, err: ScriptError)
    requires forall i :: 0 <= i < |steps| ==> StopsAfterOne(steps[i], err)
    ensures StopsAfterOne(Fold(steps), err)
  {
    if steps != [] {
      var k := |steps| - 1;
      assert forall i :: 0 <= i < k ==> steps[..k][i] == steps[i];
      FoldStopsAfterOne(steps[..k], err);
    }
  }

  /** An image export and a table export under one name, the table request given the image's AOI
   * mean as its feature's properties argument. */
  predicate ImageWithMean(effects: seq<Effect>, name: string) {
    |effects| == 2 && effects[0].ImageExport? && effects[1].TableExport?
    && effects[0].description == name && effects[0].fileNamePrefix == name
    && effects[1].description == name
    && effects[1].value == MeanOf(effects[0].image)
  }

  /** The two exports of an image under one name: the image itself, then a table request given
   * its AOI mean. */
  function ExportWithMean(name: string, image: Option<Raster>): (r: seq<Effect>)
    ensures ImageWithMean(r, name) && r[0].image == image
  {
    [Export(name, image, None), TableExport(name, MeanOf(image))]
  }

  /** The AOI mean of an optional raster: `reduceRegion` has no value when there is no raster. */
  function MeanOf(r: Option<Raster>): (m: Option<real>)
    ensures m.Some? <==> r.Some? && Count(r.value) > 0
  {
    if r.Some? then Mean(r.value) else None
  }
}

=== FILE: uhi.dfy ===
/**
 * Urban masks from night-time lights, and the urban heat island raster: each zone of the land
 * surface temperature composite is gap-filled with its own mean, and the urban raster minus the
 * non-urban raster is the heat island raster.
 */
module Uhi {
  import opened Wrappers
  import opened Rasters

  /** `mean_lights.gt(5)` of the heat-island scripts. */
  const HorizonThreshold: real := 5.0
  /** `threshold = 10` of the weekly urban-mask scripts. */
  const WeeklyThreshold: real := 10.0

  /** `get_urban_mask` / `getCityUrbanMask`: the horizon's mean `avg_rad` above 5. */
  function HorizonUrbanMask(viirs: seq<Raster>, n: nat): (m: Raster)
    ensures |m| == n
  {
    Gt(TemporalMean(viirs, n), HorizonThreshold)
  }

  /** `week_nightlights.clip(city_boundary).gt(threshold)`: one week's mean `avg_rad` above 10. */
  function WeeklyUrbanMask(viirs: seq<Raster>, n: nat): (m: Raster)
    ensures |m| == n
  {
    Gt(TemporalMean(viirs, n), WeeklyThreshold)
  }

  /** The threshold is strict: a pixel is urban iff its radiance is present and above it. */
  lemma GtStrict(r: Raster, t: real, k: int)
    requires 0 <= k < |r|
    ensures Gt(r, t)[k] == Some(1.0) <==> r[k].Some? && r[k].value > t
    ensures Gt(r, t)[k] == Some(0.0) <==> r[k].Some? && r[k].value <= t
    ensures Gt(r, t)[k].None? <==> r[k].None?
  {
  }

  /** With the weekly threshold, radiance 12 is urban while 8 and exactly 10 are not. */
  lemma WeeklyThresholdExamples()
    ensures Gt([Some(12.0), Some(8.0), Some(10.0)], WeeklyThreshold) == [Some(1.0), Some(0.0), Some(0.0)]
  {
  }

  /** `lst_mean.updateMask(urban_mask)`. */
  function UrbanZone(lst: Raster, urban: Raster): Raster
    requires |urban| == |lst|
  {
    UpdateMask(lst, urban)
  }

  /** `lst_mean.updateMask(urban_mask.Not())`. */
  function NonUrbanZone(lst: Raster, urban: Raster): Raster
    requires |urban| == |lst|
  {
    UpdateMask(lst, Not(urban))
  }

  /** Both zonal means exist: neither zone is empty. */
  predicate ZonesNonEmpty(lst: Raster, urban: Raster)
    requires |urban| == |lst|
  {
    Count(UrbanZone(lst, urban)) > 0 && Count(NonUrbanZone(lst, urban)) > 0
  }

  /** A pixel is urban when its mask value is present and non-zero. */
  predicate IsUrban(urban: Raster, k: int)
    requires 0 <= k < |urban|
  {
    Keeps(urban[k])
  }

  /** A pixel is non-urban when its mask value is present and zero. */
  predicate IsNonUrban(urban: Raster, k: int)
    requires 0 <= k < |urban|
  {
    urban[k] == Some(0.0)
  }

  /** Every pixel of the composite falls in at most one zone; a masked urban pixel in neither. */
  lemma ZonesDisjoint(lst: Raster, urban: Raster, k: int)
    requires |urban| == |lst| && 0 <= k < |lst|
    ensures UrbanZone(lst, urban)[k].Some? <==> lst[k].Some? && IsUrban(urban, k)
    ensures NonUrbanZone(lst, urban)[k].Some? <==> lst[k].Some? && IsNonUrban(urban, k)
    ensures !(UrbanZone(lst, urban)[k].Some? && NonUrbanZone(lst, urban)[k].Some?)
  {
  }

  /** `zone.unmask(ee.Number(zone_mean))`: every other pixel takes the zone's own mean. */
  function GapFill(zone: Raster): (r: Raster)
    requires Count(zone) > 0
    ensures |r| == |zone| && Full(r)
    ensures Mean(r) == Mean(zone)
    ensures forall k :: 0 <= k < |zone| ==> r[k] == (if zone[k].Some? then zone[k] else Mean(zone))
  {
    UnmaskFills(zone, Mean(zone).value);
    MeanOfGapFill(zone);
    Unmask(zone, Mean(zone).value)
  }

  /** `urban_lst.subtract(nonurban_lst)` after both gap-fills. */
  function UhiRaster(lst: Raster, urban: Raster): (r: Raster)
    requires |urban| == |lst| && ZonesNonEmpty(lst, urban)
    ensures |r| == |lst| && Full(r)
  {
    var u := GapFill(UrbanZone(lst, urban));
    var v := GapFill(NonUrbanZone(lst, urban));
    SubtractSum(u, v);
    Subtract(u, v)
  }

  function UrbanMean(lst: Raster, urban: Raster): real
    requires |urban| == |lst| && ZonesNonEmpty(lst, urban)
  {
    Mean(UrbanZone(lst, urban)).value
  }

  function NonUrbanMean(lst: Raster, urban: Raster): real
    requires |urban| == |lst| && ZonesNonEmpty(lst, urban)
  {
    Mean(NonUrbanZone(lst, urban)).value
  }

  /**
   * Per pixel, the heat island value is: an urban pixel's temperature minus the non-urban mean;
   * the urban mean minus a non-urban pixel's temperature; and the difference of the two means
   * wherever the composite or the urban mask is masked.
   */
  lemma UhiPixel(lst: Raster, urban: Raster, k: int)
    requires |urban| == |lst| && ZonesNonEmpty(lst, urban) && 0 <= k < |lst|
    ensures lst[k].Some? && IsUrban(urban, k) ==>
      UhiRaster(lst, urban)[k] == Some(lst[k].value - NonUrbanMean(lst, urban))
    ensures lst[k].Some? && IsNonUrban(urban, k) ==>
      UhiRaster(lst, urban)[k] == Some(UrbanMean(lst, urban) - lst[k].value)
    ensures lst[k].None? || urban[k].None? ==>
      UhiRaster(lst, urban)[k] == Some(UrbanMean(lst, urban) - NonUrbanMean(lst, urban))
  {
    ZonesDisjoint(lst, urban, k);
  }

  /** The reported `uhi_index`, the AOI mean of the heat island raster, is `uMean - nMean`. */
  lemma UhiIndex(lst: Raster, urban: Raster)
    requires |urban| == |lst| && ZonesNonEmpty(lst, urban)
    ensures Mean(UhiRaster(lst, urban)) == Some(UrbanMean(lst, urban) - NonUrbanMean(lst, urban))
  {
    var u := GapFill(UrbanZone(lst, urban));
    var v := GapFill(NonUrbanZone(lst, urban));
    SubtractMean(u, v);
  }

  /** `uhi_index.updateMask(uhi_index.neq(0))` of the map view: zero-valued pixels are dropped. */
  function MaskZeros(uhi: Raster): Raster {
    UpdateMask(uhi, Neq(uhi, 0.0))
  }

  /** The map view hides exactly the zero-valued pixels and shows every other pixel unchanged. */
  lemma MaskZerosPixel(uhi: Raster, k: int)
    requires 0 <= k < |uhi|
    ensures |MaskZeros(uhi)| == |uhi|
    ensures MaskZeros(uhi)[k].Some? <==> uhi[k].Some? && uhi[k].value != 0.0
    ensures MaskZeros(uhi)[k].Some? ==> MaskZeros(uhi)[k] == uhi[k]
  {
  }

  /** The map view's statistic sums the same pixels but counts only the non-zero ones. */
  lemma MaskZerosStatistic(uhi: Raster)
    ensures Sum(MaskZeros(uhi)) == Sum(uhi)
    ensures Count(MaskZeros(uhi)) == CountOther(uhi, 0.0)
  {
    MaskZerosSum(uhi);
  }

  /** With no zero-valued pixel, the map view's statistic is the exported `uhi_index`. */
  lemma MaskZerosNoZero(uhi: Raster)
    requires forall k :: 0 <= k < |uhi| ==> uhi[k] != Some(0.0)
    ensures Mean(MaskZeros(uhi)) == Mean(uhi)
  {
    assert MaskZeros(uhi) == uhi;
  }

  /** With a zero-valued pixel and a non-zero sum, the map view's statistic differs from `uhi_index`. */
  lemma MaskZerosDiffers(uhi: Raster, k: int)
    requires 0 <= k < |uhi| && uhi[k] == Some(0.0) && Sum(uhi) != 0.0
    ensures Mean(MaskZeros(uhi)) != Mean(uhi)
  {
    MaskZerosSum(uhi);
    CountOtherMissesZero(uhi, k);
    MeansDiffer(MaskZeros(uhi), uhi);
  }

  /** Two rasters with the same non-zero sum over different pixel counts have different means. */
  lemma MeansDiffer(a: Raster, b: Raster)
    requires Sum(a) == Sum(b) && Sum(b) != 0.0 && Count(a) != Count(b)
    ensures Mean(a) != Mean(b)
  {
    if Count(a) > 0 && Count(b) > 0 && Mean(a) == Mean(b) {
      SameMeanSameCount(Mean(b).value, Count(a) as real, Count(b) as real, Sum(b));
    }
  }

  lemma SameMeanSameCount(m: real, c: real, n: real, s: real)
    requires m * c == s && m * n == s && s != 0.0
    ensures c == n
  {
    if m > 0.0 {
      if c > n { MulStrictPos(c, n, m); } else if c < n { MulStrictPos(n, c, m); }
    } else if m < 0.0 {
      if c > n { MulStrictPos(c, n, -m); } else if c < n { MulStrictPos(n, c, -m); }
    }
  }

  /** A zero pixel is not counted among the non-zero ones. */
  lemma {:induction false} CountOtherMissesZero(r: Raster, k: int)
    requires 0 <= k < |r| && r[k] == Some(0.0)
    ensures CountOther(r, 0.0) < Count(r)
  {
    if k > 0 {
      CountOtherMissesZero(r[1..], k - 1);
    } else {
      assert CountOther(r[1..], 0.0) <= Count(r[1..]);
    }
  }
}

=== FILE: urban_js.dfy ===
/**
 * server/gee/js/urban.js: the Code Editor urban-mask script. As written it does not parse: the
 * `description` entry of its export options lacks its trailing comma, so nothing runs. As
 * intended, it exports every window's urban mask (mean night-time radiance above 10) as
 * `clean_um_date` for the one city it names, 'Jiddah', whatever `city_names` holds.
 */
module UrbanJs {
  import opened Wrappers
  import opened Rasters
  import opened Uhi
  import opened Catalog
  import opened Names
  import opened Dates
  import opened Weeks
  import opened Tasks

  const CityNames: seq<string> := ["Riyadh"]

  /** The only call the script makes: `exportUrbanMask('Jiddah')`. */
  const Processed: seq<string> := ["Jiddah"]

  /** The file as written: a syntax error, before any statement runs. */
  function ScriptAsWritten(): (r: Step)
    ensures r.effects == [] && r.error == Some(SyntaxError)
  {
    Step([], Some(SyntaxError))
  }

  /** The number of VIIRS scenes behind `weekNightLights`. */
  function WeekScenes(c: CityCatalog, horizonStart: int, horizonEnd: int, w: Week): nat {
    |FilterDate(FilterDate(c.viirs, horizonStart, horizonEnd), w.start, w.end)|
  }

  /** `weekNightLights.clip(cityBoundary).gt(threshold)`, `viirs` being the horizon's scenes. */
  function WeekMask(c: CityCatalog, horizonStart: int, horizonEnd: int, w: Week): (m: Raster)
    ensures |m| == c.pixels
  {
    WeeklyUrbanMask(Stack(FilterDate(FilterDate(c.viirs, horizonStart, horizonEnd), w.start, w.end), RadianceBand), c.pixels)
  }

  /** One iteration of `exportUrbanMask` as intended: one export per window, with no image when
   * the window has no scenes (the mean of an empty collection has no bands to select). */
  function ExportUrbanMask(c: CityCatalog, horizonStart: int, horizonEnd: int, city: string, w: Week): (r: Step)
    requires ValidDay(w.start)
    ensures r.error.None?
    ensures r.effects == [Export(ArtifactName(Clean(RemoveWhitespaceRuns, city), "um", Format(w.start)),
                                 (if WeekScenes(c, horizonStart, horizonEnd, w) > 0 then Some(WeekMask(c, horizonStart, horizonEnd, w)) else None), None)]
  {
    Step([Export(ArtifactName(Clean(RemoveWhitespaceRuns, city), "um", Format(w.start)),
                 (if WeekScenes(c, horizonStart, horizonEnd, w) > 0 then Some(WeekMask(c, horizonStart, horizonEnd, w)) else None), None)], None)
  }
}

=== FILE: urbanmask_py.dfy ===
/**
 * server/gee/urbanmask.py: per window, the urban mask of that window alone (mean night-time
 * radiance above 10), exported every week under `clean_um_date` as both description and file
 * name prefix. The window count truncates the quotient instead of flooring it.
 */
module UrbanMaskPy {
  import opened Wrappers
  import opened Rasters
  import opened Uhi
  import opened Catalog
  import opened Names
  import opened Dates
  import opened Weeks
  import opened Tasks

  const CityNames: seq<string> := ["Riyadh"]

  /** The number of VIIRS scenes behind `week_nightlights`. */
  function WeekScenes(c: CityCatalog, horizonStart: int, horizonEnd: int, w: Week): nat {
    |FilterDate(FilterDate(c.viirs, horizonStart, horizonEnd), w.start, w.end)|
  }

  /** `week_nightlights.clip(city_boundary).gt(threshold)`, `viirs` being the horizon's scenes. */
  function WeekMask(c: CityCatalog, horizonStart: int, horizonEnd: int, w: Week): (m: Raster)
    ensures |m| == c.pixels
  {
    WeeklyUrbanMask(Stack(FilterDate(FilterDate(c.viirs, horizonStart, horizonEnd), w.start, w.end), RadianceBand), c.pixels)
  }

  /** One iteration of `export_urban_mask`: one export per window, with no image when
   * the window has no scenes (the mean of an empty collection has no bands to select). */
  function ExportUrbanMask(c: CityCatalog, horizonStart: int, horizonEnd: int, city: string, w: Week): (r: Step)
    requires ValidDay(w.start)
    ensures r.error.None?
    ensures r.effects == [ImageExport(ArtifactName(Clean(RemoveSpaces, city), "um", Format(w.start)),
                                      ArtifactName(Clean(RemoveSpaces, city), "um", Format(w.start)),
                                      (if WeekScenes(c, horizonStart, horizonEnd, w) > 0 then Some(WeekMask(c, horizonStart, horizonEnd, w)) else None), None)]
  {
    var name := ArtifactName(Clean(RemoveSpaces, city), "um", Format(w.start));
    Step([ImageExport(name, name, (if WeekScenes(c, horizonStart, horizonEnd, w) > 0 then Some(WeekMask(c, horizonStart, horizonEnd, w)) else None), None)], None)
  }
}

=== FILE: weeks.dfy ===
/**
 * The weekly windows every script builds over its analysis horizon. Days are day numbers
 * (see module Dates); the horizon starts at day `start` and is `totalDays` long, so its end
 * date is `start + totalDays`. Week `i` runs from `start + 7i` to `start + 7i + 6`.
 */
module Weeks {

  datatype Week = Week(start: int, end: int)

  /** `total_days.divide(7).floor()`: the number of whole weeks in the horizon. */
  function WeekCount(totalDays: int): (r: int)
    ensures 7 * r <= totalDays < 7 * r + 7
  {
    totalDays / 7
  }

  /** `int(total_days / 7)` of urbanmask.py: Python truncates the quotient toward zero. */
  function WeekCountTrunc(totalDays: int): (r: int)
    ensures totalDays >= 0 ==> 7 * r <= totalDays < 7 * r + 7
    ensures totalDays < 0 ==> 7 * r - 7 < totalDays <= 7 * r
  {
    if totalDays >= 0 then totalDays / 7 else -((-totalDays) / 7)
  }

  /** The `i`-th window: `start.advance(i * 7, 'day')` to `start.advance(i * 7 + 6, 'day')`. */
  function WeekAt(start: int, i: int): Week {
    Week(start + 7 * i, start + 7 * i + 6)
  }

  /** `weekly_intervals`: one window per `i` in `range(numWeeks)` (empty for a non-positive count). */
  function WeeklyIntervals(start: int, numWeeks: int): seq<Week> {
    if numWeeks <= 0 then [] else seq(numWeeks, i requires 0 <= i < numWeeks => WeekAt(start, i))
  }

  /** The windows of a horizon, as every script builds them. */
  function Windows(start: int, totalDays: int): seq<Week> {
    WeeklyIntervals(start, WeekCount(totalDays))
  }

  /** The `weeks` loop: `for i in range(num_weeks)` appending one window per step. */
  method BuildWeeks(start: int, totalDays: int) returns (weeks: seq<Week>)
    ensures weeks == Windows(start, totalDays)
  {
    var numWeeks := totalDays / 7;
    weeks := [];
    var i := 0;
    while i < numWeeks
      invariant 0 <= i <= if numWeeks < 0 then 0 else numWeeks
      invariant |weeks| == i
      invariant forall k :: 0 <= k < i ==> weeks[k] == WeekAt(start, k)
    {
      var startWeek := start + i * 7;
      var endWeek := startWeek + 6;
      weeks := weeks + [Week(startWeek, endWeek)];
      i := i + 1;
    }
  }

  /** Later windows start later. */
  lemma WindowsIncreasing(start: int, totalDays: int)
    ensures forall i, j :: 0 <= i < j < |Windows(start, totalDays)| ==>
      Windows(start, totalDays)[i].start < Windows(start, totalDays)[j].start
  {
    WindowsSpacing(start, totalDays);
  }

  /** Every window spans seven days, and consecutive windows start seven days apart. */
  lemma WindowsSpacing(start: int, totalDays: int)
    ensures forall i :: 0 <= i < |Windows(start, totalDays)| ==>
      Windows(start, totalDays)[i].end == Windows(start, totalDays)[i].start + 6
    ensures forall i :: 0 <= i < |Windows(start, totalDays)| ==>
      Windows(start, totalDays)[i].start == start + 7 * i
    ensures forall i :: 0 < i < |Windows(start, totalDays)| ==>
      Windows(start, totalDays)[i].start == Windows(start, totalDays)[i - 1].start + 7
  {
  }

  /**
   * There are `floor(totalDays / 7)` windows; they all lie inside the horizon, so the last one
   * ends at or before `endDate - 1 day`; and one more window would not fit.
   */
  lemma WindowsWithinHorizon(start: int, totalDays: int)
    requires totalDays >= 0
    ensures 7 * |Windows(start, totalDays)| <= totalDays < 7 * |Windows(start, totalDays)| + 7
    ensures forall i :: 0 <= i < |Windows(start, totalDays)| ==>
      start <= Windows(start, totalDays)[i].start && Windows(start, totalDays)[i].end <= start + totalDays - 1
    ensures start + 7 * |Windows(start, totalDays)| + 6 > start + totalDays - 1
  {
  }

  /** Every day of the first `7 * |weeks|` days of the horizon lies in exactly one window. */
  lemma WindowsPartition(start: int, totalDays: int, day: int)
    requires start <= day < start + 7 * |Windows(start, totalDays)|
    ensures var w := Windows(start, totalDays);
      var i := (day - start) / 7;
      0 <= i < |w| && w[i].start <= day <= w[i].end
      && forall j :: 0 <= j < |w| && w[j].start <= day <= w[j].end ==> j == i
  {
  }

  /** A horizon shorter than a week yields no window at all. */
  lemma ShortHorizonNoWindows(start: int, totalDays: int)
    requires totalDays < 7
    ensures Windows(start, totalDays) == []
  {
  }

  /** The truncating count of urbanmask.py gives the same windows as the floor everywhere. */
  lemma TruncWindowsAgree(start: int, totalDays: int)
    ensures WeeklyIntervals(start, WeekCountTrunc(totalDays)) == Windows(start, totalDays)
  {
  }
}

=== FILE: wrappers.dfy ===
/** The optional value and the success-or-error outcome shared by every module of the model. */
module Wrappers {

  /** A value that may be missing: a masked pixel, an undefined mean. */
  datatype Option<+T> = None | Some(value: T)

  /** The outcome of a step of the source that may raise an exception. */
  datatype Result<+T, +E> = Ok(value: T) | Err(error: E)
}
